=== FILE: README.md ===
# Quick-votes: a verified model of the activity rules

Quick-votes is a web app for live group activities: quizzes, raffles, votes and prize
wheels. An owner creates an activity, which may be private behind an access code, then
starts it and finishes it. Participants join and play. The owner reads the results.
The app is a React client over a hosted store and an identity provider. Each page
handler holds a small rule that decides what is shown, what may be clicked and what
is written.

This project models those rules in Dafny as pure functions over immutable values.
It proves the properties the pages rely on.

- **Store queries are inputs.** The rows a query returns, or the error it reports,
  are passed in (`Join.Lookup` models what `.single()` answers).
- **Writes are values.** The store's tables change only through `Entities.Write`
  values, whose effect is defined by `Entities.ApplyToItems`.
- **Other runtime values are inputs too.** Every `Math.random()` draw is a real
  number in [0, 1). The clock reading is an integer in milliseconds. The identity
  provider's user is a record.

The modules follow the source files:

- `ActivityDetails` and `ActivityLobby`: the lifecycle (`pending`, `started`, `ended`),
  expiry, and the owner's controls.
- `QuizBuilder`, `QuizPlayer`, `QuizResults` and `QuizFlow`: quizzes.
- `RaffleBuilder` and `RafflePlayer`: raffles.
- `VotingBuilder`, `VotingPlayer` and `VotingResults`: votes.
- `WheelBuilder` and `WheelPlayer`: prize wheels.
- `ResultsPage`, `Dashboard`, `CreateActivity` and `Join`: the results table, the
  dashboard, activity creation and joining.
- `Profile`: the profile page and the profile service.
- `ActivityService`: the activity service.
- `Utils`: the string utilities.
- `Toasts`: the toast list.
- `Common`, `Text` and `Entities` hold shared pieces:
  - options and sequence helpers;
  - JavaScript string behaviour (white space, `trim`, ASCII case, `includes`,
    decimal rendering, `parseInt`);
  - the store's rows and writes.

## Model

| member | source | states |
|---|---|---|
| ActivityDetails.StatusOf | src/pages/ActivityDetailsPage.jsx:54 | `state \|\| 'pending'`: a missing or empty state reads as pending, `started` and `ended` are recognised, and any other text matches none of the three |
| ActivityDetails.EffectiveStatus | src/pages/ActivityDetailsPage.jsx:54-58 | an `expires_at` strictly earlier than now forces ended whatever was stored; otherwise the stored state decides |
| ActivityDetails.CorrectiveWrite | src/pages/ActivityDetailsPage.jsx:57-65 | the write of `ended` is issued exactly when the activity is expired and its stored state is not already `ended` |
| ActivityDetails.CorrectiveWriteSettles | src/pages/ActivityDetailsPage.jsx:54-65 | once the corrective write is stored, loading again shows the same status and issues no write; an expired activity stays ended at every later instant |
| ActivityDetails.IsOwner | src/pages/ActivityDetailsPage.jsx:70 | the user owns the activity iff signed in with the activity's `user_id` |
| ActivityDetails.UserParticipation | src/pages/ActivityDetailsPage.jsx:92-93 | the participation found belongs to the user and comes from the list; none is found iff no row has the user's id |
| ActivityDetails.UserParticipationIsFirst | src/pages/ActivityDetailsPage.jsx:92 | the participation found is the first of the user's rows: no earlier row is theirs |
| ActivityDetails.VisibleTabs | src/pages/ActivityDetailsPage.jsx:291-320 | Details and Lobby always come first; Play is shown iff started; Results iff ended or owner |
| ActivityDetails.PlayAndResultsExclusiveForGuests | src/pages/ActivityDetailsPage.jsx:304-319 | someone who does not own the activity is never offered Play and Results together |
| ActivityDetails.Load | src/pages/ActivityDetailsPage.jsx:35-101 | a failed activity lookup shows the error message; the store holds `ended` iff the corrective update was issued and accepted; the page is shown iff the lookups succeed and the corrective update did not throw, and then it shows the effective status on the Details tab |
| ActivityDetails.LoadIsConsistent | src/pages/ActivityDetailsPage.jsx:54-69 | whatever the corrective update answers, a page that is shown agrees with the stored row at that instant |
| ActivityDetails.LoadIgnoresRejectedCorrection | src/pages/ActivityDetailsPage.jsx:57-64 | a rejected corrective update goes unnoticed: the page shows the activity ended while the store keeps the old state |
| ActivityDetails.StartAsWritten | src/pages/ActivityDetailsPage.jsx:110-121 | as written: the status turns to started unless the call throws, while the store changes only when it accepted the write |
| ActivityDetails.FinishAsWritten | src/pages/ActivityDetailsPage.jsx:123-135 | as written: status ended and Results tab unless the call throws, store changed only when it accepted the write |
| ActivityDetails.StartAsWrittenDiverges | src/pages/ActivityDetailsPage.jsx:110-116 | a start the store rejects leaves a consistent pending page showing a status the store does not hold |
| ActivityDetails.Start | src/pages/ActivityDetailsPage.jsx:110-121 | the status and the stored state become started together, only when the store accepted the write; the tab and local copy stay |
| ActivityDetails.Finish | src/pages/ActivityDetailsPage.jsx:123-135 | the status and stored state become ended and the tab Results together, only when the store accepted the write |
| ActivityDetails.StartFinishKeepConsistent | src/pages/ActivityDetailsPage.jsx:110-135 | start (offered while pending) and finish keep the shown status equal to the stored one whatever the store answers |
| ActivityDetails.TogglePublic | src/pages/ActivityDetailsPage.jsx:177-192 | the store receives the negation of the local flag; the local copy flips only when no error came back, otherwise nothing changes |
| ActivityDetails.TogglePublicAgreement | src/pages/ActivityDetailsPage.jsx:177-192 | local and stored flags agree after a toggle iff the toggle succeeded or they agreed before; two successful toggles restore the flag |
| ActivityLobby.OwnerControl | src/components/activities/ActivityLobby.jsx:103-132 | the owner is offered start iff pending (enabled iff there are participations), finish iff started, the ended notice iff ended, nothing for an unknown status |
| ActivityLobby.Press | src/components/activities/ActivityLobby.jsx:103-132 | the lobby's buttons run the page's handlers as written: an enabled start shows started unless the call throws and stores it only when accepted; finish does the same for ended; anything else changes nothing |
| ActivityLobby.PressCorrected | src/components/activities/ActivityLobby.jsx:103-132 | corrected: the same buttons change the status shown only when the store accepted the update |
| ActivityLobby.OwnerControlsOnlyMoveForward | src/components/activities/ActivityLobby.jsx:103-132 | whatever the owner presses and the store answers, with the handlers as wired and with the corrected ones, the status only moves pending to started or started to ended, and an ended page is unchanged |
| ActivityLobby.LobbyStartRejected | src/components/activities/ActivityLobby.jsx:103-114 | as wired, a start the store rejects leaves the lobby showing started while the store keeps pending; the corrected controls stay consistent |
| ActivityLobby.NoStartWithoutParticipants | src/components/activities/ActivityLobby.jsx:103-114 | a pending activity with no participations cannot be started from the lobby, whichever handlers are wired |
| ActivityLobby.ParticipantGuidance | src/components/activities/ActivityLobby.jsx:142-196 | a participant waits iff pending, gets the results link iff ended, and the play link otherwise |
| ActivityLobby.GuidanceTargetsVisibleTab | src/components/activities/ActivityLobby.jsx:159-195 | the tab a participant's link leads to is one the activity page shows to a non-owner |
| ActivityLobby.ActivityCode | src/components/activities/ActivityLobby.jsx:85-90 | the shown code is the first eight characters of the id (fewer if shorter), each upper-cased |
| ActivityLobby.ActivityCodeIdempotent | src/components/activities/ActivityLobby.jsx:85 | deriving the code from a shown code gives the same code |
| ActivityLobby.ParticipantLabel | src/components/activities/ActivityLobby.jsx:65 | a participant is listed by username, else by the first eight characters of the user id |
| ActivityService.CreateActivityCode | src/services/activityService.js:94-118 | a supplied non-empty code is kept with no lookup; otherwise 1 to 5 lookups are made, every candidate before the last one looked up is in use, and the code is the last one looked up if it is free, else (after five taken) the sixth, unchecked candidate |
| ActivityService.ChosenCodeIsFree | src/services/activityService.js:98-117 | when any of the five checked candidates is free, the stored code is not in use |
| ActivityService.FirstFreeAvoidsTaken | src/services/activityService.js:104-117 | from any attempt on, the loop lands on a free code when a free candidate lies ahead among the five checked |
| ActivityService.PublicActivitiesGetCode | src/services/activityService.js:94-118 | combined with the creation page: a private activity keeps the page's code, while a public one (sent with `null`) or a private one with an empty page code receives a generated code |
| ActivityService.WithCode | src/services/activityService.js:76 | the activities matched are exactly those stored with that code, each as many times as it is stored; none iff no activity has the code |
| ActivityService.WithCodeUnique | src/services/activityService.js:76 | when exactly one stored activity has the code, the match is that activity alone |
| ActivityService.WithCodeTwice | src/services/activityService.js:76 | when two stored activities have the code, at least two rows match |
| ActivityService.CodeLookupByMultiplicity | src/services/activityService.js:64-86 | `.single()` finds the activity iff it is the only one stored with the upper-cased code; a second one makes the lookup fail like a missing one |
| ActivityService.FindByAccessCode | src/services/activityService.js:64-86 | an activity is returned iff exactly one stored activity has the upper-cased code, and it is that activity |
| ActivityService.LookupIgnoresCase | src/services/activityService.js:76 | looking up the lower-cased spelling of a code finds what the original spelling finds |
| ActivityService.Positioned | src/services/activityService.js:219-223 | one row per item, in order, with the activity id, the content, and the item's own position or else its index |
| ActivityService.SaveItems | src/services/activityService.js:210-238 | saving issues the delete of the activity's items and then one batch insert of the positioned rows |
| ActivityService.ReplaceWithRows | src/services/activityService.js:212-229 | delete-then-insert leaves exactly the inserted rows for the activity and every other activity's items unchanged |
| ActivityService.SaveItemsReplaces | src/services/activityService.js:210-238 | when the store accepts the delete, the activity's items are exactly the positioned rows in order, other activities' items are unchanged, and items without positions get 0, 1, 2, ... |
| ActivityService.SaveItemsWithRejectedDelete | src/services/activityService.js:210-238 | the delete's error is never read: when the store rejects it the old items stay and the positioned rows follow them; other activities' items are unchanged |
| ActivityService.PublicWindow | src/services/activityService.js:247-263 | the window starts at page times limit and holds limit rows, with defaults 10 and 0 |
| ActivityService.PageOf | src/services/activityService.js:249-263 | a page never holds more rows than the limit |
| ActivityService.PagesTile | src/services/activityService.js:247-263 | the default window is rows 0 to 9, and two consecutive pages together are exactly the rows of both windows, with no gap or overlap |
| CreateActivity.InitialForm | src/pages/CreateActivityPage.jsx:25-30 | the form starts with an empty title and description, public, and no expiry |
| CreateActivity.ToString36 | src/pages/CreateActivityPage.jsx:62 | a draw renders as `0.` followed by its base-36 fraction digits, or `0` for a zero draw |
| CreateActivity.Substring | src/pages/CreateActivityPage.jsx:62 | `substring` clamps both ends to the length |
| CreateActivity.RandomCode | src/pages/CreateActivityPage.jsx:62 | the page code is the first (up to) six base-36 digits of the draw, each upper-cased |
| CreateActivity.RandomCodeShape | src/pages/CreateActivityPage.jsx:62 | a page code has at most six characters, all upper-case base-36 digits, upper-casing it changes nothing, and it is empty only for a zero draw |
| CreateActivity.HandleSubmit | src/pages/CreateActivityPage.jsx:44-82 | no type selected creates nothing; a throwing date conversion is an error; otherwise the record is the form plus the type, `settings {}` and state `pending`, a code iff private, and an expiry iff one was entered |
| Dashboard.Owned | src/pages/DashboardPage.jsx:56 | the user's activities are exactly the listed ones whose `user_id` is the signed-in user's; with nobody signed in there are none |
| Dashboard.OfType | src/pages/DashboardPage.jsx:58-61 | an activity is kept iff it has that type |
| Dashboard.OwnedAppend | src/pages/DashboardPage.jsx:56 | the owner filter keeps the order of the list: filtering a concatenation concatenates the filtered parts |
| Dashboard.OwnedOne | src/pages/DashboardPage.jsx:56 | a single activity is kept iff the signed-in user owns it |
| Dashboard.OfTypeAppend | src/pages/DashboardPage.jsx:58-61 | the type filter keeps the order of the list: filtering a concatenation concatenates the filtered parts |
| Dashboard.OfTypeOne | src/pages/DashboardPage.jsx:58-61 | a single activity is kept iff it has that type |
| Dashboard.OwnedOfTypeAppend | src/pages/DashboardPage.jsx:51-53 | the combined type-and-owner filter keeps the order of the list |
| Dashboard.Filtered | src/pages/DashboardPage.jsx:51-53 | an activity is shown iff the user owns it and the filter is `all` or its type |
| Dashboard.FilteredOne | src/pages/DashboardPage.jsx:51-53 | a single activity is shown iff the user owns it and the filter is `all` or its type |
| Dashboard.FilteredAppend | src/pages/DashboardPage.jsx:51-53 | the list shown keeps the order of the loaded list: filtering a concatenation concatenates the filtered parts |
| Dashboard.TypeCount | src/pages/DashboardPage.jsx:56-62 | a type's counter never exceeds the number of activities the user owns |
| Dashboard.OwnedThenType | src/pages/DashboardPage.jsx:51-62 | filtering the user's activities by type gives the page's combined type-and-owner filter |
| Dashboard.FilterMatchesCount | src/pages/DashboardPage.jsx:51-62 | under a type filter the list shown is the user's activities of that type, and its length is that type's counter |
| Dashboard.SumOfCountsBounded | src/pages/DashboardPage.jsx:56-62 | the four counters add up to at most the user's activity count, and to exactly it when every owned activity has one of the four types |
| Dashboard.WithoutId | src/pages/DashboardPage.jsx:42 | the list after removal holds exactly the activities with another id |
| Dashboard.WithoutIdAppend | src/pages/DashboardPage.jsx:42 | removal by id keeps the remaining activities in their order |
| Dashboard.WithoutIdOne | src/pages/DashboardPage.jsx:42 | a single activity is removed iff it has that id |
| Dashboard.WithoutAbsentId | src/pages/DashboardPage.jsx:42 | removing an id that is not listed changes nothing |
| Dashboard.Delete | src/pages/DashboardPage.jsx:38-49 | without confirmation nothing is sent or removed; with it the delete is sent, and the list loses exactly that id's activities only when the delete succeeded |
| Join.InitialCode | src/pages/JoinActivityPage.jsx:14-18 | a non-empty code in the path wins; otherwise the `code` query value, defaulting to the empty code |
| Join.Single | src/pages/JoinActivityPage.jsx:79-85 | `.single()` returns a row iff exactly one row matches, that row; zero or several rows give `PGRST116` |
| Join.FindActivityAsWritten | src/pages/JoinActivityPage.jsx:65-100 | as written: an empty code is refused before any lookup; a found row is shown; every lookup without a row shows the generic error |
| Join.FindActivity | src/pages/JoinActivityPage.jsx:65-100 | corrected: as written, except that a code matching no activity shows the "not found" notice |
| Join.WithCode | src/pages/JoinActivityPage.jsx:79-83 | the rows matched are exactly the activities stored with the typed code, compared without case change, each as many times as it is stored; none iff no activity has the code |
| Join.CodeLookupByMultiplicity | src/pages/JoinActivityPage.jsx:79-90 | `.single()` returns the row iff it is the only activity stored with the typed code; a second one gives `PGRST116`, as a code nobody has does |
| Join.UnknownCodeShowsGenericError | src/pages/JoinActivityPage.jsx:85-90 | for a code no activity has, the page as written shows the generic error and never the "not found" notice, while the corrected search shows "not found" |
| Join.FetchById | src/pages/JoinActivityPage.jsx:32-63 | `fetchActivityById`, which nothing on the page calls: a failed lookup shows the generic error; the activity is refused iff it has a non-empty code different from the one entered; otherwise it is found |
| Join.OwnCodePasses | src/pages/JoinActivityPage.jsx:48-55 | in the uncalled `fetchActivityById`, entering the activity's own code always passes, and an activity without a code passes whatever was entered |
| Join.HandleJoin | src/pages/JoinActivityPage.jsx:102-139 | nothing happens without a found activity; the participation `{responses: {}, score: 0}` is written iff the user is signed in and the lookup said `PGRST116`; the page navigates iff a row existed or the insert succeeded; otherwise the error toast shows |
| Join.Inserted | src/pages/JoinActivityPage.jsx:125-130 | the inserted row carries the activity, the user and the responses written |
| Join.JoinTwiceInsertsOnce | src/pages/JoinActivityPage.jsx:108-134 | joining twice from a table without the user's row inserts once and navigates both times, leaving exactly one row for the user |
| Join.DuplicateRowsJoinAgain | src/pages/JoinActivityPage.jsx:109-130 | because `.single()` reports several rows as `PGRST116`, a user who already has two rows gets another insert |
| Profile.Holders | src/services/profileService.js:84-88 | the rows matched are exactly the profiles holding that username, each as many times as it is stored; none iff nobody holds it |
| Profile.HoldersUnique | src/services/profileService.js:84-88 | when exactly one profile holds the name, the match is that profile alone |
| Profile.HoldersTwice | src/services/profileService.js:84-88 | when two profiles hold the name, at least two rows match |
| Profile.AvailabilityByMultiplicity | src/services/profileService.js:82-98 | a name exactly one profile holds is reported taken; a second holder makes `maybeSingle` fail, so the lookup is an error |
| Profile.IsUsernameAvailable | src/services/profileService.js:82-98 | available iff no profile holds the name; taken iff exactly one does; several holders make `maybeSingle` fail and the error is rethrown |
| Profile.FirstBadChar | src/pages/ProfilePage.jsx:90 | no position is reported iff every character is in `[a-zA-Z0-9_]`; a reported position holds a character outside it |
| Profile.ValidateUsername | src/pages/ProfilePage.jsx:79-107 | in order: empty is required, under three characters is too short, any character outside `[a-zA-Z0-9_]` is refused, and a well-formed name is unavailable iff the lookup says taken and it differs from `profile.username` as the handler sees it (the form's value at the last render); a failed lookup blocks nothing |
| Profile.AcceptedNames | src/pages/ProfilePage.jsx:79-107 | against the profiles table, a name passes iff it has at least three allowed characters and it is not held by exactly one profile unless it equals the name the handler compares with |
| Profile.OwnAndDuplicateNamesPass | src/pages/ProfilePage.jsx:95-103 | a well-formed name equal to the one the handler compares with always passes, and so does a name two profiles already hold, because the lookup fails |
| Profile.Submit | src/pages/ProfilePage.jsx:109-126 | corrected: the profile is sent iff the name passes validation against the stored username, and it is sent unchanged |
| Profile.SubmitAsWritten | src/pages/ProfilePage.jsx:109-126 | as written: the profile is sent iff the name passes validation compared with itself, and it is sent unchanged |
| Profile.SubmitAsWrittenIgnoresLookup | src/pages/ProfilePage.jsx:95-113 | as written, the handler submits a name iff it has at least three characters from `[a-zA-Z0-9_]`, whatever the availability lookup says; the page reaches the handler with a taken name only while a live lookup is unresolved (`Profile.PendingLookupLetsTakenNameThrough`) |
| Profile.TakenNameAtSubmit | src/pages/ProfilePage.jsx:95-113 | once the handler runs, a well-formed name another profile holds is submitted as written, while the corrected submit refuses it unless it is the user's stored name |
| Profile.SubmitButton | src/pages/ProfilePage.jsx:248 | the submit button is enabled iff nothing is being saved and no username error is shown |
| Profile.LiveCheckBlocksTakenName | src/pages/ProfilePage.jsx:64-103 | a keystroke that produces a well-formed name exactly one other profile holds shows "not available" once its lookup answers, which disables the submit button |
| Profile.PendingLookupLetsTakenNameThrough | src/pages/ProfilePage.jsx:64-113 | while the live lookup of a taken name is unresolved and the error shown is the earlier free name's, the button is enabled; the handler as written then sends the taken name and the corrected one refuses it |
| Profile.SubmittedNamesAreWellFormed | src/pages/ProfilePage.jsx:109-118 | every username the corrected submit sends has at least three characters from `[a-zA-Z0-9_]` |
| Profile.LocalPart | src/services/profileService.js:124 | `split('@')[0]` is the longest prefix without `@`; the address continues with `@` right after it when it is shorter |
| Profile.LocalPartOf | src/services/profileService.js:124 | splitting `local@domain` gives back `local` |
| Profile.FromEmail | src/services/profileService.js:124-125 | no address gives no name; an address without its `email` field throws; otherwise the local part, when non-empty |
| Profile.GetOrCreateProfile | src/services/profileService.js:106-142 | an existing profile comes back unchanged without an insert; a new profile uses the username, else the e-mail local part, else `user_` plus the id's first eight characters (display name `Usuario`), and the avatar iff there is an image; a throw or a failed insert fails |
| Profile.CreatedProfileIsStable | src/services/profileService.js:111-127 | a created profile has non-empty username and display name, and asking again once it is stored returns it unchanged |
| QuizBuilder.BlankQuestion | src/components/quiz/QuizBuilder.jsx:42 | a blank question has an empty prompt, two empty options and correct answer 0 |
| QuizBuilder.Initial | src/components/quiz/QuizBuilder.jsx:6-8 | the editor starts with exactly one blank question |
| QuizBuilder.InitialWellFormed | src/components/quiz/QuizBuilder.jsx:6-8 | the starting list is well formed: at least one question, each with two or more options and a correct answer that indexes one |
| QuizBuilder.AddQuestion | src/components/quiz/QuizBuilder.jsx:41-43 | one blank question is appended, the existing ones are unchanged, and well-formedness is kept |
| QuizBuilder.RemoveQuestion | src/components/quiz/QuizBuilder.jsx:45-49 | the last remaining question is never removed, so the list never empties; otherwise exactly that position goes; well-formedness is kept |
| QuizBuilder.SetPrompt | src/components/quiz/QuizBuilder.jsx:51-55 | only the addressed question's prompt changes; well-formedness is kept |
| QuizBuilder.SetCorrect | src/components/quiz/QuizBuilder.jsx:51-55 | only the addressed question's correct answer changes, to a shown option; well-formedness is kept |
| QuizBuilder.AddOption | src/components/quiz/QuizBuilder.jsx:57-61 | an empty option is appended to the addressed question only; well-formedness is kept |
| QuizBuilder.SetOption | src/components/quiz/QuizBuilder.jsx:78-82 | only the addressed option of the addressed question changes; well-formedness is kept |
| QuizBuilder.ShiftCorrect | src/components/quiz/QuizBuilder.jsx:68-73 | a correct answer at or above the removed index is decremented, floored at 0; one below it is kept |
| QuizBuilder.RemoveOption | src/components/quiz/QuizBuilder.jsx:63-76 | nothing happens at two or fewer options; otherwise the option is spliced out and the correct answer adjusted, other questions untouched |
| QuizBuilder.RemoveOptionKeepsCorrect | src/components/quiz/QuizBuilder.jsx:63-76 | removal keeps the list well formed, and a correct answer above or below the removed option still designates the same option text |
| QuizBuilder.HasEmptyPrompt | src/components/quiz/QuizBuilder.jsx:86 | true iff some prompt is blank after trimming |
| QuizBuilder.HasEmptyText | src/components/quiz/QuizBuilder.jsx:94 | true iff some option is blank after trimming |
| QuizBuilder.HasEmptyOption | src/components/quiz/QuizBuilder.jsx:93-95 | true iff some question has a blank option |
| QuizBuilder.Validate | src/components/quiz/QuizBuilder.jsx:84-102 | valid iff every prompt and every option is non-blank after trimming; an empty prompt is reported before an empty option |
| QuizBuilder.InitialIsRejected | src/components/quiz/QuizBuilder.jsx:6-8 | a freshly opened editor cannot be saved, because its prompt is empty |
| QuizBuilder.MergeSettings | src/components/quiz/QuizBuilder.jsx:111-115 | both defaults are present and false unless a stored key overrides them; every stored setting is carried over, and no other key appears |
| QuizBuilder.Save | src/components/quiz/QuizBuilder.jsx:104-135 | nothing is written iff validation fails; otherwise quiz content with the questions, the merged settings and the stored creation time (else now), updating a loaded quiz and inserting at position 0 otherwise |
| QuizBuilder.SaveTwiceKeepsCreation | src/components/quiz/QuizBuilder.jsx:104-135 | saving again over the first save keeps its settings and its creation time |
| QuizPlayer.Normalize | src/components/quiz/QuizPlayer.jsx:52-56 | a missing or empty prompt becomes `Pregunta sin texto`, missing options become the empty list, a missing correct answer becomes 0 while a stored value (0 included) is kept |
| QuizPlayer.NormalizeKeepsComplete | src/components/quiz/QuizPlayer.jsx:52-56 | a complete question with a prompt is kept as it is, and normalising twice is normalising once |
| QuizPlayer.NormalizeAll | src/components/quiz/QuizPlayer.jsx:50-58 | the new layout keeps the number and order of the questions, normalising each |
| QuizPlayer.NormalizeLegacy | src/components/quiz/QuizPlayer.jsx:71-78 | the legacy layout gives one normalised question per row, in position order |
| QuizPlayer.LoadAsWritten | src/components/quiz/QuizPlayer.jsx:42-86 | as written: anything but exactly one row loads no questions; one row loads its `questions` list when it has one, else the row read in the legacy layout |
| QuizPlayer.LoadAsWrittenLosesLegacyQuiz | src/components/quiz/QuizPlayer.jsx:42-48 | a quiz stored as two legacy rows loads as empty as written, and as two questions with the corrected loader |
| QuizPlayer.Load | src/components/quiz/QuizPlayer.jsx:50-83 | corrected: the new layout when the single row has a `questions` list, otherwise every row read in the legacy layout |
| QuizPlayer.LoadAgreesOnSingleRow | src/components/quiz/QuizPlayer.jsx:42-83 | the two loaders agree whenever there is exactly one row, and on an empty table |
| QuizPlayer.Start | src/components/quiz/QuizPlayer.jsx:7-38 | the player starts at question 0 with no selection and score 0; it is gated iff a signed-in user has exactly one participation row, with that row's score (a missing score read as 0) |
| QuizPlayer.Hits | src/components/quiz/QuizPlayer.jsx:135-137 | the number of correct picks never exceeds the number of picks |
| QuizPlayer.ViewOf | src/components/quiz/QuizPlayer.jsx:146-243 | no questions shows the empty message; a prior score above 0 shows the completed notice; a prior score of 0 offers a retry; otherwise the question shown, with Next enabled iff an option is selected |
| QuizPlayer.Select | src/components/quiz/QuizPlayer.jsx:132 | clicking an option selects it while a question is shown, and does nothing otherwise |
| QuizPlayer.Next | src/components/quiz/QuizPlayer.jsx:134-144 | with a selection, the score grows by 1 iff the pick is the correct answer, and the player advances with the selection cleared, or finishes on the last question; without one nothing changes; the player invariant is kept |
| QuizPlayer.ScoreBounded | src/components/quiz/QuizPlayer.jsx:134-144 | the score never exceeds the number of questions answered, nor the number of questions |
| QuizPlayer.Play | src/components/quiz/QuizPlayer.jsx:132-144 | any sequence of answers, each selected then confirmed, keeps the player invariant |
| QuizPlayer.PlayScoresHits | src/components/quiz/QuizPlayer.jsx:132-144 | answering every remaining question finishes the quiz, records the answers in order, and scores the number of picks that are correct |
| QuizPlayer.Retry | src/components/quiz/QuizPlayer.jsx:177-183 | the retry lifts the gate and resets the index, selection, score and finished flag |
| QuizPlayer.RetakeGate | src/components/quiz/QuizPlayer.jsx:150-197 | a prior score above 0 blocks the quiz whatever is clicked; a prior score of 0 lets the retry start over at the first question |
| QuizPlayer.FinalScore | src/components/quiz/QuizPlayer.jsx:113 | the stored score is the share of correct answers times 100, and lies in [0, 100] |
| QuizPlayer.OptionAt | src/components/quiz/QuizPlayer.jsx:106 | reading an option past the end gives nothing |
| QuizPlayer.SavedResponsesAsWritten | src/components/quiz/QuizPlayer.jsx:100-111 | as written: one entry per question up to the current one, each with its prompt, and every entry before the current one without an answer |
| QuizPlayer.SavedResponsesAsWrittenDropAnswers | src/components/quiz/QuizPlayer.jsx:100-111 | on a finished quiz of two or more questions, the first saved entry has no answer although the player picked one, while the corrected responses record it |
| QuizPlayer.Saved | src/components/quiz/QuizPlayer.jsx:100-111 | corrected: one entry per answered question, with its prompt and the option that was picked |
| QuizPlayer.SaveWrite | src/components/quiz/QuizPlayer.jsx:95-130 | corrected: the upsert keyed on (activity, user) is issued iff the quiz is finished and a user is signed in, with a score in [0, 100] and, for every question, the option picked for it |
| QuizPlayer.SaveWriteAsWritten | src/components/quiz/QuizPlayer.jsx:95-130 | as written: the same upsert under the same condition, with one response per question, every one but the last without an answer |
| QuizResults.LoadQuestions | src/components/quiz/QuizResults.jsx:16-52 | the new layout keeps the number and order of questions with position equal to the index; otherwise (including several rows, whose lookup error is tolerated) one question per row with its stored position |
| QuizResults.ResultsMatchPlayer | src/components/quiz/QuizResults.jsx:28-50 | the results view reads the same prompts and options, in the same order, as the corrected player loader |
| QuizResults.FirstIndex | src/components/quiz/QuizResults.jsx:120-122 | the index found holds the prompt and no earlier response does; the length means none matched |
| QuizResults.AnswerText | src/components/quiz/QuizResults.jsx:138-142 | a found, non-empty `selectedAnswer` is shown; otherwise `Sin respuesta` |
| QuizResults.ShownAnswerAsWritten | src/components/quiz/QuizResults.jsx:119-142 | as written: only an array of responses can be searched; any other stored value makes the call throw |
| QuizResults.JoinedParticipantBreaksDetails | src/components/quiz/QuizResults.jsx:119-122 | the `{}` that joining stores breaks the detailed view as written, while the corrected view shows `Sin respuesta` |
| QuizResults.ShownAnswer | src/components/quiz/QuizResults.jsx:119-142 | corrected: agrees with the view as written on arrays of responses, and shows `Sin respuesta` for anything else |
| QuizResults.RepeatedPromptShowsFirstAnswer | src/components/quiz/QuizResults.jsx:120-122 | two questions with the same prompt are both shown the first matching response |
| QuizResults.AnswerLabel | src/components/quiz/QuizResults.jsx:196-200 | response i is labelled `P{i+1}` with its non-empty answer, or `No respondida` |
| QuizResults.Summarize | src/components/quiz/QuizResults.jsx:193-205 | labels appear iff the responses are a non-empty array, one per response in order; otherwise nothing is listed |
| QuizResults.LabelNumbersReadBack | src/components/quiz/QuizResults.jsx:196-200 | the number in a label reads back as the response's index plus one |
| QuizResults.Rows | src/components/quiz/QuizResults.jsx:161-206 | one row per participation in fetched (descending score) order, ranked by list position plus one, named by username or `Usuario desconocido` |
| QuizResults.RanksAreDistinct | src/components/quiz/QuizResults.jsx:161-168 | ranks strictly increase down the list and the last rank is the number of participations |
| QuizResults.ViewOf | src/components/quiz/QuizResults.jsx:86-216 | as written: with no participations only the empty-state message is shown; with none selected the ranked list; a selected participation whose responses are not an array throws when there is a question; otherwise each question shows the first stored answer to its prompt, or `Sin respuesta` |
| QuizResults.ViewOfCorrected | src/components/quiz/QuizResults.jsx:86-216 | corrected: never throws; the detailed view shows the stored answer for each question when the responses are an array, and `Sin respuesta` for every question otherwise |
| QuizResults.ViewsAgreeUnlessCrashed | src/components/quiz/QuizResults.jsx:90-122 | the two views are equal wherever the one as written renders; where it throws, the corrected view shows `Sin respuesta` for every question |
| QuizFlow.EditorToPlayer | src/components/quiz/QuizBuilder.jsx:104-135 | a quiz the editor saves is played back with the editor's prompts, options and correct answers, in the editor's order |
| QuizFlow.PlayerToResults | src/components/quiz/QuizResults.jsx:119-142 | with the corrected responses and distinct prompts, the results view shows each answered question the option the player picked for it |
| QuizFlow.PlayerToResultsAsWritten | src/components/quiz/QuizResults.jsx:119-142 | with the responses as written and distinct prompts, the results view shows every question but the last as not answered |
| RaffleBuilder.BlankPrize | src/components/raffle/RaffleBuilder.jsx:15 | a blank prize has an empty name and quantity 1 |
| RaffleBuilder.Initial | src/components/raffle/RaffleBuilder.jsx:6-9 | the editor starts with title `Sorteo`, no description, one blank prize and no participants |
| RaffleBuilder.AddPrize | src/components/raffle/RaffleBuilder.jsx:14-16 | a blank prize is appended and nothing else changes |
| RaffleBuilder.RemovePrize | src/components/raffle/RaffleBuilder.jsx:18-22 | the last remaining prize is never removed, so the list never empties; otherwise exactly that position goes |
| RaffleBuilder.SetPrizeName | src/components/raffle/RaffleBuilder.jsx:24-28 | only the indexed prize's name changes, to the text as typed |
| RaffleBuilder.SetPrizeQuantity | src/components/raffle/RaffleBuilder.jsx:24-28 | only the indexed prize's quantity changes, to `parseInt(text)` or 0 when that is not a number |
| RaffleBuilder.QuantityFromDigits | src/components/raffle/RaffleBuilder.jsx:26 | typing digits stores their value |
| RaffleBuilder.QuantityFromNegative | src/components/raffle/RaffleBuilder.jsx:26 | typing a minus sign and digits stores the negative value |
| RaffleBuilder.QuantityFromWord | src/components/raffle/RaffleBuilder.jsx:26 | text starting with a letter stores 0 |
| RaffleBuilder.Save | src/components/raffle/RaffleBuilder.jsx:30-47 | saving deletes the activity's items and inserts one item at position 0 holding title, description, prizes and participants |
| RaffleBuilder.SaveReplacesItems | src/components/raffle/RaffleBuilder.jsx:30-47 | when the store accepts the delete, the activity's only item is the raffle saved and other activities' items are unchanged |
| RaffleBuilder.SaveWithRejectedDelete | src/components/raffle/RaffleBuilder.jsx:30-47 | the delete's error is never read: when the store rejects it the old items stay with the saved raffle after them, so an activity that had an item ends with two or more; other activities' items are unchanged |
| RafflePlayer.WinnerOf | src/components/raffle/RafflePlayer.jsx:118-123 | a winner record names the prize, the entrant's username or `Anónimo`, the avatar or `null`, and the entrant's user id |
| RafflePlayer.Share | src/components/raffle/RafflePlayer.jsx:112-114 | a prize takes `min(quantity, remaining)` entrants, and none when that is not positive |
| RafflePlayer.AllocateLength | src/components/raffle/RafflePlayer.jsx:104-126 | the draw hands out as many places as the pool and the positive quantities allow: `min(entrants left, sum of positive quantities)` |
| RafflePlayer.AllocateIsPrefix | src/components/raffle/RafflePlayer.jsx:104-126 | winner t is shuffled entrant t (from the start offset): the winners are a prefix of the shuffled list, in order |
| RafflePlayer.SkippedPrizes | src/components/raffle/RafflePlayer.jsx:112-114 | a prize with a quantity of 0 or less, or an exhausted pool, gets nobody and does not move the offset |
| RafflePlayer.NoDoubleWinners | src/components/raffle/RafflePlayer.jsx:104-126 | when each participant appears once, no two winner records name the same user |
| RafflePlayer.DrawWinners | src/components/raffle/RafflePlayer.jsx:84-145 | no participants means no draw; otherwise `min(n, demand)` winners, winner t being shuffled entrant t, written as the activity's whole `settings {winners}` |
| RafflePlayer.WinnersAreParticipants | src/components/raffle/RafflePlayer.jsx:102-126 | every winner is one of the participants fetched |
| RafflePlayer.Load | src/components/raffle/RafflePlayer.jsx:15-64 | the raffle is loaded iff the activity and its single item are found and the content is non-null; stored winners are kept and the user is participating (signed in with exactly one row) only when both lookups succeed |
| RafflePlayer.WinnersShown | src/components/raffle/RafflePlayer.jsx:147-230 | the winners list appears only on the rendered page, that is once loading is over and the raffle was found |
| RafflePlayer.LoadWithDuplicateItems | src/components/raffle/RafflePlayer.jsx:29-153 | with two item rows the page is the not-found notice: no winners, no participate and no draw button; with one item a signed-in newcomer is offered participation |
| RafflePlayer.ParticipateButton | src/components/raffle/RafflePlayer.jsx:147-190 | the button appears iff the page is rendered (loading over, raffle found) and the user is not yet participating, and it is enabled iff someone is signed in |
| RafflePlayer.Participate | src/components/raffle/RafflePlayer.jsx:66-82 | participating inserts `{participated: true}` for the user and marks the page participating only when the insert succeeded |
| RafflePlayer.ParticipateOnce | src/components/raffle/RafflePlayer.jsx:66-82 | after a successful participation the button is hidden, so the page cannot insert again |
| RafflePlayer.DrawButton | src/components/raffle/RafflePlayer.jsx:147-204 | the draw button appears iff the page is rendered and the signed-in user owns the activity, and it is disabled while a draw runs |
| RafflePlayer.DrawOverwritesSettings | src/components/raffle/RafflePlayer.jsx:131-137 | the draw replaces the activity's whole `settings` by the winners, whatever was stored before |
| ResultsPage.InitialSort | src/pages/ResultsPage.jsx:22 | the table starts sorted by creation date, newest first |
| ResultsPage.HandleSort | src/pages/ResultsPage.jsx:63-69 | clicking a header sorts by that column, descending exactly when that column was already ascending |
| ResultsPage.HeaderClicksAlternate | src/pages/ResultsPage.jsx:63-69 | repeated clicks on one header alternate the direction, and a new column always starts ascending |
| ResultsPage.KeyOf | src/pages/ResultsPage.jsx:81-89 | scores and dates compare as numbers (a missing score as 0); a missing username compares with nothing |
| ResultsPage.LexLessTransitive | src/pages/ResultsPage.jsx:82-85 | string `<` is transitive |
| ResultsPage.LexLessIrreflexive | src/pages/ResultsPage.jsx:82-85 | no string is `<` itself |
| ResultsPage.LexLessTotal | src/pages/ResultsPage.jsx:82-85 | of two different strings one is `<` the other |
| ResultsPage.BeforeTransitive | src/pages/ResultsPage.jsx:81-89 | the comparator's "goes before" is transitive in both directions and for every key |
| ResultsPage.BeforeIrreflexive | src/pages/ResultsPage.jsx:81-89 | no row goes before itself |
| ResultsPage.TiedTransitive | src/pages/ResultsPage.jsx:81-89 | among rows that all have a value under the key, rows tie iff their values are equal, and ties are transitive |
| ResultsPage.MissingUsernameBreaksTies | src/pages/ResultsPage.jsx:81-89 | with a missing username ties are not transitive: in `[b, missing, a]` neighbours tie, yet `a` goes before `b`, so that list is not sorted |
| ResultsPage.Insert | src/pages/ResultsPage.jsx:81-89 | inserting a row adds exactly that row to the multiset of rows |
| ResultsPage.InsertSorted | src/pages/ResultsPage.jsx:81-89 | inserting into a sorted list keeps it sorted |
| ResultsPage.Sort | src/pages/ResultsPage.jsx:81-89 | the model's insertion sort returns a permutation of the input in which no row is followed by one the comparator puts before it |
| ResultsPage.KeepMatching | src/pages/ResultsPage.jsx:76-79 | each row is kept as many times as it occurs when its lower-cased username or user id contains the lower-cased filter, and dropped otherwise |
| ResultsPage.SortedRows | src/pages/ResultsPage.jsx:71-90 | a blank filter keeps a permutation of all rows, any other keeps exactly the matching rows; the model's result is sorted |
| ResultsPage.MultisetCount | src/pages/ResultsPage.jsx:74-79 | a row's multiplicity in the multiset is its count in the list |
| ResultsPage.NumericSortOrders | src/pages/ResultsPage.jsx:81-89 | by score or date, every pair of shown rows is ordered by that number in the chosen direction |
| ResultsPage.UsernameSortOrders | src/pages/ResultsPage.jsx:81-89 | ascending by username, rows with usernames come out in alphabetical order |
| ResultsPage.Fields | src/pages/ResultsPage.jsx:106-111 | a CSV row is the username or the first 8 characters of the user id, the score or 0, the date, and the quoted responses JSON |
| ResultsPage.CsvLines | src/pages/ResultsPage.jsx:103-113 | the file is the header line followed by one line per participation, in order, unfiltered |
| ResultsPage.Csv | src/pages/ResultsPage.jsx:96-113 | there is nothing to download exactly when there are no participations |
| ResultsPage.FileName | src/pages/ResultsPage.jsx:120 | the file name contains no white space |
| ResultsPage.FileNameOfPlainTitle | src/pages/ResultsPage.jsx:120 | a title without white space appears in the file name unchanged |
| ResultsPage.SplitAfter | src/pages/ResultsPage.jsx:104-113 | splitting on a separator absent from the first piece yields that piece first |
| ResultsPage.SplitNone | src/pages/ResultsPage.jsx:104-113 | splitting text without the separator yields the text alone |
| ResultsPage.SplitJoin | src/pages/ResultsPage.jsx:104-113 | splitting a join on a separator no field holds gives the fields back |
| ResultsPage.JoinAvoids | src/pages/ResultsPage.jsx:104-113 | joining fields free of a character with another separator leaves that character out |
| ResultsPage.CsvReadsBack | src/pages/ResultsPage.jsx:103-113 | when no field holds a comma or line break, the file reads back into its lines and each row into its four fields |
| Toasts.Remove | src/components/common/Toast.jsx:72-74 | removing an id keeps exactly the toasts with another id, and never lengthens the list |
| Toasts.RemoveAbsent | src/hooks/useToast.js:17-19 | removing an id no toast has leaves the list unchanged |
| Toasts.RemoveAppend | src/hooks/useToast.js:17-19 | removal distributes over concatenation |
| Toasts.Append | src/components/common/Toast.jsx:55-69 | a new toast goes last with type `info` by default; a removal timer for its id is set after the duration (5000 ms by default) unless the duration is `Infinity` |
| Toasts.AddAsWritten | src/hooks/useToast.js:7-15 | the new toast's id is the current clock reading in milliseconds |
| Toasts.SameMillisecondToastsVanishTogether | src/components/common/Toast.jsx:55-74 | two toasts added in the same millisecond share an id, so removing the first removes both |
| Toasts.Initial | src/components/common/Toast.jsx:52 | corrected list (counter ids): the list starts empty, with every id below the counter |
| Toasts.Add | src/components/common/Toast.jsx:55-69 | corrected list (counter ids): with counter ids the new toast's id differs from every toast already shown, and the list keeps that property |
| Toasts.RemoveFrom | src/components/common/Toast.jsx:72-74 | corrected list (counter ids): removal keeps the fresh-id invariant |
| Toasts.RemoveUndoesAdd | src/components/common/Toast.jsx:55-74 | corrected list (counter ids): removing the toast just added gives back exactly the list before it |
| Toasts.RemoveFirstOfTwo | src/hooks/useToast.js:17-19 | removing the first of two toasts with different ids keeps the second |
| Toasts.BackToBackToastsStaySeparate | src/components/common/Toast.jsx:55-74 | corrected list (counter ids): removing the first of two toasts added back to back leaves the second |
| Toasts.ShowSuccess | src/components/common/Toast.jsx:77 | corrected list (counter ids): adds one toast of type `success` at the end under an id no existing toast has, and keeps every existing toast in place |
| Toasts.ShowError | src/components/common/Toast.jsx:78 | corrected list (counter ids): adds one toast of type `error` at the end under an id no existing toast has, and keeps every existing toast in place |
| Toasts.ShowInfo | src/components/common/Toast.jsx:79 | corrected list (counter ids): adds one toast of type `info` at the end under an id no existing toast has, and keeps every existing toast in place |
| Toasts.ShowWarning | src/components/common/Toast.jsx:80 | corrected list (counter ids): adds one toast of type `warning` at the end under an id no existing toast has, and keeps every existing toast in place |
| Toasts.BgColor | src/components/common/Toast.jsx:12-19 | success is green, error red, warning yellow, and every other type blue |
| Toasts.DefaultToastIsBlue | src/components/common/Toast.jsx:12-19 | a toast added without a type shows like `info`, and the four types get four different colours |
| Toasts.UseToast | src/components/common/Toast.jsx:117-122 | outside a provider the hook throws its message; inside it returns the provider's value |
| Utils.Pick | src/lib/utils.js:15 | `Math.floor(u * n)` is an index below `n`, the integer part of `u * n` |
| Utils.CodeAlphabetChars | src/lib/utils.js:11 | the code alphabet has 32 characters, none of them `0`, `O`, `1` or `I` |
| Utils.GenerateAccessCode | src/lib/utils.js:10-19 | a code has `length` characters (none for a non-positive length), each picked from the alphabet by its own draw |
| Utils.CodeIsUpperCase | src/lib/utils.js:11 | a generated code is its own upper-case form and holds no look-alike character |
| Utils.Truncate | src/lib/utils.js:46-49 | short or empty text is kept; longer text becomes its first `max` characters followed by `...` |
| Utils.TruncateBounds | src/lib/utils.js:46-49 | a truncated text has at most `max + 3` characters, so truncating it again at `max + 3` changes nothing |
| Utils.IndexOfAt | src/lib/utils.js:57 | the position found holds `@`, and no position is found only when there is no `@` |
| Utils.IndexOfAtFirst | src/lib/utils.js:57 | the position found is that of the first `@` |
| Utils.EmailCheckIsShape | src/lib/utils.js:57 | the scan for `@` and an inner dot accepts exactly the language of the e-mail pattern |
| Utils.PlainLower | src/lib/utils.js:58 | lower-casing a character keeps it inside or outside `[^\s@]`, and maps nothing onto `@` or `.` |
| Utils.AllPlainLower | src/lib/utils.js:58 | a text is free of white space and `@` iff its lower-case form is |
| Utils.LowerSlices | src/lib/utils.js:58 | lower-casing commutes with cutting the text at a position |
| Utils.ShapeAtLower | src/lib/utils.js:57-58 | the pattern matches at given positions in the lower-cased text iff it matches there in the text |
| Utils.LowerKeepsShape | src/lib/utils.js:57-58 | the lower-cased text matches the pattern iff the text does |
| Utils.IsValidEmail | src/lib/utils.js:56-59 | an address is valid iff it has a non-empty local part, one `@`, a domain with a dot neither first nor last, and no white space |
| Utils.Shuffle | src/lib/utils.js:86-95 | the shuffle returns a permutation of its input, of the same length |
| Utils.Call | src/lib/utils.js:102-113 | the first call runs the function and caches its result; later calls return the cached result without running it |
| Utils.CallAll | src/lib/utils.js:102-113 | every call of a run returns a value |
| Utils.CalledStaysCached | src/lib/utils.js:106-112 | once called, the wrapper never runs the function again and always returns the cached value |
| Utils.OnceRunsOnce | src/lib/utils.js:102-113 | over any run of calls the function runs exactly once and every call returns the first result |
| Utils.RandomColor | src/lib/utils.js:119-128 | a colour is `#` followed by six upper-case hexadecimal digits, one per draw |
| Utils.PadStart2 | src/lib/utils.js:140 | the result has at least two characters: the text itself at its end, preceded only by `0`s; a text of two or more characters is unchanged |
| Utils.PaddedDigits | src/lib/utils.js:140 | the padded decimal text of a number is its two-digit (or longer) rendering |
| Utils.JsRem | src/lib/utils.js:138 | `%` agrees with the mathematical remainder for non-negative dividends; for a negative one it is the unique value in (-b, 0] that differs from the dividend by a multiple of b, i.e. the remainder of division truncated toward zero |
| Utils.ShortNumber | src/lib/utils.js:140 | a number below 100 prints with at most two digits |
| Utils.FormatTimeReadsBack | src/lib/utils.js:135-141 | for a non-negative duration the text is minutes, `:`, two-digit seconds below 60, and minutes * 60 + seconds are the whole seconds |
| Utils.FillChar | src/lib/utils.js:162-166 | `x` becomes a lower-case hex digit, `y` one of `8 9 a b`, and any other character stays |
| Utils.FillTemplate | src/lib/utils.js:162-166 | each template character is replaced by its own fill, keeping the length |
| Utils.UuidShape | src/lib/utils.js:161-167 | a UUID has 36 characters, hyphens at 8, 13, 18 and 23, version `4`, a variant in `8 9 a b`, and hex digits elsewhere |
| VotingBuilder.Initial | src/components/voting/VotingBuilder.jsx:6-9 | a new vote is titled `Votación`, single choice, with options `Opción 1` and `Opción 2` |
| VotingBuilder.AddOption | src/components/voting/VotingBuilder.jsx:14-16 | adding keeps every option and appends `Opción n`, n being the new number of options |
| VotingBuilder.RemoveOption | src/components/voting/VotingBuilder.jsx:18-22 | an option is removed only while more than two remain, so a draft with two or more keeps at least two |
| VotingBuilder.SetOption | src/components/voting/VotingBuilder.jsx:24-28 | editing an option changes that option's text and nothing else |
| VotingBuilder.EditsKeepTwoOptions | src/components/voting/VotingBuilder.jsx:14-28 | no edit takes a draft below two options |
| VotingBuilder.Save | src/components/voting/VotingBuilder.jsx:30-57 | saving deletes the activity's items and inserts one item at position 0 holding title, description, options and the multiple-choice flag |
| VotingBuilder.SaveReplacesItems | src/components/voting/VotingBuilder.jsx:33-46 | when the store accepts the delete, the activity's only item is the vote saved and other activities' items are unchanged |
| VotingBuilder.SaveWithRejectedDelete | src/components/voting/VotingBuilder.jsx:33-46 | the delete's error is never read: when the store rejects it the old items stay with the saved vote after them, so an activity that had an item ends with two or more; other activities' items are unchanged |
| VotingPlayer.Toggle | src/components/voting/VotingPlayer.jsx:49-59 | single choice selects just the option; multiple choice selects the option iff it was not selected before |
| VotingPlayer.ToggleKeepsOthers | src/components/voting/VotingPlayer.jsx:50-55 | in multiple choice a toggle leaves every other option's selection as it was |
| VotingPlayer.ToggleTwiceRestores | src/components/voting/VotingPlayer.jsx:50-55 | toggling an unselected option twice gives back the selection |
| VotingPlayer.ToggleKeepsNoDuplicates | src/components/voting/VotingPlayer.jsx:49-59 | a selection without repeats stays without repeats |
| VotingPlayer.Restore | src/components/voting/VotingPlayer.jsx:26-38 | the vote counts as cast iff a signed-in user's row holds a selection, and then that selection is shown |
| VotingPlayer.Submit | src/components/voting/VotingPlayer.jsx:61-81 | an empty selection sends nothing; otherwise the selection is upserted and the vote is cast once stored |
| VotingPlayer.EnabledSubmitWrites | src/components/voting/VotingPlayer.jsx:61-142 | when the button is enabled, pressing it always upserts the current selection |
| VotingPlayer.SubmitThenRestore | src/components/voting/VotingPlayer.jsx:26-75 | reloading after a stored vote shows it as cast with exactly the selection sent |
| VotingResults.Ballot | src/components/voting/VotingResults.jsx:46 | a participation's ballot is its selection, or nothing when its responses hold none |
| VotingResults.CountInAppend | src/components/voting/VotingResults.jsx:45-53 | counted votes add up over consecutive participations |
| VotingResults.CountInNone | src/components/voting/VotingResults.jsx:40-54 | with no configured option nothing is counted |
| VotingResults.Tally | src/components/voting/VotingResults.jsx:36-57 | every configured option gets a count, and only they do; an option's count is how often it was selected over all ballots; the total counts exactly the selections of configured options, and is 0 without options |
| VotingResults.SumCountsCons | src/components/voting/VotingResults.jsx:45-53 | one more selected value adds its number of occurrences among the options to the sum of counts |
| VotingResults.CountOfDistinct | src/components/voting/VotingResults.jsx:41-43 | in a list of distinct options each value occurs once or not at all |
| VotingResults.TotalIsSumOfCounts | src/components/voting/VotingResults.jsx:45-57 | with distinct options the total equals the sum of the per-option counts |
| VotingResults.ZeroCounts | src/components/voting/VotingResults.jsx:41-43 | with no ballots every option's count is 0 |
| VotingResults.CountWithinTotal | src/components/voting/VotingResults.jsx:45-57 | no option has more votes than the total |
| VotingResults.Percent | src/components/voting/VotingResults.jsx:132-140 | a percentage is shown only when some vote was counted; it is count/total of 100, between 0 and 100 |
| WheelBuilder.DisplayName | src/components/wheel/WheelBuilder.jsx:57 | a participant is named by the display name, else the username, else `Usuario anónimo`, and never with an empty name |
| WheelBuilder.People | src/components/wheel/WheelBuilder.jsx:55-58 | one `{id, name}` per participation, in order |
| WheelBuilder.Initial | src/components/wheel/WheelBuilder.jsx:6-11 | a new wheel is a prizes wheel titled `Ruleta de la Fortuna` with `Premio 1`, `Premio 2` and `Inténtalo de nuevo` |
| WheelBuilder.AddSegment | src/components/wheel/WheelBuilder.jsx:68-70 | adding keeps every label and appends `Premio n`, n being the new number of labels; nothing else changes |
| WheelBuilder.RemoveSegment | src/components/wheel/WheelBuilder.jsx:72-76 | a label is removed only while more than two remain, so a draft with two or more keeps at least two |
| WheelBuilder.SetSegment | src/components/wheel/WheelBuilder.jsx:78-82 | editing a label changes that label and nothing else |
| WheelBuilder.SetType | src/components/wheel/WheelBuilder.jsx:18-66 | choosing participants mode replaces the participant list by the fetched one when the query succeeds; the labels are kept |
| WheelBuilder.SavedSegments | src/components/wheel/WheelBuilder.jsx:95 | a prizes wheel saves its labels, any other its `{id, name}` participants |
| WheelBuilder.Save | src/components/wheel/WheelBuilder.jsx:84-114 | saving deletes the activity's items and inserts one item at position 0 holding title, description, type and segments |
| WheelBuilder.EnabledSaveHasSegments | src/components/wheel/WheelBuilder.jsx:95-266 | an enabled save in participants mode stores at least one participant |
| WheelBuilder.SaveReplacesItems | src/components/wheel/WheelBuilder.jsx:87-103 | when the store accepts the delete, the activity's only item is the wheel saved and other activities' items are unchanged |
| WheelBuilder.SaveWithRejectedDelete | src/components/wheel/WheelBuilder.jsx:87-103 | the delete's error is never read: when the store rejects it the old items stay with the saved wheel after them, so an activity that had an item ends with two or more; other activities' items are unchanged |
| WheelPlayer.NormalizedRotation | src/components/wheel/WheelPlayer.jsx:128 | the rotation modulo 360 lies in [0, 360) and differs from the rotation by whole turns |
| WheelPlayer.WinningIndex | src/components/wheel/WheelPlayer.jsx:127-129 | the index under the marker at the top of the wheel is a valid segment, the one whose share of the circle contains `360 - r` (segment 0 when `r` is 0) |
| WheelPlayer.SpinIndex | src/components/wheel/WheelPlayer.jsx:114-130 | any draw lands on a valid segment |
| WheelPlayer.Names | src/components/wheel/WheelPlayer.jsx:99 | the labels shown are the participants' names, in order |
| WheelPlayer.Load | src/components/wheel/WheelPlayer.jsx:19-103 | participants mode shows the freshly fetched participants, other modes the saved labels; the user has spun iff a prior row holds a non-empty result; a stored winner is read only in participants mode |
| WheelPlayer.SpinControl | src/components/wheel/WheelPlayer.jsx:195-311 | a prizes wheel lets a signed-in user spin once; a participants wheel lets only the owner spin, and only while no winner is set; no participants means no wheel |
| WheelPlayer.Spin | src/components/wheel/WheelPlayer.jsx:105-184 | a spin lands on the segment the draw picks: in participants mode that participant becomes the winner, written as the activity's whole `settings`; otherwise the label is upserted as the signed-in user's result |
| WheelPlayer.SpinOncePerUser | src/components/wheel/WheelPlayer.jsx:150-168 | after a stored spin the user cannot spin again, and a reload shows the same result and keeps the button disabled |
| WheelPlayer.WinnerDisablesSpin | src/components/wheel/WheelPlayer.jsx:136-139 | once a winner is drawn the owner's button is disabled |
| WheelPlayer.ResetAsWritten | src/components/wheel/WheelPlayer.jsx:317-330 | the reset clears winner and result on the page only; no update reaches the store |
| WheelPlayer.Reset | src/components/wheel/WheelPlayer.jsx:317-330 | the reset clears winner and result and stores `settings {winner: null}` |
| WheelPlayer.ResetSurvivesReload | src/components/wheel/WheelPlayer.jsx:317-330 | as written a reload brings the old winner back and disables the owner's button again; with the stored reset the reload has no winner |
| Dashboard.CountsAddUp | src/pages/DashboardPage.jsx:56-62 | the four per-type counters add up to the number of the user's activities whose type is one of the four |
| Text.TrimEmptyIffBlank | src/pages/ResultsPage.jsx:74 | a text trims to the empty string iff it is all white space |
| Text.Includes | src/pages/ResultsPage.jsx:77-78 | `includes` holds iff the needle occurs at some position of the text |
| Text.NatToStringRoundTrip | src/components/voting/VotingBuilder.jsx:15 | the decimal rendering of a number reads back as that number |
| Text.Numbered | src/components/voting/VotingBuilder.jsx:15 | a numbered label is the prefix followed by the decimal digits of its number |
| Text.ParseIntOfNatToString | src/components/raffle/RaffleBuilder.jsx:26 | `parseInt` of a number's decimal rendering gives that number back |
| Text.ParseIntOfNonNumeric | src/components/raffle/RaffleBuilder.jsx:26 | text starting with something other than white space, a sign or a digit parses as NaN |
| Text.ParseIntOrZeroOfDigits | src/components/raffle/RaffleBuilder.jsx:26 | `parseInt(x) \|\| 0` gives the value of a digit string |
| Text.ParseIntOrZeroOfMinus | src/components/raffle/RaffleBuilder.jsx:26 | `parseInt(x) \|\| 0` gives the negated value of a minus sign followed by digits |

## Left out

- Supabase and Clerk client plumbing is not modelled: session set-up, the connection test, the participation service and the context providers. Query answers enter as parameters and writes leave as `Write` values.
- Rendering, routing and layouts are not modelled, nor the auth guards, static pages and display-only components (activity cards and lists, the public activity page, the raffle results list). Only the decisions the handlers make are modelled.
- Randomness is modelled as its possible values, not as a distribution. Each `Math.random()` result is a real in [0, 1). `Math.floor(u * n)` is `Utils.Pick`.
- The raffle's shuffle is a permutation passed in.
- `Utils.Uuid` takes one draw per template position; the source draws only for the `x` and `y` characters. The set of possible outputs is the same.
- Floating point is not modelled. Scores, percentages and wheel angles are exact reals. `Math.round` on percentages, and the spin duration and easing, are not modelled.
- Dates and locale formatting are not modelled: `formatDate`, `toLocaleDateString`, `formatDistanceToNow`. The conversion of `expires_at` to an ISO string is an input that may fail. In the CSV, numbers, dates and `JSON.stringify` of responses are parameters.
- Timers are not modelled: `debounce`, the toast auto-dismiss timeout and the lobby refresh. The toast model returns the timer it would schedule as `(id, delay)`.
- `safeJsonParse` is left out because it is plain `JSON.parse` with a fallback.
- Concurrency is not modelled. Concurrent handlers are not interleaved, and store-side uniqueness of upserts is taken as given.
- Editing the title and description in the builders is not modelled. Those are plain state setters; the draft records carry the fields, and saves write them.
- The wheel builder's lookup of the activity's access code is not modelled: it only feeds the display.
- Case mapping covers ASCII letters only. String `<` in the results table compares by character (UTF-16 code unit order for the characters modelled).
- `CreateActivity.HandleSubmit`: the creation page sends `null` as the code of a public activity, and `createActivity` then generates one (`ActivityService.PublicActivitiesGetCode`). So in the code, unlike the documented intent, public activities also get a code. The model follows the code.
- `Join.WithCode`: the join page looks a code up exactly as typed. `getActivityByAccessCode` upper-cases it first (`ActivityService.LookupIgnoresCase`), so a lower-case code works through the service but not on the page. The model keeps both behaviours.
- `ResultsPage.Sort`: `Array.prototype.sort` with the page's comparator is modelled as a stable insertion sort. When every row has a value under the key, the comparator is consistent (`ResultsPage.TiedTransitive`), so any correct engine returns the same order of values as the model. When usernames are partly missing it is not (`ResultsPage.MissingUsernameBreaksTies`), and the engine's order is implementation-defined. A TimSort, for example, may return `[b, missing, a]` unchanged. In that case the model fixes the insertion sort's order, and its "sorted" clause describes the model, not the page.
- `ResultsPage.SortedRows`: the "sorted" clause holds of the source only when every kept row has a value under the key (always for score and date), for the reason given under `ResultsPage.Sort`. The multiset clauses hold in every case.
- `VotingResults.Tally`: the counts are a map, so the order of the chart's labels is not modelled. A selected value that names a property of `Object.prototype` (such as `constructor`) is not modelled either; in the source it is counted in the total.
- `VotingPlayer.Submit`: the upsert sends no `user_id`. The store attaches the signed-in user, and the model writes that user's row.
- `Profile.OwnAndDuplicateNamesPass`: a username that two profiles already hold makes `maybeSingle` fail, so validation lets it through. This is stated as the source behaves; the model does not correct it.
- `Profile.GetOrCreateProfile`: a failed lookup of the existing profile is treated like a missing profile, as the source does (it then tries an insert). An `email_addresses` field that is itself missing is not modelled; a missing `email` inside an address is.
- `ActivityService.CreateActivityCode`: a lookup that fails is treated as "no row", as the source does, so such a code counts as free.
- `RaffleBuilder.Save`: the saved `participants` is always the empty list, as in the source.
- `Dashboard.Owned`: its own contract states which activities are kept; order and multiplicity are stated by `Dashboard.OwnedAppend` with `Dashboard.OwnedOne`.
- `Dashboard.OfType`: its own contract states which activities are kept; order and multiplicity are stated by `Dashboard.OfTypeAppend` with `Dashboard.OfTypeOne`.
- `Dashboard.Filtered`: its own contract states which activities are shown; order and multiplicity are stated by `Dashboard.FilteredAppend` with `Dashboard.FilteredOne`.
- `Dashboard.WithoutId`: its own contract states which activities remain; order and multiplicity are stated by `Dashboard.WithoutIdAppend` with `Dashboard.WithoutIdOne`.
- `Dashboard.Delete`: the list after a successful delete is `Dashboard.WithoutId` of the old one, so the same split applies.
- `ActivityService.SaveItemsReplaces`: states the save when the store accepts the delete. The delete's error is never read; the rejected case is `ActivityService.SaveItemsWithRejectedDelete`.
- `RaffleBuilder.SaveReplacesItems`: states the save when the store accepts the delete; the rejected case is `RaffleBuilder.SaveWithRejectedDelete`.
- `VotingBuilder.SaveReplacesItems`: states the save when the store accepts the delete; the rejected case is `VotingBuilder.SaveWithRejectedDelete`.
- `WheelBuilder.SaveReplacesItems`: states the save when the store accepts the delete; the rejected case is `WheelBuilder.SaveWithRejectedDelete`.
- `RafflePlayer.Load`: of the raffle's content only whether it is non-null is modelled (`loaded`); the title, description and prize list it shows are not, and the draw takes its prizes as a parameter.
- `Join.FetchById`: `fetchActivityById` is never called. The page looks activities up by code only (`Join.FindActivityAsWritten`), so this member and `Join.OwnCodePasses` describe unreachable code.
- `Utils.Truncate`: lengths count Unicode characters, while JavaScript's `length` and `substring` count UTF-16 code units. For text outside the Basic Multilingual Plane (emoji, say) the cut point and the length test differ from the source.
- `Profile.ValidateUsername`: lengths count Unicode characters, not UTF-16 code units. A name of two emoji has length 4 in JavaScript and is refused for its characters; the model refuses it as too short. Either way it is refused.
- `Utils.Call`: `once` sets `called` before running the function. A function that throws therefore leaves the wrapper returning `undefined` on every later call; exceptions are not modelled.
- `ActivityDetails.Load`: the error message and the toast of the catch block are not modelled beyond "no page is shown". A failed items or participations lookup is one input, `restOk`, since either ends in that block.
- Participations: `Entities.Participation.username` is the joined `profiles.username` in `QuizResults`, and the row's own `username` in `ResultsPage`, where `getParticipationsByActivityId` selects `*` with no profile join. Whether the table has such a column is not part of this model.
- `Toasts`: the pages call the standalone hook's `showToast`, whose list nothing renders. So in the source those toasts are never displayed. The model describes both lists, not what reaches the screen.

## Findings

| source | as written | input that shows it | evidently intended | confidence | as-written member | corrected member |
|---|---|---|---|---|---|---|
| src/pages/ActivityDetailsPage.jsx:110-135 | start and finish set the local status whenever the update call returns, without looking at its `error` | a pending activity whose update the store rejects: the page shows `started` while the store holds `pending` (`ActivityDetails.StartAsWrittenDiverges`) | change the status, and the tab, only when the store accepted the update (`ActivityDetails.StartFinishKeepConsistent`, also for `ActivityDetails.Finish`) | not executed | ActivityDetails.StartAsWritten | ActivityDetails.Start |
| src/components/quiz/QuizPlayer.jsx:42-48 | the first quiz lookup uses `.single()` and rethrows every error, including "not exactly one row" | a quiz stored as two legacy rows (one question each): the player loads no questions (`QuizPlayer.LoadAsWrittenLosesLegacyQuiz`) | fall back to the legacy layout when there is not exactly one row, as the results view does | not executed | QuizPlayer.LoadAsWritten | QuizPlayer.Load |
| src/components/quiz/QuizPlayer.jsx:100-111 | saved responses take `selectedOption` for every question, but the selection is cleared on each advance | a two-question quiz answered with option 0 on the first question: the first saved entry has no answer (`QuizPlayer.SavedResponsesAsWrittenDropAnswers`); the upsert stores it so (`QuizPlayer.SaveWriteAsWritten`), and the results view shows that question as not answered (`QuizFlow.PlayerToResultsAsWritten`) | record each answered question's pick, so the results show it (`QuizFlow.PlayerToResults`) | not executed | QuizPlayer.SavedResponsesAsWritten | QuizPlayer.Saved |
| src/components/quiz/QuizResults.jsx:119-122 | `responses?.find(...)` assumes an array | a participant who joined (responses `{}`) but never played: `find` is not a function and the detailed view throws (`QuizResults.JoinedParticipantBreaksDetails`, `QuizResults.ViewOf`) | read anything but an array of answers as "no answer" (`QuizResults.ViewOfCorrected`, `QuizResults.ViewsAgreeUnlessCrashed`) | not executed | QuizResults.ShownAnswerAsWritten | QuizResults.ShownAnswer |
| src/components/wheel/WheelPlayer.jsx:317-330 | the reset builds the update query but never awaits or runs it, so no request is sent | an owner resets a drawn winner and reloads: the old winner is back and the spin is disabled again (`WheelPlayer.ResetSurvivesReload`) | store `settings {winner: null}`, so a reload shows no winner (`WheelPlayer.ResetSurvivesReload`) | not executed | WheelPlayer.ResetAsWritten | WheelPlayer.Reset |
| src/pages/JoinActivityPage.jsx:85-90 | the code lookup uses `.single()`, which reports a missing row as an error, so the "not found" branch is unreachable | a code no activity has: the generic lookup error is shown instead of "Activity not found with this code" (`Join.UnknownCodeShowsGenericError`) | show "not found" for a code with no activity | not executed | Join.FindActivityAsWritten | Join.FindActivity |
| src/hooks/useToast.js:7-15 | a toast's id is `Date.now()`, in the hook and equally in the provider's `addToast` (src/components/common/Toast.jsx:55-69) | two toasts added in the same millisecond: both get the same id, and closing (or timing out) the first removes both (`Toasts.SameMillisecondToastsVanishTogether`) | give every toast a fresh id, so removing one keeps the others (`Toasts.RemoveUndoesAdd`, `Toasts.BackToBackToastsStaySeparate`) | not executed | Toasts.AddAsWritten | Toasts.Add |
| src/pages/ProfilePage.jsx:95-113 | at submit, `validateUsername(profile.username)` compares the name with `profile.username`, which by then holds the name typed, so the handler's own "taken" check never fires; the page relies on the live check of the last keystroke, which disables the button only once its lookup answers | a well-formed name exactly one other profile holds, submitted while its live lookup is unresolved and the error shown is still that of an earlier free name: the button is enabled and the name is sent (`Profile.PendingLookupLetsTakenNameThrough`, `Profile.TakenNameAtSubmit`); once the lookup answers the button is disabled (`Profile.LiveCheckBlocksTakenName`) | compare with the username of the profile as loaded, so a name another profile holds is refused (`Profile.TakenNameAtSubmit`) | not executed | Profile.SubmitAsWritten | Profile.Submit |

=== FILE: activity_details.dfy ===
/** The activity page: the effective status of an activity (stored state,
    overridden by expiry), the corrective write it issues, ownership, the
    user's own participation, the start / finish / visibility actions and
    which tabs are shown. */
module ActivityDetails {
  import opened Common
  import opened Entities

  /** The status the page works with. A stored text other than the three
      known ones is kept as `Other` and matches none of them. */
  datatype Status = Pending | Started | Ended | Other(name: string)

  /** `state || 'pending'`, read as a status. */
  function StatusOf(stored: Option<string>): (st: Status)
    ensures st == Pending <==> stored == None || stored == Some("") || stored == Some("pending")
    ensures st == Started <==> stored == Some("started")
    ensures st == Ended <==> stored == Some("ended")
    ensures st.Other? ==> stored == Some(st.name)
  {
    match stored
    case None => Pending
    case Some(s) =>
      if s == "" || s == "pending" then Pending
      else if s == "started" then Started
      else if s == "ended" then Ended
      else Other(s)
  }

  /** `expires_at` is set and strictly earlier than `now`. */
  predicate Expired(a: Activity, now: int) {
    a.expiresAt.Some? && a.expiresAt.value < now
  }

  /** The status shown after loading. */
  function EffectiveStatus(a: Activity, now: int): (st: Status)
    ensures Expired(a, now) ==> st == Ended
    ensures !Expired(a, now) ==> st == StatusOf(a.state)
  {
    if Expired(a, now) then Ended else StatusOf(a.state)
  }

  /** The write of `'ended'` issued while loading, if any. */
  function CorrectiveWrite(a: Activity, now: int): (w: Option<Write>)
    ensures w.Some? <==> Expired(a, now) && a.state != Some("ended")
    ensures w.Some? ==> w.value == SetState(a.id, "ended")
  {
    if Expired(a, now) && a.state != Some("ended") then Some(SetState(a.id, "ended")) else None
  }

  /** The stored row after a write to it. */
  function ApplyToActivity(a: Activity, w: Write): Activity
  {
    match w
    case SetState(id, s) => if id == a.id then a.(state := Some(s)) else a
    case SetPublic(id, p) => if id == a.id then a.(isPublic := p) else a
    case SetSettings(id, st) => if id == a.id then a.(settings := st) else a
    case _ => a
  }

  /** Once the corrective write is stored, loading again shows the same
      status and issues no further write; and an expired activity stays
      ended at every later instant. */
  lemma CorrectiveWriteSettles(a: Activity, now: int, later: int)
    requires now <= later
    ensures var a' := if CorrectiveWrite(a, now).Some? then ApplyToActivity(a, CorrectiveWrite(a, now).value) else a;
      EffectiveStatus(a', now) == EffectiveStatus(a, now) && CorrectiveWrite(a', now).None? &&
      (Expired(a, now) ==> EffectiveStatus(a', later) == Ended && StatusOf(a'.state) == Ended)
  {
  }

  /** `activity.user_id === user?.id`; with nobody signed in the id is
      `undefined` and never equals a stored owner id. */
  function IsOwner(a: Activity, user: Option<string>): (r: bool)
    ensures r <==> user == Some(a.userId)
  {
    user.Some? && user.value == a.userId
  }

  /** `participations.find(p => p.user_id === user?.id)`. */
  function UserParticipation(parts: seq<Participation>, user: Option<string>): (r: Option<Participation>)
    ensures r.Some? ==> r.value in parts && user == Some(r.value.userId)
    ensures r.None? <==> forall k :: 0 <= k < |parts| ==> user != Some(parts[k].userId)
  {
    if |parts| == 0 then None
    else if user == Some(parts[0].userId) then Some(parts[0])
    else UserParticipation(parts[1..], user)
  }

  /** The participation found is the first one of the user: no earlier
      row belongs to them. */
  lemma {:induction false} UserParticipationIsFirst(parts: seq<Participation>, user: Option<string>)
    requires UserParticipation(parts, user).Some?
    ensures exists i :: 0 <= i < |parts| && parts[i] == UserParticipation(parts, user).value &&
                        forall k :: 0 <= k < i ==> user != Some(parts[k].userId)
  {
    if user == Some(parts[0].userId) {
      assert parts[0] == UserParticipation(parts, user).value;
    } else {
      UserParticipationIsFirst(parts[1..], user);
      var i :| 0 <= i < |parts[1..]| && parts[1..][i] == UserParticipation(parts[1..], user).value &&
               forall k :: 0 <= k < i ==> user != Some(parts[1..][k].userId);
      assert parts[i + 1] == parts[1..][i];
      forall k | 0 <= k < i + 1 ensures user != Some(parts[k].userId) {
        if k > 0 {
          assert parts[k] == parts[1..][k - 1];
        }
      }
    }
  }

  datatype Tab = DetailsTab | LobbyTab | PlayTab | ResultsTab

  /** The tabs offered, in order. */
  function VisibleTabs(st: Status, isOwner: bool): (tabs: seq<Tab>)
    ensures DetailsTab in tabs && LobbyTab in tabs
    ensures PlayTab in tabs <==> st == Started
    ensures ResultsTab in tabs <==> st == Ended || isOwner
    ensures tabs[0] == DetailsTab && tabs[1] == LobbyTab
  {
    [DetailsTab, LobbyTab] + (if st == Started then [PlayTab] else [])
      + (if st == Ended || isOwner then [ResultsTab] else [])
  }

  /** Play and Results are never offered together to someone who does not
      own the activity. */
  lemma PlayAndResultsExclusiveForGuests(st: Status)
    ensures !(PlayTab in VisibleTabs(st, false) && ResultsTab in VisibleTabs(st, false))
  {
  }

  /** How a store write ended: stored, answered with an error, or thrown. */
  datatype Outcome = Stored | Rejected | Threw

  /** The page: the row in the store, the local copy, the status shown and
      the selected tab. */
  datatype Page = Page(db: Activity, local: Activity, status: Status, tab: Tab)

  /** What loading leaves: the activity's row as the store then holds it
      (absent when the lookup found none) and the page, or `None` when the
      error message is rendered instead. */
  datatype Loaded = Loaded(db: Option<Activity>, page: Option<Page>)

  /** `fetchActivityData`. `found` is the activity lookup (`None` for an
      error answer or no row), `corrective` how the corrective update ended
      (its error answer is never read) and `restOk` whether the items and
      participations lookups both succeeded. A thrown error ends in the
      catch block, whose message the page renders in place of the page. */
  function Load(found: Option<Activity>, now: int, corrective: Outcome, restOk: bool): (r: Loaded)
    ensures found.None? ==> r == Loaded(None, None)
    ensures found.Some? ==> r.db.Some?
    ensures found.Some? ==>
      r.db.value.state == if CorrectiveWrite(found.value, now).Some? && corrective == Stored
        then Some("ended") else found.value.state
    ensures r.page.Some? <==>
      found.Some? && restOk && (CorrectiveWrite(found.value, now).None? || corrective != Threw)
    ensures r.page.Some? ==>
      r.page.value.status == EffectiveStatus(found.value, now) && r.page.value.tab == DetailsTab &&
      r.page.value.local == found.value && r.page.value.db == r.db.value
  {
    match found
    case None => Loaded(None, None)
    case Some(a) =>
      var w := CorrectiveWrite(a, now);
      var db := if w.Some? && corrective == Stored then ApplyToActivity(a, w.value) else a;
      var thrown := w.Some? && corrective == Threw;
      Loaded(Some(db), if thrown || !restOk then None else Some(Page(db, a, EffectiveStatus(a, now), DetailsTab)))
  }

  /** The status shown is the one the stored row gives at `now`. */
  predicate Consistent(p: Page, now: int) {
    p.status == EffectiveStatus(p.db, now)
  }

  /** Whatever the corrective update's answer, a page that is shown agrees
      with the stored row at `now`: expiry alone already makes it ended. */
  lemma LoadIsConsistent(found: Option<Activity>, now: int, corrective: Outcome, restOk: bool)
    ensures Load(found, now, corrective, restOk).page.Some? ==>
      Consistent(Load(found, now, corrective, restOk).page.value, now)
  {
  }

  /** A rejected corrective update goes unnoticed: the page shows the
      activity ended while the stored state is still the old one. */
  lemma LoadIgnoresRejectedCorrection(a: Activity, now: int)
    requires CorrectiveWrite(a, now).Some?
    ensures Load(Some(a), now, Rejected, true).page.Some?
    ensures Load(Some(a), now, Rejected, true).page.value.status == Ended
    ensures Load(Some(a), now, Rejected, true).db.value.state != Some("ended")
  {
  }

  /** `handleStartActivity` as written: the store's error answer is not
      looked at, so the status turns to started unless the call throws. */
  function StartAsWritten(p: Page, o: Outcome): (q: Page)
    ensures q.status == (if o == Threw then p.status else Started)
    ensures q.db.state == (if o == Stored then Some("started") else p.db.state)
  {
    var db := if o == Stored then ApplyToActivity(p.db, SetState(p.db.id, "started")) else p.db;
    p.(db := db, status := if o == Threw then p.status else Started)
  }

  /** `handleFinishActivity` as written; on success (or an ignored error)
      it also switches to the Results tab. */
  function FinishAsWritten(p: Page, o: Outcome): (q: Page)
    ensures q.status == (if o == Threw then p.status else Ended)
    ensures q.tab == (if o == Threw then p.tab else ResultsTab)
    ensures q.db.state == (if o == Stored then Some("ended") else p.db.state)
  {
    var db := if o == Stored then ApplyToActivity(p.db, SetState(p.db.id, "ended")) else p.db;
    if o == Threw then p.(db := db) else p.(db := db, status := Ended, tab := ResultsTab)
  }

  /** A rejected start leaves the page showing a status the store does not
      hold: from a consistent pending page the result is inconsistent. */
  lemma StartAsWrittenDiverges(p: Page, now: int)
    requires Consistent(p, now) && p.status == Pending
    ensures !Consistent(StartAsWritten(p, Rejected), now)
  {
  }

  /** Start that changes the status only when the store accepted the write. */
  function Start(p: Page, o: Outcome): (q: Page)
    ensures q.db.state == (if o == Stored then Some("started") else p.db.state)
    ensures q.status == (if o == Stored then Started else p.status)
    ensures q.tab == p.tab && q.local == p.local
  {
    if o == Stored then p.(db := ApplyToActivity(p.db, SetState(p.db.id, "started")), status := Started) else p
  }

  /** Finish that changes the status and tab only when the store accepted
      the write. */
  function Finish(p: Page, o: Outcome): (q: Page)
    ensures q.db.state == (if o == Stored then Some("ended") else p.db.state)
    ensures q.status == (if o == Stored then Ended else p.status)
    ensures q.tab == (if o == Stored then ResultsTab else p.tab)
  {
    if o == Stored then p.(db := ApplyToActivity(p.db, SetState(p.db.id, "ended")), status := Ended, tab := ResultsTab)
    else p
  }

  /** Start (offered while pending) and finish keep the page consistent
      with the store, whatever the store answers. */
  lemma StartFinishKeepConsistent(p: Page, now: int, o: Outcome)
    requires Consistent(p, now)
    ensures p.status == Pending ==> Consistent(Start(p, o), now)
    ensures Consistent(Finish(p, o), now)
  {
  }

  /** `togglePublic`: the store gets the negation of the local flag; the
      local copy flips only when no error came back. */
  function TogglePublic(p: Page, o: Outcome): (q: Page)
    ensures o == Stored ==> q.db.isPublic == !p.local.isPublic && q.local.isPublic == !p.local.isPublic
    ensures o != Stored ==> q == p
    ensures q.status == p.status && q.tab == p.tab
  {
    if o == Stored then
      var flipped := !p.local.isPublic;
      p.(db := ApplyToActivity(p.db, SetPublic(p.db.id, flipped)), local := p.local.(isPublic := flipped))
    else p
  }

  /** The local flag and the stored flag agree before a toggle iff they
      agree after it, and two successful toggles restore the flag. */
  lemma TogglePublicAgreement(p: Page, o: Outcome)
    ensures TogglePublic(p, o).db.isPublic == TogglePublic(p, o).local.isPublic
      <==> (o == Stored || p.db.isPublic == p.local.isPublic)
    ensures TogglePublic(TogglePublic(p, Stored), Stored).local.isPublic == p.local.isPublic
  {
  }
}

=== FILE: activity_lobby.dfy ===
/** The lobby tab: the owner's panel with the lifecycle control offered for
    the current status, the participant's view, and the activity code. */
module ActivityLobby {
  import opened Common
  import opened Text
  import opened Entities
  import opened ActivityDetails

  /** What the owner sees next to the code. */
  datatype Control = StartButton(enabled: bool) | FinishButton | EndedNotice | NoControl

  /** The control offered for a status and a number of participations. */
  function OwnerControl(st: Status, participations: nat): (c: Control)
    ensures c.StartButton? <==> st == Pending
    ensures c.StartButton? ==> (c.enabled <==> participations > 0)
    ensures c.FinishButton? <==> st == Started
    ensures c.EndedNotice? <==> st == Ended
    ensures c == NoControl <==> st.Other?
  {
    match st
    case Pending => StartButton(participations > 0)
    case Started => FinishButton
    case Ended => EndedNotice
    case Other(_) => NoControl
  }

  /** Pressing a control as the owner, with the handlers the lobby is wired
      to: the page's `handleStartActivity` and `handleFinishActivity` as
      written, which move the status on unless the call throws. A disabled
      start, the ended notice and no control do nothing. */
  function Press(p: Page, c: Control, o: Outcome): (q: Page)
    ensures !((c.StartButton? && c.enabled) || c.FinishButton?) ==> q == p
    ensures c.StartButton? && c.enabled ==>
      q.status == (if o == Threw then p.status else Started) &&
      q.db.state == (if o == Stored then Some("started") else p.db.state)
    ensures c.FinishButton? ==>
      q.status == (if o == Threw then p.status else Ended) &&
      q.db.state == (if o == Stored then Some("ended") else p.db.state)
  {
    match c
    case StartButton(enabled) => if enabled then StartAsWritten(p, o) else p
    case FinishButton => FinishAsWritten(p, o)
    case _ => p
  }

  /** The same controls wired to the corrected handlers, which change the
      status only when the store accepted the update. */
  function PressCorrected(p: Page, c: Control, o: Outcome): (q: Page)
    ensures !((c.StartButton? && c.enabled) || c.FinishButton?) ==> q == p
    ensures c.StartButton? && c.enabled ==>
      q.status == (if o == Stored then Started else p.status) &&
      q.db.state == (if o == Stored then Some("started") else p.db.state)
    ensures c.FinishButton? ==>
      q.status == (if o == Stored then Ended else p.status) &&
      q.db.state == (if o == Stored then Some("ended") else p.db.state)
  {
    match c
    case StartButton(enabled) => if enabled then Start(p, o) else p
    case FinishButton => Finish(p, o)
    case _ => p
  }

  function Rank(st: Status): nat {
    match st
    case Pending => 0
    case Started => 1
    case Ended => 2
    case Other(_) => 0
  }

  /** Whatever the owner presses in the lobby and whatever the store
      answers, the status shown only moves forward (pending to started,
      started to ended), and an ended activity stays ended. This holds for
      the handlers as written and for the corrected ones. */
  lemma OwnerControlsOnlyMoveForward(p: Page, n: nat, o: Outcome)
    ensures var q := Press(p, OwnerControl(p.status, n), o);
      (q.status == p.status || (p.status == Pending && q.status == Started) ||
       (p.status == Started && q.status == Ended)) &&
      Rank(p.status) <= Rank(q.status) &&
      (p.status == Ended ==> q == p)
    ensures var q := PressCorrected(p, OwnerControl(p.status, n), o);
      (q.status == p.status || (p.status == Pending && q.status == Started) ||
       (p.status == Started && q.status == Ended)) &&
      Rank(p.status) <= Rank(q.status) &&
      (p.status == Ended ==> q == p)
  {
  }

  /** As wired, a lobby start the store rejects still shows the activity
      started while the store keeps it pending; the corrected controls keep
      the page consistent with the store. */
  lemma LobbyStartRejected(p: Page, n: nat, now: int)
    requires Consistent(p, now) && p.status == Pending && n > 0
    ensures !Consistent(Press(p, OwnerControl(p.status, n), Rejected), now)
    ensures Consistent(PressCorrected(p, OwnerControl(p.status, n), Rejected), now)
  {
    StartAsWrittenDiverges(p, now);
  }

  /** A pending activity with nobody in it cannot be started, whichever
      handlers are wired. */
  lemma NoStartWithoutParticipants(p: Page, o: Outcome)
    requires p.status == Pending
    ensures Press(p, OwnerControl(p.status, 0), o) == p
    ensures PressCorrected(p, OwnerControl(p.status, 0), o) == p
  {
  }

  /** What a participant sees. */
  datatype Guidance = Waiting | ResultsLink | PlayLink

  /** Waiting while pending, a results link once ended, a play link
      otherwise. */
  function ParticipantGuidance(st: Status): (g: Guidance)
    ensures g == Waiting <==> st == Pending
    ensures g == ResultsLink <==> st == Ended
    ensures g == PlayLink <==> st == Started || st.Other?
  {
    if st == Pending then Waiting else if st == Ended then ResultsLink else PlayLink
  }

  /** The tab a participant's link leads to is one the page shows them. */
  lemma GuidanceTargetsVisibleTab(st: Status)
    ensures ParticipantGuidance(st) == ResultsLink ==> ResultsTab in VisibleTabs(st, false)
    ensures ParticipantGuidance(st) == PlayLink && st == Started ==> PlayTab in VisibleTabs(st, false)
  {
  }

  /** `id.substring(0, 8).toUpperCase()`. */
  function ActivityCode(id: string): (code: string)
    ensures |code| == Min(8, |id|)
    ensures forall k :: 0 <= k < |code| ==> code[k] == ToUpperChar(id[k])
  {
    ToUpper(Prefix(id, 8))
  }

  /** Deriving the code from a code changes nothing. */
  lemma ActivityCodeIdempotent(id: string)
    ensures ActivityCode(ActivityCode(id)) == ActivityCode(id)
  {
    var c := ActivityCode(id);
    var cc := ActivityCode(c);
    assert |cc| == |c|;
    forall k | 0 <= k < |c| ensures cc[k] == c[k] {
      assert cc[k] == ToUpperChar(c[k]);
    }
  }

  /** The owner's list shows `username`, else the first 8 characters of
      the user id. */
  function ParticipantLabel(p: Participation): (s: string)
    ensures p.username.Some? && p.username.value != "" ==> s == p.username.value
    ensures (p.username.None? || p.username.value == "") ==> s == Prefix(p.userId, 8) && |s| <= 8
  {
    if p.username.Some? && p.username.value != "" then p.username.value else Prefix(p.userId, 8)
  }
}

=== FILE: activity_service.dfy ===
/** The activity service: choosing the access code of a new activity, the
    upper-casing lookup by code, the replacement of an activity's items,
    and the window of a page of public activities. */
module ActivityService {
  import opened Common
  import opened Text
  import opened Entities
  import CreateActivity

  // createActivity

  /** The code finally used when no code was supplied: the first of the
      five checked candidates that is not in use, else the sixth, which is
      not checked. `taken` holds the codes whose lookup returns a row. */
  function FirstFree(candidates: seq<string>, taken: set<string>, i: nat): (c: string)
    requires i <= 5 && |candidates| >= 6
    decreases 5 - i
  {
    if i == 5 then candidates[5]
    else if candidates[i] !in taken then candidates[i]
    else FirstFree(candidates, taken, i + 1)
  }

  /** `!activity.access_code`: no code, or the empty code. */
  predicate Supplied(code: Option<string>) {
    code.Some? && code.value != ""
  }

  /** The code `createActivity` stores: a supplied code is kept; otherwise
      the generated candidates are tried in turn. */
  function ChooseCode(code: Option<string>, candidates: seq<string>, taken: set<string>): (c: string)
    requires |candidates| >= 6
  {
    if Supplied(code) then code.value else FirstFree(candidates, taken, 0)
  }

  /** The uniqueness loop of `createActivity`. `candidates` are the
      successive `generateAccessCode()` results and `taken` the codes whose
      `maybeSingle` lookup returns a row (a lookup that fails, or finds
      several rows, returns no row). Returns the code and the number of
      lookups made. */
  method CreateActivityCode(code: Option<string>, candidates: seq<string>, taken: set<string>)
    returns (chosen: string, lookups: nat)
    requires |candidates| >= 6
    ensures chosen == ChooseCode(code, candidates, taken)
    ensures Supplied(code) ==> chosen == code.value && lookups == 0
    ensures !Supplied(code) ==> 1 <= lookups <= 5
    ensures !Supplied(code) ==> forall k :: 0 <= k < lookups - 1 ==> candidates[k] in taken
    ensures !Supplied(code) && candidates[lookups - 1] !in taken ==> chosen == candidates[lookups - 1]
    ensures !Supplied(code) && candidates[lookups - 1] in taken ==> lookups == 5 && chosen == candidates[5]
  {
    if Supplied(code) {
      return code.value, 0;
    }
    chosen := candidates[0];
    lookups := 0;
    var isUnique := false;
    var attempts := 0;
    while !isUnique && attempts < 5
      invariant 0 <= attempts <= 5
      invariant chosen == candidates[attempts]
      invariant lookups == attempts + (if isUnique then 1 else 0)
      invariant forall k :: 0 <= k < attempts ==> candidates[k] in taken
      invariant isUnique ==> attempts < 5 && candidates[attempts] !in taken
      invariant FirstFree(candidates, taken, 0) == FirstFree(candidates, taken, attempts)
      decreases 5 - attempts, if isUnique then 0 else 1
    {
      lookups := lookups + 1;
      if chosen !in taken {
        isUnique := true;
      } else {
        attempts := attempts + 1;
        chosen := candidates[attempts];
      }
    }
  }

  /** When one of the five checked candidates is free, the stored code is
      not in use; a supplied code is never replaced. */
  lemma ChosenCodeIsFree(code: Option<string>, candidates: seq<string>, taken: set<string>, i: nat)
    requires |candidates| >= 6 && i < 5 && candidates[i] !in taken && !Supplied(code)
    ensures ChooseCode(code, candidates, taken) !in taken
  {
    FirstFreeAvoidsTaken(candidates, taken, 0, i);
  }

  lemma {:induction false} FirstFreeAvoidsTaken(candidates: seq<string>, taken: set<string>, j: nat, i: nat)
    requires |candidates| >= 6 && j <= i < 5 && candidates[i] !in taken
    ensures FirstFree(candidates, taken, j) !in taken
    decreases 5 - j
  {
    if j < i && candidates[j] in taken {
      FirstFreeAvoidsTaken(candidates, taken, j + 1, i);
    }
  }

  /** The creation page sends `null` for a public activity and its own
      code for a private one; the service generates a code for the former
      and for a private one whose page code came out empty. */
  lemma PublicActivitiesGetCode(form: CreateActivity.Form, selected: string, digits: seq<nat>, iso: Option<string>,
                                candidates: seq<string>, taken: set<string>)
    requires CreateActivity.Base36Digits(digits) && |candidates| >= 6
    requires CreateActivity.HandleSubmit(form, Some(selected), digits, iso).Submit?
    ensures var n := CreateActivity.HandleSubmit(form, Some(selected), digits, iso).record;
      ChooseCode(n.accessCode, candidates, taken) ==
        if !form.isPublic && |digits| > 0 then CreateActivity.RandomCode(digits)
        else FirstFree(candidates, taken, 0)
  {
  }

  // getActivityByAccessCode

  /** The activities stored with exactly this code. */
  function WithCode(acts: seq<Activity>, code: string): (r: seq<Activity>)
    ensures forall a :: a in r <==> a in acts && a.accessCode == Some(code)
    ensures |r| == 0 <==> forall a :: a in acts ==> a.accessCode != Some(code)
    ensures forall a :: Count(r, a) == if a.accessCode == Some(code) then Count(acts, a) else 0
  {
    if |acts| == 0 then []
    else
      var head := if acts[0].accessCode == Some(code) then [acts[0]] else [];
      var rest := WithCode(acts[1..], code);
      assert forall a :: Count(head + rest, a) == Count(head, a) + Count(rest, a) by {
        forall a { CountAppend(head, rest, a); }
      }
      head + rest
  }

  /** `getActivityByAccessCode`: `.single()` on the upper-cased code; no
      match or several matches is an error (`None`). */
  function FindByAccessCode(acts: seq<Activity>, typed: string): (r: Option<Activity>)
    ensures r.Some? <==> |WithCode(acts, ToUpper(typed))| == 1
    ensures r.Some? ==> r.value in acts && r.value.accessCode == Some(ToUpper(typed))
  {
    var found := WithCode(acts, ToUpper(typed));
    if |found| == 1 then
      assert found[0] in found;
      Some(found[0])
    else None
  }

  /** One stored activity with the code: the filter yields exactly it. */
  lemma {:induction false} WithCodeUnique(acts: seq<Activity>, code: string, i: nat)
    requires i < |acts| && acts[i].accessCode == Some(code)
    requires forall j :: 0 <= j < |acts| && j != i ==> acts[j].accessCode != Some(code)
    ensures WithCode(acts, code) == [acts[i]]
  {
    var rest := WithCode(acts[1..], code);
    if i == 0 {
      assert forall a :: a in acts[1..] ==> a.accessCode != Some(code);
    } else {
      WithCodeUnique(acts[1..], code, i - 1);
    }
  }

  /** Two stored activities with the code: the filter yields at least two. */
  lemma {:induction false} WithCodeTwice(acts: seq<Activity>, code: string, i: nat, j: nat)
    requires i < j < |acts| && acts[i].accessCode == Some(code) && acts[j].accessCode == Some(code)
    ensures |WithCode(acts, code)| >= 2
  {
    if i == 0 {
      assert acts[j] in acts[1..];
      assert acts[j] in WithCode(acts[1..], code);
    } else {
      WithCodeTwice(acts[1..], code, i - 1, j - 1);
    }
  }

  /** `.single()` decides by how many stored activities carry the code:
      exactly one is found, two or more are an error like none. */
  lemma CodeLookupByMultiplicity(acts: seq<Activity>, typed: string, i: nat)
    requires i < |acts| && acts[i].accessCode == Some(ToUpper(typed))
    ensures (forall j :: 0 <= j < |acts| && j != i ==> acts[j].accessCode != Some(ToUpper(typed))) ==>
      FindByAccessCode(acts, typed) == Some(acts[i])
    ensures (exists j :: 0 <= j < |acts| && j != i && acts[j].accessCode == Some(ToUpper(typed))) ==>
      FindByAccessCode(acts, typed).None?
  {
    var code := ToUpper(typed);
    if forall j :: 0 <= j < |acts| && j != i ==> acts[j].accessCode != Some(code) {
      WithCodeUnique(acts, code, i);
    }
    if exists j :: 0 <= j < |acts| && j != i && acts[j].accessCode == Some(code) {
      var j :| 0 <= j < |acts| && j != i && acts[j].accessCode == Some(code);
      if i < j { WithCodeTwice(acts, code, i, j); } else { WithCodeTwice(acts, code, j, i); }
    }
  }

  /** The lookup ignores the case of what was typed. */
  lemma LookupIgnoresCase(acts: seq<Activity>, typed: string)
    ensures FindByAccessCode(acts, ToLower(typed)) == FindByAccessCode(acts, typed)
  {
    assert ToUpper(ToLower(typed)) == ToUpper(typed);
  }

  // saveActivityItems

  /** An item to save; `position` may be missing. */
  datatype NewItem = NewItem(content: Content, position: Option<int>)

  /** `items.map((item, index) => ({...item, activity_id, position:
      item.position ?? index}))`. */
  function Positioned(activityId: string, items: seq<NewItem>): (rows: seq<Item>)
    ensures |rows| == |items|
    ensures forall k :: 0 <= k < |rows| ==>
      rows[k].activityId == activityId && rows[k].content == items[k].content &&
      (items[k].position.Some? ==> rows[k].position == items[k].position.value) &&
      (items[k].position.None? ==> rows[k].position == k)
  {
    seq(|items|, k requires 0 <= k < |items| => Item(activityId, items[k].content, items[k].position.GetOr(k)))
  }

  /** `saveActivityItems`: delete the activity's items, then insert the
      positioned rows in one batch. */
  function SaveItems(activityId: string, items: seq<NewItem>): (ws: seq<Write>)
    ensures |ws| == 2 && ws[0] == DeleteItems(activityId)
    ensures ws[1] == InsertItems(Positioned(activityId, items))
  {
    [DeleteItems(activityId), InsertItems(Positioned(activityId, items))]
  }

  lemma {:induction false} ItemsOfOwn(rows: seq<Item>, a: string)
    requires forall k :: 0 <= k < |rows| ==> rows[k].activityId == a
    ensures ItemsOf(rows, a) == rows
  {
    if |rows| > 0 {
      ItemsOfOwn(rows[1..], a);
      assert rows == [rows[0]] + rows[1..];
    }
  }

  lemma {:induction false} ItemsOfOther(rows: seq<Item>, a: string, b: string)
    requires a != b && forall k :: 0 <= k < |rows| ==> rows[k].activityId == a
    ensures ItemsOf(rows, b) == []
  {
    if |rows| > 0 {
      ItemsOfOther(rows[1..], a, b);
    }
  }

  lemma DeleteThenInsert(store: seq<Item>, a: string, rows: seq<Item>)
    ensures ApplyAllToItems(store, [DeleteItems(a), InsertItems(rows)]) == DropItems(store, a) + rows
  {
    var ws := [DeleteItems(a), InsertItems(rows)];
    var d := DropItems(store, a);
    assert ws[1..] == [InsertItems(rows)];
    assert ApplyToItems(store, ws[0]) == d;
    assert ApplyAllToItems(d, [InsertItems(rows)]) == ApplyAllToItems(d + rows, []) by {
      assert [InsertItems(rows)][1..] == [];
    }
  }

  /** Replacing an activity's items by rows of that activity leaves exactly
      those rows for it and every other activity's items as they were. */
  lemma ReplaceWithRows(store: seq<Item>, a: string, rows: seq<Item>, other: string)
    requires forall k :: 0 <= k < |rows| ==> rows[k].activityId == a
    ensures ItemsOf(ApplyAllToItems(store, [DeleteItems(a), InsertItems(rows)]), a) == rows
    ensures other != a ==>
      ItemsOf(ApplyAllToItems(store, [DeleteItems(a), InsertItems(rows)]), other) == ItemsOf(store, other)
  {
    var d := DropItems(store, a);
    DeleteThenInsert(store, a, rows);
    ItemsOfAppend(d, rows, a);
    DropItemsSelf(store, a);
    ItemsOfOwn(rows, a);
    if other != a {
      ItemsOfAppend(d, rows, other);
      DropItemsOther(store, a, other);
      ItemsOfOther(rows, a, other);
    }
  }

  /** After a save whose delete the store accepts, the activity's items are
      exactly the positioned rows in order, and every other activity's items
      are as they were. When no item carried a position the positions are
      0, 1, 2, ... */
  lemma SaveItemsReplaces(store: seq<Item>, activityId: string, items: seq<NewItem>, other: string)
    ensures ItemsOf(ApplyAllToItems(store, SaveItems(activityId, items)), activityId) == Positioned(activityId, items)
    ensures other != activityId ==>
      ItemsOf(ApplyAllToItems(store, SaveItems(activityId, items)), other) == ItemsOf(store, other)
    ensures (forall k :: 0 <= k < |items| ==> items[k].position.None?) ==>
      forall k :: 0 <= k < |items| ==> Positioned(activityId, items)[k].position == k
  {
    ReplaceWithRows(store, activityId, Positioned(activityId, items), other);
  }

  /** The delete's error is never read: when the store rejects it, only the
      insert takes effect and the activity keeps its old items with the
      positioned rows after them; other activities' items are untouched. */
  lemma SaveItemsWithRejectedDelete(store: seq<Item>, activityId: string, items: seq<NewItem>, other: string)
    ensures ItemsOf(ApplyAllToItems(store, SaveItems(activityId, items)[1..]), activityId)
      == ItemsOf(store, activityId) + Positioned(activityId, items)
    ensures other != activityId ==>
      ItemsOf(ApplyAllToItems(store, SaveItems(activityId, items)[1..]), other) == ItemsOf(store, other)
  {
    var rows := Positioned(activityId, items);
    var ws := SaveItems(activityId, items)[1..];
    assert ws == [InsertItems(rows)];
    assert ApplyAllToItems(store, ws) == store + rows by {
      assert ws[1..] == [];
    }
    ItemsOfAppend(store, rows, activityId);
    ItemsOfOwn(rows, activityId);
    if other != activityId {
      ItemsOfAppend(store, rows, other);
      ItemsOfOther(rows, activityId, other);
    }
  }

  // getPublicActivities

  /** The inclusive row window `range(offset, offset + limit - 1)` with
      `offset = page * limit`; a missing `limit` is 10 and a missing `page`
      is 0. */
  function PublicWindow(limit: Option<nat>, page: Option<nat>): (w: (int, int))
    ensures w.0 == page.GetOr(0) * limit.GetOr(10)
    ensures w.1 - w.0 + 1 == limit.GetOr(10)
  {
    var l := limit.GetOr(10);
    var offset := page.GetOr(0) * l;
    (offset, offset + l - 1)
  }

  /** The rows of the newest-first public list that the window selects. */
  function PageOf(rows: seq<Activity>, limit: Option<nat>, page: Option<nat>): (r: seq<Activity>)
    ensures |r| <= limit.GetOr(10)
  {
    var w := PublicWindow(limit, page);
    var from := Min(w.0, |rows|);
    var to := Min(w.1 + 1, |rows|);
    rows[from..Max(from, to)]
  }

  /** The first page holds the ten newest rows; consecutive pages follow
      each other without gap or overlap. */
  lemma PagesTile(rows: seq<Activity>, limit: nat, page: nat)
    ensures PublicWindow(None, None) == (0, 9)
    ensures PublicWindow(Some(limit), Some(page + 1)).0 == PublicWindow(Some(limit), Some(page)).1 + 1
    ensures PageOf(rows, Some(limit), Some(page)) + PageOf(rows, Some(limit), Some(page + 1))
      == rows[Min(page * limit, |rows|)..Min((page + 2) * limit, |rows|)]
  {
    var a := Min(page * limit, |rows|);
    var b := Min((page + 1) * limit, |rows|);
    var c := Min((page + 2) * limit, |rows|);
    assert PageOf(rows, Some(limit), Some(page)) == rows[a..b];
    assert PageOf(rows, Some(limit), Some(page + 1)) == rows[b..c];
    assert rows[a..b] + rows[b..c] == rows[a..c];
  }
}

=== FILE: common.dfy ===
/** Small shared vocabulary: optional values and the list edits that the
    builders and players perform on JavaScript arrays (`filter` by index,
    `filter` by value, index assignment). */
module Common {

  /** A value that may be `null`/`undefined` in the source. */
  datatype Option<+T> = None | Some(value: T) {
    /** `x ?? d`: the value when present, the default otherwise. */
    function GetOr(d: T): T {
      match this
      case Some(v) => v
      case None => d
    }
  }

  /** `s.filter((_, j) => j !== i)`: drops position `i`; an index outside
      the array matches nothing and leaves it unchanged. */
  function RemoveAt<T>(s: seq<T>, i: int): (r: seq<T>)
    ensures 0 <= i < |s| ==> |r| == |s| - 1
    ensures 0 <= i < |s| ==> forall j :: 0 <= j < i ==> r[j] == s[j]
    ensures 0 <= i < |s| ==> forall j :: i <= j < |r| ==> r[j] == s[j + 1]
    ensures !(0 <= i < |s|) ==> r == s
  {
    if 0 <= i < |s| then s[..i] + s[i + 1..] else s
  }

  /** `copy = [...s]; copy[i] = v`: replaces exactly one entry. */
  function SetAt<T>(s: seq<T>, i: nat, v: T): (r: seq<T>)
    requires i < |s|
    ensures |r| == |s| && r[i] == v
    ensures forall j :: 0 <= j < |s| && j != i ==> r[j] == s[j]
  {
    s[i := v]
  }

  /** Number of occurrences of `x` in `s`. */
  function Count<T(==)>(s: seq<T>, x: T): nat
  {
    if |s| == 0 then 0
    else (if s[0] == x then 1 else 0) + Count(s[1..], x)
  }

  lemma {:induction false} CountAppend<T>(a: seq<T>, b: seq<T>, x: T)
    ensures Count(a + b, x) == Count(a, x) + Count(b, x)
  {
    if |a| == 0 {
      assert a + b == b;
    } else {
      assert (a + b)[1..] == a[1..] + b;
      CountAppend(a[1..], b, x);
    }
  }

  lemma {:induction false} CountZeroIffAbsent<T>(s: seq<T>, x: T)
    ensures Count(s, x) == 0 <==> x !in s
  {
    if |s| > 0 {
      CountZeroIffAbsent(s[1..], x);
      assert s == [s[0]] + s[1..];
    }
  }

  /** `s.filter(y => y !== x)`: every occurrence of `x` removed, the rest
      kept in order. */
  function RemoveAll<T(==)>(s: seq<T>, x: T): (r: seq<T>)
    ensures x !in r
    ensures forall y :: y in r ==> y in s
    ensures |r| <= |s|
  {
    if |s| == 0 then []
    else if s[0] == x then RemoveAll(s[1..], x)
    else [s[0]] + RemoveAll(s[1..], x)
  }

  lemma {:induction false} RemoveAllCounts<T>(s: seq<T>, x: T, y: T)
    ensures Count(RemoveAll(s, x), y) == if y == x then 0 else Count(s, y)
  {
    if |s| > 0 {
      RemoveAllCounts(s[1..], x, y);
      if s[0] != x {
        assert ([s[0]] + RemoveAll(s[1..], x))[1..] == RemoveAll(s[1..], x);
      }
    } else {
      assert RemoveAll(s, x) == [];
    }
  }

  lemma {:induction false} RemoveAllAbsent<T>(s: seq<T>, x: T)
    requires x !in s
    ensures RemoveAll(s, x) == s
  {
    if |s| > 0 {
      RemoveAllAbsent(s[1..], x);
      assert s == [s[0]] + s[1..];
    }
  }

  lemma {:induction false} RemoveAllAppend<T>(a: seq<T>, b: seq<T>, x: T)
    ensures RemoveAll(a + b, x) == RemoveAll(a, x) + RemoveAll(b, x)
  {
    if |a| == 0 {
      assert a + b == b;
    } else {
      assert (a + b)[0] == a[0];
      assert (a + b)[1..] == a[1..] + b;
      RemoveAllAppend(a[1..], b, x);
    }
  }

  /** No value occurs twice. */
  predicate NoDuplicates<T(==)>(s: seq<T>) {
    forall i, j :: 0 <= i < j < |s| ==> s[i] != s[j]
  }

  lemma {:induction false} RemoveAllKeepsNoDuplicates<T>(s: seq<T>, x: T)
    requires NoDuplicates(s)
    ensures NoDuplicates(RemoveAll(s, x))
  {
    if |s| > 0 {
      RemoveAllKeepsNoDuplicates(s[1..], x);
      if s[0] != x {
        var t := RemoveAll(s[1..], x);
        assert s[0] !in s[1..] by {
          forall k | 0 <= k < |s[1..]| ensures s[1..][k] != s[0] {
            assert s[1..][k] == s[k + 1];
          }
        }
        assert s[0] !in t;
        var r := [s[0]] + t;
        forall i, j | 0 <= i < j < |r| ensures r[i] != r[j] {
          if i == 0 {
            assert r[j] == t[j - 1];
            assert t[j - 1] in t;
          } else {
            assert r[i] == t[i - 1] && r[j] == t[j - 1];
          }
        }
      }
    } else {
      assert RemoveAll(s, x) == [];
    }
  }

  function Min(a: int, b: int): int { if a < b then a else b }
  function Max(a: int, b: int): int { if a < b then b else a }

  /** Sum of a list of integers. */
  function Sum(s: seq<int>): int
  {
    if |s| == 0 then 0 else s[0] + Sum(s[1..])
  }
}

=== FILE: create_activity.dfy ===
/** The new-activity page: the form, the type choice, and the record handed
    to the activity service on submit. */
module CreateActivity {
  import opened Common
  import opened Text
  import opened Entities

  /** The form fields; `expiresAt` is the raw date-time input. */
  datatype Form = Form(title: string, description: string, isPublic: bool, expiresAt: string)

  /** Empty title and description, public, no expiry. */
  function InitialForm(): (f: Form)
    ensures f.title == "" && f.description == "" && f.isPublic && f.expiresAt == ""
  {
    Form("", "", true, "")
  }

  /** The record handed to `createActivity`. */
  datatype NewActivity = NewActivity(
    title: string,
    description: string,
    isPublic: bool,
    activityType: string,
    settings: Settings,
    state: string,
    accessCode: Option<string>,
    expiresAt: Option<string>)

  const Base36: string := "0123456789abcdefghijklmnopqrstuvwxyz"
  const Base36Upper: string := "0123456789ABCDEFGHIJKLMNOPQRSTUVWXYZ"

  predicate Base36Digits(digits: seq<nat>) {
    forall k :: 0 <= k < |digits| ==> digits[k] < 36
  }

  /** `Math.random().toString(36)` for a draw whose base-36 fraction digits
      are `digits`: `"0"` for a zero draw, `"0."` and the digits otherwise. */
  function ToString36(digits: seq<nat>): (s: string)
    requires Base36Digits(digits)
    ensures |digits| == 0 ==> s == "0"
    ensures |digits| > 0 ==> |s| == |digits| + 2 && s[..2] == "0."
    ensures |digits| > 0 ==> forall k :: 0 <= k < |digits| ==> s[k + 2] == Base36[digits[k]]
  {
    if |digits| == 0 then "0"
    else "0." + seq(|digits|, k requires 0 <= k < |digits| => Base36[digits[k]])
  }

  /** `s.substring(start, end)` for `start <= end`: both ends are clamped
      to the length. */
  function Substring(s: string, start: nat, end: nat): (r: string)
    requires start <= end
    ensures |r| == Min(end, |s|) - Min(start, |s|)
  {
    s[Min(start, |s|)..Min(end, |s|)]
  }

  /** `Math.random().toString(36).substring(2, 8).toUpperCase()`: up to the
      first six fraction digits, upper-cased; empty for a zero draw. */
  function RandomCode(digits: seq<nat>): (code: string)
    requires Base36Digits(digits)
    ensures |code| == Min(|digits|, 6)
    ensures forall k :: 0 <= k < |code| ==> code[k] == Base36Upper[digits[k]]
  {
    var s := ToString36(digits);
    var cut := Substring(s, 2, 8);
    assert forall k :: 0 <= k < |cut| ==> cut[k] == s[k + 2];
    UpperOfDigits();
    ToUpper(cut)
  }

  lemma UpperOfDigits()
    ensures forall d :: 0 <= d < 36 ==> ToUpperChar(Base36[d]) == Base36Upper[d]
  {
  }

  /** A page code is at most six upper-case letters and digits, and typing
      it back in any case upper-cases to itself. */
  lemma RandomCodeShape(digits: seq<nat>)
    requires Base36Digits(digits)
    ensures |RandomCode(digits)| <= 6
    ensures forall k :: 0 <= k < |RandomCode(digits)| ==> RandomCode(digits)[k] in Base36Upper
    ensures ToUpper(RandomCode(digits)) == RandomCode(digits)
    ensures RandomCode(digits) == "" <==> |digits| == 0
  {
    var code := RandomCode(digits);
    UpperDigitsFixed();
    assert forall k :: 0 <= k < |code| ==> ToUpper(code)[k] == code[k];
  }

  lemma UpperDigitsFixed()
    ensures forall d :: 0 <= d < 36 ==> ToUpperChar(Base36Upper[d]) == Base36Upper[d]
  {
    assert forall d :: 0 <= d < 36 ==> !('a' <= Base36Upper[d] <= 'z');
  }

  /** What `handleSubmit` does. */
  datatype Submission =
    | MissingType          // error toast, nothing created
    | InvalidDate          // the date conversion threw: error toast
    | Submit(record: NewActivity)

  /** `handleSubmit` with the selected type id (`None` when no type was
      chosen), the draw's base-36 digits, and `iso`, the result of
      `new Date(expiresAt).toISOString()` (`None` when it throws). The
      record is the form plus the type, `settings {}` and state `pending`;
      a private activity carries the page's random code, a public one
      `null`; an empty expiry becomes `null`. */
  function HandleSubmit(form: Form, selected: Option<string>, digits: seq<nat>, iso: Option<string>): (r: Submission)
    requires Base36Digits(digits)
    ensures selected.None? <==> r == MissingType
    ensures r == InvalidDate <==> selected.Some? && form.expiresAt != "" && iso.None?
    ensures r.Submit? ==>
      var n := r.record;
      n.title == form.title && n.description == form.description && n.isPublic == form.isPublic &&
      n.activityType == selected.value && n.settings == NoSettings && n.state == "pending" &&
      (form.isPublic <==> n.accessCode.None?) &&
      (!form.isPublic ==> n.accessCode == Some(RandomCode(digits))) &&
      (form.expiresAt == "" <==> n.expiresAt.None?) &&
      (form.expiresAt != "" ==> n.expiresAt == iso)
  {
    if selected.None? then MissingType
    else if form.expiresAt != "" && iso.None? then InvalidDate
    else
      var expires := if form.expiresAt == "" then None else iso;
      var code := if form.isPublic then None else Some(RandomCode(digits));
      Submit(NewActivity(form.title, form.description, form.isPublic, selected.value,
                         NoSettings, "pending", code, expires))
  }
}

=== FILE: dashboard.dfy ===
/** The dashboard: the signed-in user's activities, the type filter, the
    per-type counts, and the removal of a deleted activity. */
module Dashboard {
  import opened Common
  import opened Entities

  /** `activity.user_id === user?.id`: with nobody signed in nothing is
      owned. */
  predicate OwnedBy(a: Activity, user: Option<string>) {
    user == Some(a.userId)
  }

  /** `activities.filter(a => a.user_id === user?.id)`. */
  function Owned(acts: seq<Activity>, user: Option<string>): (r: seq<Activity>)
    ensures |r| <= |acts|
    ensures forall a :: a in r <==> a in acts && OwnedBy(a, user)
  {
    if |acts| == 0 then []
    else (if OwnedBy(acts[0], user) then [acts[0]] else []) + Owned(acts[1..], user)
  }

  /** `list.filter(a => a.activity_type === t)`. */
  function OfType(acts: seq<Activity>, t: string): (r: seq<Activity>)
    ensures |r| <= |acts|
    ensures forall a :: a in r <==> a in acts && a.activityType == t
  {
    if |acts| == 0 then []
    else (if acts[0].activityType == t then [acts[0]] else []) + OfType(acts[1..], t)
  }

  /** `activities.filter(a => a.activity_type === t && a.user_id === user?.id)`. */
  function OwnedOfType(acts: seq<Activity>, user: Option<string>, t: string): (r: seq<Activity>)
    ensures forall a :: a in r <==> a in acts && a.activityType == t && OwnedBy(a, user)
  {
    if |acts| == 0 then []
    else
      var keep := acts[0].activityType == t && OwnedBy(acts[0], user);
      (if keep then [acts[0]] else []) + OwnedOfType(acts[1..], user, t)
  }

  /** `filteredActivities`: `'all'` keeps the user's activities, any other
      filter also requires that activity type. */
  function Filtered(acts: seq<Activity>, user: Option<string>, filter: string): (r: seq<Activity>)
    ensures forall a :: a in r <==> a in acts && OwnedBy(a, user) && (filter == "all" || a.activityType == filter)
  {
    if filter == "all" then Owned(acts, user) else OwnedOfType(acts, user, filter)
  }

  /** `activityTypeCount[t]`, over the user's activities. */
  function TypeCount(acts: seq<Activity>, user: Option<string>, t: string): (n: nat)
    ensures n <= |Owned(acts, user)|
  {
    |OfType(Owned(acts, user), t)|
  }

  lemma {:induction false} OfTypeAppend(a: seq<Activity>, b: seq<Activity>, t: string)
    ensures OfType(a + b, t) == OfType(a, t) + OfType(b, t)
  {
    if |a| == 0 {
      assert a + b == b;
    } else {
      assert (a + b)[1..] == a[1..] + b;
      OfTypeAppend(a[1..], b, t);
    }
  }

  /** The filters keep the order of the list: filtering a concatenation
      concatenates the filtered parts. */
  lemma {:induction false} OwnedAppend(a: seq<Activity>, b: seq<Activity>, user: Option<string>)
    ensures Owned(a + b, user) == Owned(a, user) + Owned(b, user)
  {
    if |a| == 0 {
      assert a + b == b;
    } else {
      assert (a + b)[1..] == a[1..] + b;
      OwnedAppend(a[1..], b, user);
    }
  }

  lemma OwnedOne(x: Activity, user: Option<string>)
    ensures Owned([x], user) == if OwnedBy(x, user) then [x] else []
  {
    assert [x][1..] == [];
  }

  lemma OfTypeOne(x: Activity, t: string)
    ensures OfType([x], t) == if x.activityType == t then [x] else []
  {
    assert [x][1..] == [];
  }

  lemma {:induction false} OwnedOfTypeAppend(a: seq<Activity>, b: seq<Activity>, user: Option<string>, t: string)
    ensures OwnedOfType(a + b, user, t) == OwnedOfType(a, user, t) + OwnedOfType(b, user, t)
  {
    if |a| == 0 {
      assert a + b == b;
    } else {
      assert (a + b)[1..] == a[1..] + b;
      OwnedOfTypeAppend(a[1..], b, user, t);
    }
  }

  /** On a single activity the dashboard's filter keeps it exactly when it
      is the user's and, unless the filter is `'all'`, of that type; with
      `FilteredAppend` this fixes the shown list entry by entry. */
  lemma FilteredOne(x: Activity, user: Option<string>, filter: string)
    ensures Filtered([x], user, filter) ==
      if OwnedBy(x, user) && (filter == "all" || x.activityType == filter) then [x] else []
  {
    assert [x][1..] == [];
    if filter == "all" {
      OwnedOne(x, user);
    } else {
      assert OwnedOfType([x], user, filter) == (if x.activityType == filter && OwnedBy(x, user) then [x] else []) + OwnedOfType([], user, filter);
    }
  }

  lemma FilteredAppend(a: seq<Activity>, b: seq<Activity>, user: Option<string>, filter: string)
    ensures Filtered(a + b, user, filter) == Filtered(a, user, filter) + Filtered(b, user, filter)
  {
    if filter == "all" {
      OwnedAppend(a, b, user);
    } else {
      OwnedOfTypeAppend(a, b, user, filter);
    }
  }

  /** Filtering by owner and then by type is the dashboard's combined
      filter. */
  lemma {:induction false} OwnedThenType(acts: seq<Activity>, user: Option<string>, t: string)
    ensures OfType(Owned(acts, user), t) == OwnedOfType(acts, user, t)
  {
    if |acts| > 0 {
      OwnedThenType(acts[1..], user, t);
      var head := if OwnedBy(acts[0], user) then [acts[0]] else [];
      OfTypeAppend(head, Owned(acts[1..], user), t);
      if OwnedBy(acts[0], user) {
        assert OfType(head, t) == if acts[0].activityType == t then [acts[0]] else [] by {
          assert head[1..] == [];
        }
      }
    }
  }

  /** The list shown under a type filter has as many entries as that
      type's counter. */
  lemma FilterMatchesCount(acts: seq<Activity>, user: Option<string>, t: string)
    requires t != "all"
    ensures Filtered(acts, user, t) == OfType(Owned(acts, user), t)
    ensures |Filtered(acts, user, t)| == TypeCount(acts, user, t)
  {
    OwnedThenType(acts, user, t);
  }

  /** Number of activities whose type is one of the four known ones. */
  function KnownCount(acts: seq<Activity>): (n: nat)
    ensures n <= |acts|
  {
    if |acts| == 0 then 0 else (if acts[0].activityType in ActivityTypes then 1 else 0) + KnownCount(acts[1..])
  }

  lemma {:induction false} CountsAddUp(owned: seq<Activity>)
    ensures |OfType(owned, "quiz")| + |OfType(owned, "raffle")| + |OfType(owned, "wheel")| + |OfType(owned, "vote")|
      == KnownCount(owned)
  {
    if |owned| > 0 {
      CountsAddUp(owned[1..]);
    }
  }

  lemma {:induction false} KnownCountAll(acts: seq<Activity>)
    requires forall a :: a in acts ==> a.activityType in ActivityTypes
    ensures KnownCount(acts) == |acts|
  {
    if |acts| > 0 {
      assert acts[0] in acts;
      assert forall a :: a in acts[1..] ==> a in acts;
      KnownCountAll(acts[1..]);
    }
  }

  /** The four counters never add up to more than the user owns, and add
      up to exactly that when every activity has a known type. */
  lemma SumOfCountsBounded(acts: seq<Activity>, user: Option<string>)
    ensures TypeCount(acts, user, "quiz") + TypeCount(acts, user, "raffle")
      + TypeCount(acts, user, "wheel") + TypeCount(acts, user, "vote") <= |Owned(acts, user)|
    ensures (forall a :: a in Owned(acts, user) ==> a.activityType in ActivityTypes) ==>
      TypeCount(acts, user, "quiz") + TypeCount(acts, user, "raffle")
        + TypeCount(acts, user, "wheel") + TypeCount(acts, user, "vote") == |Owned(acts, user)|
  {
    var owned := Owned(acts, user);
    CountsAddUp(owned);
    if forall a :: a in owned ==> a.activityType in ActivityTypes {
      KnownCountAll(owned);
    }
  }

  /** `old.filter(a => a.id !== id)`. */
  function WithoutId(acts: seq<Activity>, id: string): (r: seq<Activity>)
    ensures forall a :: a in r <==> a in acts && a.id != id
  {
    if |acts| == 0 then []
    else (if acts[0].id != id then [acts[0]] else []) + WithoutId(acts[1..], id)
  }

  /** Removing by id keeps the remaining activities in their order. */
  lemma {:induction false} WithoutIdAppend(a: seq<Activity>, b: seq<Activity>, id: string)
    ensures WithoutId(a + b, id) == WithoutId(a, id) + WithoutId(b, id)
  {
    if |a| == 0 {
      assert a + b == b;
    } else {
      assert (a + b)[1..] == a[1..] + b;
      WithoutIdAppend(a[1..], b, id);
    }
  }

  lemma WithoutIdOne(x: Activity, id: string)
    ensures WithoutId([x], id) == if x.id != id then [x] else []
  {
    assert [x][1..] == [];
  }

  /** Deleting an id that is not listed changes nothing. */
  lemma {:induction false} WithoutAbsentId(acts: seq<Activity>, id: string)
    requires forall a :: a in acts ==> a.id != id
    ensures WithoutId(acts, id) == acts
  {
    if |acts| > 0 {
      var t := acts[1..];
      assert acts == [acts[0]] + t;
      assert acts[0] in acts;
      forall a | a in t
        ensures a.id != id
      {
        assert a in acts;
      }
      WithoutAbsentId(t, id);
      WithoutIdOne(acts[0], id);
      WithoutIdAppend([acts[0]], t, id);
    }
  }

  /** `handleDeleteActivity`: after confirmation the delete is sent; when
      it succeeds exactly the activities with that id leave the list, the
      others keep their order. */
  function Delete(acts: seq<Activity>, id: string, confirmed: bool, deleted: bool): (r: (seq<Activity>, Option<Write>))
    ensures !confirmed ==> r == (acts, None)
    ensures confirmed ==> r.1 == Some(DeleteActivity(id))
    ensures confirmed && !deleted ==> r.0 == acts
    ensures confirmed && deleted ==> r.0 == WithoutId(acts, id)
  {
    if !confirmed then (acts, None)
    else if deleted then (WithoutId(acts, id), Some(DeleteActivity(id)))
    else (acts, Some(DeleteActivity(id)))
  }

}

=== FILE: entities.dfy ===
/** The rows of the hosted store that the pages read and write, the JSON
    shapes kept in their `content`, `responses` and `settings` columns, and
    the writes the pages issue, with the effect each write has on the
    `activity_items` table. */
module Entities {
  import opened Common

  /** The four activity types, in the order the creation page lists them. */
  const ActivityTypes: seq<string> := ["quiz", "raffle", "wheel", "vote"]

  /** A raffle winner record. */
  datatype Winner = Winner(prize: string, user: string, avatar: Option<string>, userId: string)

  /** A profile as listed by the wheel (`{id, name}`). */
  datatype Person = Person(id: string, name: string)

  /** The `settings` column of an activity: `{}`, the raffle's
      `{winners}` or the wheel's `{winner}`. Writers replace it whole. */
  datatype Settings =
    | NoSettings
    | RaffleSettings(winners: seq<Winner>)
    | WheelSettings(winner: Option<Person>)

  /** One quiz question as stored; every field may be missing. */
  datatype RawQuestion = RawQuestion(
    question: Option<string>,
    options: Option<seq<string>>,
    correctAnswer: Option<int>)

  /** A raffle prize; the quantity is whatever the builder parsed. */
  datatype Prize = Prize(name: string, quantity: int)

  /** Segments of a wheel: plain labels, or participants. */
  datatype Segments = Labels(labels: seq<string>) | People(people: seq<Person>)

  /** The `content` JSON of an activity item. */
  datatype Content =
    /** `{type: 'quiz', questions, settings, created_at}`; `questions`
        may be absent in rows written by other clients. */
    | QuizContent(questions: Option<seq<RawQuestion>>, quizSettings: map<string, bool>, createdAt: string)
    /** The legacy layout: one question per item. */
    | QuestionItem(raw: RawQuestion)
    | RaffleContent(title: string, description: string, prizes: seq<Prize>, participants: seq<string>)
    | VoteContent(title: string, description: string, options: seq<string>, isMultipleChoice: bool)
    | WheelContent(title: string, description: string, wheelType: string, segments: Segments)

  /** A row of `activity_items`. */
  datatype Item = Item(activityId: string, content: Content, position: int)

  /** One saved quiz answer. */
  datatype Answer = Answer(question: string, selectedAnswer: Option<string>)

  /** The `responses` JSON of a participation. */
  datatype Responses =
    | NoResponses                                   // `{}`, written on join
    | Answers(answers: seq<Answer>)                 // quiz
    | Selection(selectedOptions: seq<string>)       // vote
    | SpinResult(result: string)                    // wheel, prizes mode
    | Participated                                  // raffle

  /** A row of `participations`. `username` stands for the name each page
      reads: the joined profile's `profiles.username` in the quiz results,
      and the row's own `username` on the results page, whose
      `select('*')` joins no profile. */
  datatype Participation = Participation(
    activityId: string,
    userId: string,
    username: Option<string>,
    score: Option<real>,
    createdAt: int,
    responses: Responses)

  /** A row of `activities`. `state` is the stored text, `expiresAt` a
      timestamp in milliseconds. */
  datatype Activity = Activity(
    id: string,
    userId: string,
    title: string,
    description: string,
    activityType: string,
    isPublic: bool,
    accessCode: Option<string>,
    state: Option<string>,
    expiresAt: Option<int>,
    settings: Settings)

  /** A write sent to the store. */
  datatype Write =
    | SetState(activity: string, state: string)
    | SetPublic(activity: string, isPublic: bool)
    | SetSettings(activity: string, settings: Settings)
    | DeleteItems(activity: string)
    | InsertItem(item: Item)
    | InsertItems(rows: seq<Item>)
    | UpdateItemContent(activity: string, content: Content)
    | UpsertParticipation(activity: string, userId: string, responses: Responses, score: Option<real>)
    | InsertParticipation(activity: string, userId: string, responses: Responses, score: Option<real>)
    | DeleteActivity(activity: string)

  /** The items of one activity, in table order. */
  function ItemsOf(items: seq<Item>, a: string): (r: seq<Item>)
    ensures forall it :: it in r <==> it in items && it.activityId == a
    ensures |r| <= |items|
  {
    if |items| == 0 then []
    else (if items[0].activityId == a then [items[0]] else []) + ItemsOf(items[1..], a)
  }

  /** Effect of one write on the `activity_items` table; writes to other
      tables leave it alone. */
  function ApplyToItems(items: seq<Item>, w: Write): seq<Item>
  {
    match w
    case DeleteItems(a) => DropItems(items, a)
    case InsertItem(it) => items + [it]
    case InsertItems(its) => items + its
    case UpdateItemContent(a, c) => Rewrite(items, a, c)
    case _ => items
  }

  function ApplyAllToItems(items: seq<Item>, ws: seq<Write>): seq<Item>
    decreases |ws|
  {
    if |ws| == 0 then items else ApplyAllToItems(ApplyToItems(items, ws[0]), ws[1..])
  }

  /** `delete().eq('activity_id', a)`. */
  function DropItems(items: seq<Item>, a: string): (r: seq<Item>)
    ensures forall it :: it in r <==> it in items && it.activityId != a
  {
    if |items| == 0 then []
    else (if items[0].activityId == a then [] else [items[0]]) + DropItems(items[1..], a)
  }

  /** `update({content}).eq('activity_id', a)`. */
  function Rewrite(items: seq<Item>, a: string, c: Content): (r: seq<Item>)
    ensures |r| == |items|
    ensures forall k :: 0 <= k < |r| ==>
      r[k] == if items[k].activityId == a then items[k].(content := c) else items[k]
  {
    if |items| == 0 then []
    else [if items[0].activityId == a then items[0].(content := c) else items[0]] + Rewrite(items[1..], a, c)
  }

  lemma {:induction false} ItemsOfAppend(x: seq<Item>, y: seq<Item>, a: string)
    ensures ItemsOf(x + y, a) == ItemsOf(x, a) + ItemsOf(y, a)
  {
    if |x| == 0 {
      assert x + y == y;
    } else {
      assert (x + y)[1..] == x[1..] + y;
      ItemsOfAppend(x[1..], y, a);
    }
  }

  lemma {:induction false} DropItemsSelf(items: seq<Item>, a: string)
    ensures ItemsOf(DropItems(items, a), a) == []
  {
    if |items| > 0 {
      DropItemsSelf(items[1..], a);
      ItemsOfAppend(if items[0].activityId == a then [] else [items[0]], DropItems(items[1..], a), a);
    }
  }

  lemma {:induction false} DropItemsOther(items: seq<Item>, a: string, b: string)
    requires a != b
    ensures ItemsOf(DropItems(items, a), b) == ItemsOf(items, b)
  {
    if |items| > 0 {
      DropItemsOther(items[1..], a, b);
      ItemsOfAppend(if items[0].activityId == a then [] else [items[0]], DropItems(items[1..], a), b);
    }
  }

  /** The builders' save when the store accepts the delete: deleting the
      activity's items and inserting one leaves exactly that item for the
      activity, and the items of every other activity as they were. */
  lemma ReplaceItems(items: seq<Item>, it: Item, b: string)
    ensures ItemsOf(ApplyAllToItems(items, [DeleteItems(it.activityId), InsertItem(it)]), it.activityId) == [it]
    ensures b != it.activityId ==>
      ItemsOf(ApplyAllToItems(items, [DeleteItems(it.activityId), InsertItem(it)]), b) == ItemsOf(items, b)
  {
    var a := it.activityId;
    var d := DropItems(items, a);
    assert ApplyAllToItems(items, [DeleteItems(a), InsertItem(it)]) == d + [it] by {
      var ws := [DeleteItems(a), InsertItem(it)];
      assert ws[1..] == [InsertItem(it)];
      assert ApplyToItems(items, ws[0]) == d;
      assert ApplyAllToItems(d, [InsertItem(it)]) == ApplyAllToItems(d + [it], []) by {
        assert [InsertItem(it)][1..] == [];
      }
    }
    ItemsOfAppend(d, [it], a);
    ItemsOfAppend(d, [it], b);
    DropItemsSelf(items, a);
    assert [it][1..] == [];
    if b != a {
      DropItemsOther(items, a, b);
    }
  }

  /** The builders' save when the store rejects the delete: its error is
      never read, so the insert still runs and the activity keeps its old
      items with the new one after them. */
  lemma InsertWithoutDelete(items: seq<Item>, it: Item, b: string)
    ensures ItemsOf(ApplyAllToItems(items, [InsertItem(it)]), it.activityId) == ItemsOf(items, it.activityId) + [it]
    ensures b != it.activityId ==> ItemsOf(ApplyAllToItems(items, [InsertItem(it)]), b) == ItemsOf(items, b)
  {
    assert ApplyAllToItems(items, [InsertItem(it)]) == items + [it] by {
      assert [InsertItem(it)][1..] == [];
    }
    ItemsOfAppend(items, [it], it.activityId);
    ItemsOfAppend(items, [it], b);
    assert [it][1..] == [];
  }
}

=== FILE: join.dfy ===
/** The join page: where the code comes from, finding the activity by
    code or by id, and joining it at most once. */
module Join {
  import opened Common
  import opened Entities
  import ActivityService

  /** `codeFromPath || codeFromQuery`, where the query value is
      `searchParams.get('code') || ''`. */
  function InitialCode(path: Option<string>, query: Option<string>): (code: string)
    ensures path.Some? && path.value != "" ==> code == path.value
    ensures !(path.Some? && path.value != "") ==> code == query.GetOr("")
  {
    if path.Some? && path.value != "" then path.value else query.GetOr("")
  }

  /** The answer of a `.single()` query: the one row, `PGRST116` (no row,
      or several rows), or any other error. */
  datatype Lookup<T> = Row(row: T) | NoRows | Failed

  /** What `.single()` answers over the matching rows of a table that
      answers at all. */
  function Single<T>(rows: seq<T>): (r: Lookup<T>)
    ensures r.Row? <==> |rows| == 1
    ensures r.Row? ==> r.row == rows[0]
    ensures !r.Failed?
  {
    if |rows| == 1 then Row(rows[0]) else NoRows
  }

  /** The messages of the page. */
  datatype Notice = CodeRequired | NotFound | CodeMismatch | LookupError

  /** The outcome of a search: the activity found, or the notice shown. */
  datatype Search = Found(activity: Activity) | Rejected(notice: Notice)

  /** `handleFindActivity` as written. An empty code is refused before any
      lookup. Otherwise the lookup by the exact code either returns the row
      or throws, which shows the generic error: `.single()` reports a
      missing row as an error, so the branch for a missing row is never
      reached and `NotFound` is never shown. */
  function FindActivityAsWritten(code: string, lookup: Lookup<Activity>): (r: Search)
    ensures code == "" ==> r == Rejected(CodeRequired)
    ensures code != "" && lookup.Row? ==> r == Found(lookup.row)
    ensures code != "" && !lookup.Row? ==> r == Rejected(LookupError)
  {
    if code == "" then Rejected(CodeRequired)
    else match lookup
      case Row(a) => Found(a)
      case _ => Rejected(LookupError)
  }

  /** The search with the "not found" notice the page has for a code that
      matches no activity. */
  function FindActivity(code: string, lookup: Lookup<Activity>): (r: Search)
    ensures code == "" ==> r == Rejected(CodeRequired)
    ensures code != "" && lookup.Row? ==> r == Found(lookup.row)
    ensures code != "" && lookup.NoRows? ==> r == Rejected(NotFound)
    ensures code != "" && lookup.Failed? ==> r == Rejected(LookupError)
  {
    if code == "" then Rejected(CodeRequired)
    else match lookup
      case Row(a) => Found(a)
      case NoRows => Rejected(NotFound)
      case Failed => Rejected(LookupError)
  }

  /** The activities stored with exactly this code. The page runs the
      service's filter on what was typed, without upper-casing it first. */
  function WithCode(acts: seq<Activity>, code: string): (r: seq<Activity>)
    ensures forall a :: a in r <==> a in acts && a.accessCode == Some(code)
    ensures |r| == 0 <==> forall a :: a in acts ==> a.accessCode != Some(code)
    ensures forall a :: Count(r, a) == if a.accessCode == Some(code) then Count(acts, a) else 0
  {
    ActivityService.WithCode(acts, code)
  }

  /** The page's `.single()` returns the row iff exactly one stored
      activity carries the typed code; a second one turns the answer into
      `PGRST116`, as for a code nobody has. */
  lemma CodeLookupByMultiplicity(acts: seq<Activity>, code: string, i: nat)
    requires i < |acts| && acts[i].accessCode == Some(code)
    ensures (forall j :: 0 <= j < |acts| && j != i ==> acts[j].accessCode != Some(code)) ==>
      Single(WithCode(acts, code)) == Row(acts[i])
    ensures (exists j :: 0 <= j < |acts| && j != i && acts[j].accessCode == Some(code)) ==>
      Single(WithCode(acts, code)) == NoRows
  {
    if forall j :: 0 <= j < |acts| && j != i ==> acts[j].accessCode != Some(code) {
      ActivityService.WithCodeUnique(acts, code, i);
    }
    if exists j :: 0 <= j < |acts| && j != i && acts[j].accessCode == Some(code) {
      var j :| 0 <= j < |acts| && j != i && acts[j].accessCode == Some(code);
      if i < j { ActivityService.WithCodeTwice(acts, code, i, j); } else { ActivityService.WithCodeTwice(acts, code, j, i); }
    }
  }

  /** A code that no activity has: as written the page shows the generic
      lookup error, never the "not found" notice; the corrected search shows
      "not found". */
  lemma UnknownCodeShowsGenericError(acts: seq<Activity>, code: string)
    requires code != "" && forall a :: a in acts ==> a.accessCode != Some(code)
    ensures FindActivityAsWritten(code, Single(WithCode(acts, code))) == Rejected(LookupError)
    ensures FindActivity(code, Single(WithCode(acts, code))) == Rejected(NotFound)
    ensures forall lookup: Lookup<Activity> :: FindActivityAsWritten(code, lookup) != Rejected(NotFound)
  {
  }

  /** `fetchActivityById`: a failed lookup shows the generic error; an
      activity with a (non-empty) code different from the one entered is
      refused; otherwise it is found. */
  function FetchById(lookup: Lookup<Activity>, entered: string): (r: Search)
    ensures !lookup.Row? ==> r == Rejected(LookupError)
    ensures lookup.Row? ==>
      var a := lookup.row;
      (a.accessCode.Some? && a.accessCode.value != "" && a.accessCode.value != entered <==> r == Rejected(CodeMismatch)) &&
      (r != Rejected(CodeMismatch) ==> r == Found(a))
  {
    match lookup
    case Row(a) =>
      if a.accessCode.Some? && a.accessCode.value != "" && a.accessCode.value != entered then Rejected(CodeMismatch)
      else Found(a)
    case _ => Rejected(LookupError)
  }

  /** Entering the activity's own code is always accepted, and an
      activity without a code passes whatever was entered. */
  lemma OwnCodePasses(a: Activity, entered: string)
    ensures a.accessCode == Some(entered) ==> FetchById(Row(a), entered) == Found(a)
    ensures (a.accessCode.None? || a.accessCode == Some("")) ==> FetchById(Row(a), entered) == Found(a)
  {
  }

  /** The outcome of `handleJoinActivity`: the participation written (if
      any), the activity navigated to (if any), and whether the error toast
      was shown. */
  datatype JoinOutcome = JoinOutcome(write: Option<Write>, navigateTo: Option<string>, error: bool)

  /** `handleJoinActivity`. `existing` is the lookup of the user's
      participation; `inserted` says whether the insert succeeded. Nothing
      happens without a found activity; a missing user or a lookup error
      other than `PGRST116` is an error; an existing row only navigates;
      `PGRST116` inserts `{responses: {}, score: 0}` and then navigates. */
  function HandleJoin(found: Option<Activity>, user: Option<string>, existing: Lookup<Participation>, inserted: bool): (r: JoinOutcome)
    ensures found.None? ==> r == JoinOutcome(None, None, false)
    ensures r.write.Some? <==> found.Some? && user.Some? && existing.NoRows?
    ensures r.write.Some? ==> r.write.value == InsertParticipation(found.value.id, user.value, NoResponses, Some(0.0))
    ensures r.navigateTo.Some? <==> found.Some? && user.Some? && (existing.Row? || (existing.NoRows? && inserted))
    ensures r.navigateTo.Some? ==> r.navigateTo.value == found.value.id
    ensures r.error <==> found.Some? && r.navigateTo.None?
  {
    match found
    case None => JoinOutcome(None, None, false)
    case Some(a) =>
      match user
      case None => JoinOutcome(None, None, true)
      case Some(u) =>
        match existing
        case Failed => JoinOutcome(None, None, true)
        case Row(_) => JoinOutcome(None, Some(a.id), false)
        case NoRows =>
          var w := InsertParticipation(a.id, u, NoResponses, Some(0.0));
          if inserted then JoinOutcome(Some(w), Some(a.id), false) else JoinOutcome(Some(w), None, true)
  }

  /** The participations of one user in one activity. */
  function RowsFor(ps: seq<Participation>, activityId: string, userId: string): (r: seq<Participation>)
    ensures |r| <= |ps|
  {
    if |ps| == 0 then []
    else
      var keep := ps[0].activityId == activityId && ps[0].userId == userId;
      (if keep then [ps[0]] else []) + RowsFor(ps[1..], activityId, userId)
  }

  lemma {:induction false} RowsForAppend(ps: seq<Participation>, q: seq<Participation>, activityId: string, userId: string)
    ensures RowsFor(ps + q, activityId, userId) == RowsFor(ps, activityId, userId) + RowsFor(q, activityId, userId)
  {
    if |ps| == 0 {
      assert ps + q == q;
    } else {
      assert (ps + q)[1..] == ps[1..] + q;
      RowsForAppend(ps[1..], q, activityId, userId);
    }
  }

  /** The row an insert adds; the creation time is not modelled. */
  function Inserted(w: Write): (p: Participation)
    requires w.InsertParticipation?
    ensures p.activityId == w.activity && p.userId == w.userId && p.responses == w.responses
  {
    Participation(w.activity, w.userId, None, w.score, 0, w.responses)
  }

  /** The table after a join. */
  function AfterJoin(ps: seq<Participation>, r: JoinOutcome, inserted: bool): seq<Participation>
  {
    if r.write.Some? && r.write.value.InsertParticipation? && inserted then ps + [Inserted(r.write.value)] else ps
  }

  /** Joining twice from a table without the user's row: the first join
      inserts one row and navigates, the second only navigates, and the
      table ends with exactly one row for the user. */
  lemma JoinTwiceInsertsOnce(ps: seq<Participation>, a: Activity, user: string)
    requires |RowsFor(ps, a.id, user)| == 0
    ensures var first := HandleJoin(Some(a), Some(user), Single(RowsFor(ps, a.id, user)), true);
      var ps1 := AfterJoin(ps, first, true);
      var second := HandleJoin(Some(a), Some(user), Single(RowsFor(ps1, a.id, user)), true);
      first.write.Some? && first.navigateTo == Some(a.id) &&
      second.write.None? && second.navigateTo == Some(a.id) &&
      |RowsFor(AfterJoin(ps1, second, true), a.id, user)| == 1
  {
    var first := HandleJoin(Some(a), Some(user), Single(RowsFor(ps, a.id, user)), true);
    var row := Inserted(first.write.value);
    RowsForAppend(ps, [row], a.id, user);
    assert RowsFor([row], a.id, user) == [row] by {
      assert [row][1..] == [];
    }
  }

  /** `.single()` also reports `PGRST116` for several rows, so a user who
      already has two rows gets a third. */
  lemma DuplicateRowsJoinAgain(ps: seq<Participation>, a: Activity, user: string)
    requires |RowsFor(ps, a.id, user)| >= 2
    ensures HandleJoin(Some(a), Some(user), Single(RowsFor(ps, a.id, user)), true).write.Some?
  {
  }
}

=== FILE: profile.dfy ===
/** Profiles: the username rules of the profile page, the availability
    lookup, and the profile created on first sign-in. */
module Profile {
  import opened Common
  import opened Text

  /** A row of `profiles`. */
  datatype ProfileRow = ProfileRow(userId: string, username: string, displayName: string, avatarUrl: Option<string>)

  // isUsernameAvailable

  /** The rows holding this username. */
  function Holders(rows: seq<ProfileRow>, name: string): (r: seq<ProfileRow>)
    ensures |r| <= |rows|
    ensures forall p :: p in r <==> p in rows && p.username == name
    ensures |r| == 0 <==> forall p :: p in rows ==> p.username != name
    ensures forall p :: Count(r, p) == if p.username == name then Count(rows, p) else 0
  {
    if |rows| == 0 then []
    else
      var head := if rows[0].username == name then [rows[0]] else [];
      var rest := Holders(rows[1..], name);
      assert forall p :: Count(head + rest, p) == Count(head, p) + Count(rest, p) by {
        forall p { CountAppend(head, rest, p); }
      }
      head + rest
  }

  /** One profile holds the name: the filter yields exactly it. */
  lemma {:induction false} HoldersUnique(rows: seq<ProfileRow>, name: string, i: nat)
    requires i < |rows| && rows[i].username == name
    requires forall j :: 0 <= j < |rows| && j != i ==> rows[j].username != name
    ensures Holders(rows, name) == [rows[i]]
  {
    if i == 0 {
      assert forall p :: p in rows[1..] ==> p.username != name;
    } else {
      HoldersUnique(rows[1..], name, i - 1);
    }
  }

  /** Two profiles hold the name: the filter yields at least two. */
  lemma {:induction false} HoldersTwice(rows: seq<ProfileRow>, name: string, i: nat, j: nat)
    requires i < j < |rows| && rows[i].username == name && rows[j].username == name
    ensures |Holders(rows, name)| >= 2
  {
    if i == 0 {
      assert rows[j] in rows[1..];
      assert rows[j] in Holders(rows[1..], name);
    } else {
      HoldersTwice(rows[1..], name, i - 1, j - 1);
    }
  }

  /** A name held by exactly one profile is reported taken; held by a
      second one as well, `maybeSingle` fails and the lookup is an error. */
  lemma AvailabilityByMultiplicity(rows: seq<ProfileRow>, name: string, i: nat)
    requires i < |rows| && rows[i].username == name
    ensures (forall j :: 0 <= j < |rows| && j != i ==> rows[j].username != name) ==>
      IsUsernameAvailable(rows, name) == Some(false)
    ensures (exists j :: 0 <= j < |rows| && j != i && rows[j].username == name) ==>
      IsUsernameAvailable(rows, name).None?
  {
    if forall j :: 0 <= j < |rows| && j != i ==> rows[j].username != name {
      HoldersUnique(rows, name, i);
    }
    if exists j :: 0 <= j < |rows| && j != i && rows[j].username == name {
      var j :| 0 <= j < |rows| && j != i && rows[j].username == name;
      if i < j { HoldersTwice(rows, name, i, j); } else { HoldersTwice(rows, name, j, i); }
    }
  }

  /** `isUsernameAvailable`: `maybeSingle` on the username; no row means
      available, one row means taken, several rows are an error, which the
      function rethrows (`None`). */
  function IsUsernameAvailable(rows: seq<ProfileRow>, name: string): (r: Option<bool>)
    ensures r == Some(true) <==> forall p :: p in rows ==> p.username != name
    ensures r == Some(false) <==> |Holders(rows, name)| == 1
    ensures r.None? <==> |Holders(rows, name)| >= 2
  {
    var h := Holders(rows, name);
    if |h| == 0 then Some(true)
    else if |h| == 1 then Some(false)
    else None
  }

  // validateUsername

  /** The errors the page shows under the username. */
  datatype UsernameError = Required | TooShort | BadCharacters | Unavailable

  /** A character of `[a-zA-Z0-9_]`. */
  predicate UsernameChar(c: char) {
    ('a' <= c <= 'z') || ('A' <= c <= 'Z') || ('0' <= c <= '9') || c == '_'
  }

  /** The first character outside `[a-zA-Z0-9_]`, if any. */
  function FirstBadChar(s: string): (r: Option<nat>)
    ensures r.None? <==> forall k :: 0 <= k < |s| ==> UsernameChar(s[k])
    ensures r.Some? ==> r.value < |s| && !UsernameChar(s[r.value])
  {
    if |s| == 0 then None
    else if !UsernameChar(s[0]) then Some(0)
    else match FirstBadChar(s[1..])
      case None =>
        assert forall k :: 1 <= k < |s| ==> s[k] == s[1..][k - 1];
        None
      case Some(i) => Some(i + 1)
  }

  /** `validateUsername(name)`. `current` is `profile.username` as the
      handler running the validation sees it: the form's value at the last
      render (before the keystroke while typing, and the submitted name
      itself at submit). `available` is the answer of the availability
      lookup (`None` when it threw). The checks run in order; a failed
      lookup does not block the name, and the name `current` is never
      reported as taken. `None` means valid. */
  function ValidateUsername(name: string, current: Option<string>, available: Option<bool>): (r: Option<UsernameError>)
    ensures r == Some(Required) <==> name == ""
    ensures r == Some(TooShort) <==> 0 < |name| < 3
    ensures r == Some(BadCharacters) <==> |name| >= 3 && exists k :: 0 <= k < |name| && !UsernameChar(name[k])
    ensures r == Some(Unavailable) <==>
      |name| >= 3 && (forall k :: 0 <= k < |name| ==> UsernameChar(name[k])) &&
      available == Some(false) && current != Some(name)
  {
    if name == "" then Some(Required)
    else if |name| < 3 then Some(TooShort)
    else if FirstBadChar(name).Some? then Some(BadCharacters)
    else if available == Some(false) && current != Some(name) then Some(Unavailable)
    else None
  }

  /** A name the page accepts is at least three characters of
      `[a-zA-Z0-9_]`, and is either not held by anybody, held only by the
      user, or the lookup failed. */
  lemma AcceptedNames(rows: seq<ProfileRow>, name: string, current: Option<string>)
    ensures ValidateUsername(name, current, IsUsernameAvailable(rows, name)).None? <==>
      |name| >= 3 && (forall k :: 0 <= k < |name| ==> UsernameChar(name[k])) &&
      (|Holders(rows, name)| != 1 || current == Some(name))
  {
  }

  /** Keeping one's own name always validates once it is well formed; a
      name two profiles hold validates too, because the lookup fails. */
  lemma OwnAndDuplicateNamesPass(rows: seq<ProfileRow>, name: string)
    requires |name| >= 3 && forall k :: 0 <= k < |name| ==> UsernameChar(name[k])
    ensures ValidateUsername(name, Some(name), IsUsernameAvailable(rows, name)).None?
    ensures |Holders(rows, name)| >= 2 ==> ValidateUsername(name, None, IsUsernameAvailable(rows, name)).None?
  {
  }

  /** The editable profile fields. */
  datatype ProfileForm = ProfileForm(username: string, displayName: string, avatarUrl: string)

  /** `handleSubmit` as written: `validateUsername(profile.username)` runs
      inside the same render as the form, so the name is compared with
      itself and the handler's own "not available" check never fires. The
      page still guards the button with the live check of the last
      keystroke (`SubmitButton`, `LiveCheckBlocksTakenName`), so a taken
      name reaches the handler only while that live lookup is unresolved
      or after lookups answered out of order
      (`PendingLookupLetsTakenNameThrough`). */
  function SubmitAsWritten(form: ProfileForm, available: Option<bool>): (r: Option<ProfileForm>)
    ensures r.Some? <==> ValidateUsername(form.username, Some(form.username), available).None?
    ensures r.Some? ==> r.value == form
  {
    if ValidateUsername(form.username, Some(form.username), available).None? then Some(form) else None
  }

  /** As written, the handler sends every well-formed name, whatever the
      lookup answers: a name another profile holds included. */
  lemma SubmitAsWrittenIgnoresLookup(form: ProfileForm, available: Option<bool>)
    ensures SubmitAsWritten(form, available).Some? <==>
      |form.username| >= 3 && forall k :: 0 <= k < |form.username| ==> UsernameChar(form.username[k])
  {
  }

  /** `handleSubmit` with the comparison evidently intended:
      against `stored`, the username of the profile as loaded. */
  function Submit(form: ProfileForm, stored: Option<string>, available: Option<bool>): (r: Option<ProfileForm>)
    ensures r.Some? <==> ValidateUsername(form.username, stored, available).None?
    ensures r.Some? ==> r.value == form
  {
    if ValidateUsername(form.username, stored, available).None? then Some(form) else None
  }

  /** A well-formed name that exactly one other profile holds: the page as
      written sends it, the corrected submit refuses it; keeping one's own
      stored name is accepted by both. */
  lemma TakenNameAtSubmit(rows: seq<ProfileRow>, form: ProfileForm, stored: Option<string>)
    requires |form.username| >= 3 && forall k :: 0 <= k < |form.username| ==> UsernameChar(form.username[k])
    requires |Holders(rows, form.username)| == 1
    ensures SubmitAsWritten(form, IsUsernameAvailable(rows, form.username)).Some?
    ensures stored != Some(form.username) ==> Submit(form, stored, IsUsernameAvailable(rows, form.username)).None?
    ensures stored == Some(form.username) ==> Submit(form, stored, IsUsernameAvailable(rows, form.username)) == Some(form)
  {
  }

  /** The submit button: `disabled={saving || !!usernameError}`, where
      `shown` is the error of the last live check that has resolved. */
  function SubmitButton(saving: bool, shown: Option<UsernameError>): (enabled: bool)
    ensures enabled <==> !saving && shown.None?
  {
    !saving && shown.None?
  }

  /** Typing changes the field, so the live check of a keystroke compares
      the new name with a different `previous` one: once its lookup has
      answered, a well-formed name exactly one other profile holds shows
      "not available" and the button is disabled. */
  lemma LiveCheckBlocksTakenName(rows: seq<ProfileRow>, previous: string, typed: string, saving: bool)
    requires |typed| >= 3 && forall k :: 0 <= k < |typed| ==> UsernameChar(typed[k])
    requires |Holders(rows, typed)| == 1 && previous != typed
    ensures ValidateUsername(typed, Some(previous), IsUsernameAvailable(rows, typed)) == Some(Unavailable)
    ensures !SubmitButton(saving, ValidateUsername(typed, Some(previous), IsUsernameAvailable(rows, typed)))
  {
  }

  /** The live lookup for the taken name `typed` has not answered yet, and
      the error shown is still the one of the earlier keystroke `previous`,
      a free well-formed name: the button is enabled, and the handler as
      written sends the taken name while the corrected one refuses it. */
  lemma PendingLookupLetsTakenNameThrough(rows: seq<ProfileRow>, before: string, previous: string, form: ProfileForm, stored: Option<string>)
    requires |previous| >= 3 && forall k :: 0 <= k < |previous| ==> UsernameChar(previous[k])
    requires forall p :: p in rows ==> p.username != previous
    requires |form.username| >= 3 && forall k :: 0 <= k < |form.username| ==> UsernameChar(form.username[k])
    requires |Holders(rows, form.username)| == 1 && stored != Some(form.username)
    ensures SubmitButton(false, ValidateUsername(previous, Some(before), IsUsernameAvailable(rows, previous)))
    ensures SubmitAsWritten(form, IsUsernameAvailable(rows, form.username)) == Some(form)
    ensures Submit(form, stored, IsUsernameAvailable(rows, form.username)).None?
  {
  }

  /** A submitted profile always has a well-formed username. */
  lemma SubmittedNamesAreWellFormed(form: ProfileForm, stored: Option<string>, available: Option<bool>)
    requires Submit(form, stored, available).Some?
    ensures |form.username| >= 3 && forall k :: 0 <= k < |form.username| ==> UsernameChar(form.username[k])
  {
  }

  // getOrCreateProfile

  /** The signed-in user as the identity provider describes it; each entry
      of `emails` is the `email` field of an address, `None` when the
      field is missing. */
  datatype IdentityUser = IdentityUser(id: string, username: Option<string>, emails: seq<Option<string>>, imageUrl: Option<string>)

  /** `email.split('@')[0]`: the text before the first `@`. */
  function LocalPart(email: string): (r: string)
    ensures '@' !in r && |r| <= |email| && r == email[..|r|]
    ensures |r| < |email| ==> email[|r|] == '@'
  {
    if |email| == 0 || email[0] == '@' then ""
    else
      var rest := LocalPart(email[1..]);
      assert email[..|rest| + 1] == [email[0]] + email[1..][..|rest|];
      [email[0]] + rest
  }

  /** Splitting `local@domain` gives back the local part. */
  lemma {:induction false} LocalPartOf(local: string, domain: string)
    requires '@' !in local
    ensures LocalPart(local + "@" + domain) == local
  {
    if |local| > 0 {
      assert (local + "@" + domain)[1..] == local[1..] + "@" + domain;
      LocalPartOf(local[1..], domain);
    }
  }

  /** The name derived from the first e-mail address: `NoName` when there
      is no address or its local part is empty; an address without its
      `email` field makes `.split` throw. */
  datatype Derived = NoName | Name(name: string) | Throws

  function FromEmail(emails: seq<Option<string>>): (d: Derived)
    ensures |emails| == 0 ==> d == NoName
    ensures |emails| > 0 && emails[0].None? ==> d == Throws
    ensures |emails| > 0 && emails[0].Some? ==>
      (LocalPart(emails[0].value) == "" ==> d == NoName) &&
      (LocalPart(emails[0].value) != "" ==> d == Name(LocalPart(emails[0].value)))
  {
    if |emails| == 0 then NoName
    else match emails[0]
      case None => Throws
      case Some(e) => if LocalPart(e) == "" then NoName else Name(LocalPart(e))
  }

  /** The result of `getOrCreateProfile`. */
  datatype Outcome = Existing(profile: ProfileRow) | Created(profile: ProfileRow) | Failed

  /** `getOrCreateProfile(user)` with the `maybeSingle` lookup of the user's
      profile (`None` when there is none or the lookup failed) and whether
      the insert succeeded. An existing profile is returned as is. A new one
      takes the username, else the e-mail's local part, else `user_` and the
      first eight characters of the id; the display name takes the same
      chain ending in `Usuario`; the avatar is the image or `null`. */
  function GetOrCreateProfile(user: IdentityUser, existing: Option<ProfileRow>, insertOk: bool): (r: Outcome)
    ensures existing.Some? ==> r == Existing(existing.value)
    ensures existing.None? && insertOk && (Truthy(user.username) || FromEmail(user.emails) != Throws) ==> r.Created?
    ensures existing.None? && (!insertOk || (!Truthy(user.username) && FromEmail(user.emails) == Throws)) ==> r == Failed
    ensures r.Created? ==>
      var p := r.profile;
      p.userId == user.id &&
      (Truthy(user.username) ==> p.username == user.username.value && p.displayName == user.username.value) &&
      (!Truthy(user.username) && FromEmail(user.emails).Name? ==>
        p.username == FromEmail(user.emails).name && p.displayName == FromEmail(user.emails).name) &&
      (!Truthy(user.username) && FromEmail(user.emails) == NoName ==>
        p.username == "user_" + Prefix(user.id, 8) && p.displayName == "Usuario") &&
      (p.avatarUrl.Some? <==> Truthy(user.imageUrl)) &&
      (p.avatarUrl.Some? ==> p.avatarUrl == user.imageUrl)
  {
    if existing.Some? then Existing(existing.value)
    else
      var derived := if Truthy(user.username) then Name(user.username.value) else FromEmail(user.emails);
      if derived == Throws || !insertOk then Failed
      else
        var username := if derived.Name? then derived.name else "user_" + Prefix(user.id, 8);
        var displayName := if derived.Name? then derived.name else "Usuario";
        var avatar := if Truthy(user.imageUrl) then user.imageUrl else None;
        Created(ProfileRow(user.id, username, displayName, avatar))
  }

  predicate Truthy(s: Option<string>) {
    s.Some? && s.value != ""
  }

  /** A created profile never has an empty username or display name, and
      asking again once it is stored returns it unchanged without a second
      insert. */
  lemma CreatedProfileIsStable(user: IdentityUser, insertOk: bool, again: bool)
    requires GetOrCreateProfile(user, None, insertOk).Created?
    ensures var p := GetOrCreateProfile(user, None, insertOk).profile;
      p.username != "" && p.displayName != "" &&
      GetOrCreateProfile(user, Some(p), again) == Existing(p)
  {
  }
}

=== FILE: quiz_builder.dfy ===
/** The quiz editor: the list of questions being authored, its edits, the
    validation run before saving, and the content and write produced by
    saving. */
module QuizBuilder {
  import opened Common
  import opened Text
  import opened Entities

  /** A question in the editor. */
  datatype Question = Question(question: string, options: seq<string>, correctAnswer: int)

  /** `{ question: '', options: ['', ''], correctAnswer: 0 }`. */
  function BlankQuestion(): (q: Question)
    ensures q.question == "" && q.options == ["", ""] && q.correctAnswer == 0
  {
    Question("", ["", ""], 0)
  }

  /** The editor's starting list. */
  function Initial(): (qs: seq<Question>)
    ensures qs == [BlankQuestion()]
  {
    [BlankQuestion()]
  }

  /** What every edit keeps: at least one question, every question with at
      least two options and a correct answer that indexes one of them. */
  ghost predicate WellFormed(qs: seq<Question>) {
    |qs| >= 1 &&
    forall k :: 0 <= k < |qs| ==> |qs[k].options| >= 2 && 0 <= qs[k].correctAnswer < |qs[k].options|
  }

  lemma InitialWellFormed()
    ensures WellFormed(Initial())
  {
  }

  /** `addQuestion`: one blank question appended, the others untouched. */
  function AddQuestion(qs: seq<Question>): (r: seq<Question>)
    ensures |r| == |qs| + 1 && r[..|qs|] == qs && r[|qs|] == BlankQuestion()
    ensures WellFormed(qs) ==> WellFormed(r)
  {
    qs + [BlankQuestion()]
  }

  /** `removeQuestion`: drops question `i` unless it is the only one. */
  function RemoveQuestion(qs: seq<Question>, i: int): (r: seq<Question>)
    ensures |qs| <= 1 ==> r == qs
    ensures |qs| > 1 ==> r == RemoveAt(qs, i)
    ensures |qs| >= 1 ==> |r| >= 1
    ensures WellFormed(qs) ==> WellFormed(r)
  {
    if |qs| > 1 then RemoveAt(qs, i) else qs
  }

  /** `updateQuestion(i, 'question', text)`. */
  function SetPrompt(qs: seq<Question>, i: nat, text: string): (r: seq<Question>)
    requires i < |qs|
    ensures |r| == |qs| && r[i].question == text
    ensures r[i].options == qs[i].options && r[i].correctAnswer == qs[i].correctAnswer
    ensures forall k :: 0 <= k < |qs| && k != i ==> r[k] == qs[k]
    ensures WellFormed(qs) ==> WellFormed(r)
  {
    SetAt(qs, i, qs[i].(question := text))
  }

  /** `updateQuestion(i, 'correctAnswer', o)` from the radio button of
      option `o`, which exists only for options that are shown. */
  function SetCorrect(qs: seq<Question>, i: nat, o: nat): (r: seq<Question>)
    requires i < |qs| && o < |qs[i].options|
    ensures |r| == |qs| && r[i].correctAnswer == o
    ensures r[i].question == qs[i].question && r[i].options == qs[i].options
    ensures forall k :: 0 <= k < |qs| && k != i ==> r[k] == qs[k]
    ensures WellFormed(qs) ==> WellFormed(r)
  {
    SetAt(qs, i, qs[i].(correctAnswer := o))
  }

  /** `addOption(i)`: an empty option appended to question `i` only. */
  function AddOption(qs: seq<Question>, i: nat): (r: seq<Question>)
    requires i < |qs|
    ensures |r| == |qs| && r[i].options == qs[i].options + [""]
    ensures r[i].question == qs[i].question && r[i].correctAnswer == qs[i].correctAnswer
    ensures forall k :: 0 <= k < |qs| && k != i ==> r[k] == qs[k]
    ensures WellFormed(qs) ==> WellFormed(r)
  {
    SetAt(qs, i, qs[i].(options := qs[i].options + [""]))
  }

  /** `updateOption(i, o, text)`. */
  function SetOption(qs: seq<Question>, i: nat, o: nat, text: string): (r: seq<Question>)
    requires i < |qs| && o < |qs[i].options|
    ensures |r| == |qs| && |r[i].options| == |qs[i].options| && r[i].options[o] == text
    ensures forall p :: 0 <= p < |qs[i].options| && p != o ==> r[i].options[p] == qs[i].options[p]
    ensures r[i].question == qs[i].question && r[i].correctAnswer == qs[i].correctAnswer
    ensures forall k :: 0 <= k < |qs| && k != i ==> r[k] == qs[k]
    ensures WellFormed(qs) ==> WellFormed(r)
  {
    SetAt(qs, i, qs[i].(options := SetAt(qs[i].options, o, text)))
  }

  /** The adjusted correct answer after removing option `o`: decremented,
      floored at 0, when it was at or above `o`. */
  function ShiftCorrect(c: int, o: nat): (r: int)
    ensures c >= o ==> r == Max(0, c - 1)
    ensures c < o ==> r == c
  {
    if c >= o then Max(0, c - 1) else c
  }

  /** `removeOption(i, o)`: nothing happens while the question has two or
      fewer options; otherwise option `o` is spliced out and the correct
      answer adjusted. */
  function RemoveOption(qs: seq<Question>, i: nat, o: nat): (r: seq<Question>)
    requires i < |qs|
    ensures |qs[i].options| <= 2 ==> r == qs
    ensures |qs[i].options| > 2 ==>
      |r| == |qs| && r[i].options == RemoveAt(qs[i].options, o) &&
      r[i].correctAnswer == ShiftCorrect(qs[i].correctAnswer, o) && r[i].question == qs[i].question
    ensures forall k :: 0 <= k < |qs| && k != i ==> r[k] == qs[k]
  {
    var q := qs[i];
    if |q.options| > 2 then
      SetAt(qs, i, q.(options := RemoveAt(q.options, o), correctAnswer := ShiftCorrect(q.correctAnswer, o)))
    else qs
  }

  /** Removing an option keeps the list well formed; a correct answer
      above the removed option still designates the same option text. */
  lemma RemoveOptionKeepsCorrect(qs: seq<Question>, i: nat, o: nat)
    requires WellFormed(qs) && i < |qs| && o < |qs[i].options|
    ensures WellFormed(RemoveOption(qs, i, o))
    ensures |qs[i].options| > 2 && qs[i].correctAnswer > o ==>
      RemoveOption(qs, i, o)[i].options[RemoveOption(qs, i, o)[i].correctAnswer] == qs[i].options[qs[i].correctAnswer]
    ensures |qs[i].options| > 2 && qs[i].correctAnswer < o ==>
      RemoveOption(qs, i, o)[i].options[RemoveOption(qs, i, o)[i].correctAnswer] == qs[i].options[qs[i].correctAnswer]
  {
  }

  /** Why `validateQuestions` refuses. */
  datatype Verdict = Valid | EmptyQuestion | EmptyOption

  /** Some prompt is empty after trimming. */
  function HasEmptyPrompt(qs: seq<Question>): (r: bool)
    ensures r <==> exists k :: 0 <= k < |qs| && IsBlank(qs[k].question)
  {
    var prompts := seq(|qs|, k requires 0 <= k < |qs| => qs[k].question);
    var r := HasEmptyText(prompts);
    if r then
      var k :| 0 <= k < |prompts| && IsBlank(prompts[k]);
      assert prompts[k] == qs[k].question;
      true
    else
      assert forall k :: 0 <= k < |qs| ==> prompts[k] == qs[k].question;
      false
  }

  /** Some option of the list is empty after trimming. */
  function HasEmptyText(opts: seq<string>): (r: bool)
    ensures r <==> exists k :: 0 <= k < |opts| && IsBlank(opts[k])
  {
    if |opts| == 0 then false
    else
      TrimEmptyIffBlank(opts[0]);
      if Trim(opts[0]) == "" then true
      else
        var rest := HasEmptyText(opts[1..]);
        if rest then
          var k :| 0 <= k < |opts[1..]| && IsBlank(opts[1..][k]);
          assert opts[k + 1] == opts[1..][k];
          true
        else
          assert forall k :: 1 <= k < |opts| ==> opts[k] == opts[1..][k - 1];
          false
  }

  /** Some question has an empty option. */
  function HasEmptyOption(qs: seq<Question>): (r: bool)
    ensures r <==> exists k :: 0 <= k < |qs| && HasEmptyText(qs[k].options)
  {
    if |qs| == 0 then false
    else if HasEmptyText(qs[0].options) then true
    else
      var rest := HasEmptyOption(qs[1..]);
      if rest then
        var k :| 0 <= k < |qs[1..]| && HasEmptyText(qs[1..][k].options);
        assert qs[k + 1] == qs[1..][k];
        true
      else
        assert forall k :: 1 <= k < |qs| ==> qs[k] == qs[1..][k - 1];
        false
  }


  /** `validateQuestions`: prompts are checked before options. */
  function Validate(qs: seq<Question>): (v: Verdict)
    ensures v == Valid <==>
      forall k :: 0 <= k < |qs| ==>
        !IsBlank(qs[k].question) && forall p :: 0 <= p < |qs[k].options| ==> !IsBlank(qs[k].options[p])
    ensures v == EmptyQuestion <==> exists k :: 0 <= k < |qs| && IsBlank(qs[k].question)
  {
    if HasEmptyPrompt(qs) then EmptyQuestion
    else if HasEmptyOption(qs) then EmptyOption
    else Valid
  }

  /** A freshly opened editor cannot be saved: its prompt is empty. */
  lemma InitialIsRejected()
    ensures Validate(Initial()) == EmptyQuestion
  {
    assert IsBlank(Initial()[0].question);
  }

  /** The quiz already stored for the activity, as loaded by the editor. */
  datatype Existing = Existing(settings: map<string, bool>, createdAt: Option<string>)

  /** Stored settings: the two defaults, each overridden by a stored key. */
  function MergeSettings(existing: Option<Existing>): (m: map<string, bool>)
    ensures "allowMultipleAttempts" in m && "showCorrectAnswers" in m
    ensures existing.None? ==> m == map["allowMultipleAttempts" := false, "showCorrectAnswers" := false]
    ensures existing.Some? ==> forall k :: k in existing.value.settings ==> k in m && m[k] == existing.value.settings[k]
    ensures forall k :: k in m && k != "allowMultipleAttempts" && k != "showCorrectAnswers" ==>
      existing.Some? && k in existing.value.settings
    ensures existing.Some? && "allowMultipleAttempts" !in existing.value.settings ==> !m["allowMultipleAttempts"]
    ensures existing.Some? && "showCorrectAnswers" !in existing.value.settings ==> !m["showCorrectAnswers"]
  {
    var defaults := map["allowMultipleAttempts" := false, "showCorrectAnswers" := false];
    if existing.Some? then defaults + existing.value.settings else defaults
  }

  function ToRaw(q: Question): RawQuestion {
    RawQuestion(Some(q.question), Some(q.options), Some(q.correctAnswer))
  }

  /** `handleSubmit`: no write when validation fails; otherwise the quiz
      content, written over the stored item when one was loaded and
      inserted at position 0 otherwise. `now` is the ISO text of the
      current instant. */
  function Save(activityId: string, qs: seq<Question>, existing: Option<Existing>, now: string): (w: Option<Write>)
    ensures w.None? <==> Validate(qs) != Valid
    ensures w.Some? && existing.Some? ==> w.value.UpdateItemContent? && w.value.activity == activityId
    ensures w.Some? && existing.None? ==> w.value.InsertItem? && w.value.item.activityId == activityId && w.value.item.position == 0
    ensures w.Some? ==> var c := if w.value.InsertItem? then w.value.item.content else w.value.content;
      c.QuizContent? && c.questions == Some(seq(|qs|, k requires 0 <= k < |qs| => ToRaw(qs[k]))) &&
      c.quizSettings == MergeSettings(existing) &&
      c.createdAt == (if existing.Some? && existing.value.createdAt.Some? && existing.value.createdAt.value != ""
                      then existing.value.createdAt.value else now)
  {
    if Validate(qs) != Valid then None
    else
      var created := if existing.Some? && existing.value.createdAt.Some? && existing.value.createdAt.value != ""
                     then existing.value.createdAt.value else now;
      var content := QuizContent(Some(seq(|qs|, k requires 0 <= k < |qs| => ToRaw(qs[k]))), MergeSettings(existing), created);
      if existing.Some? then Some(UpdateItemContent(activityId, content))
      else Some(InsertItem(Item(activityId, content, 0)))
  }

  /** Saving a second time, with the first save loaded back as the existing
      quiz, keeps the settings and the creation time of the first. */
  lemma SaveTwiceKeepsCreation(activityId: string, qs: seq<Question>, existing: Option<Existing>, now: string, later: string)
    requires Validate(qs) == Valid && now != "" && existing.None?
    ensures var c1 := Save(activityId, qs, existing, now).value.item.content;
      var again := Save(activityId, qs, Some(Existing(c1.quizSettings, Some(c1.createdAt))), later).value.content;
      again.quizSettings == c1.quizSettings && again.createdAt == now
  {
  }
}

=== FILE: quiz_flow.dfy ===
/** How the three quiz components fit together: what the editor saves is
    what the player plays, and what the player saves is what the results
    view shows. */
module QuizFlow {
  import opened Common
  import opened Text
  import opened Entities
  import QuizBuilder
  import QuizPlayer
  import QuizResults

  /** A saved quiz is played back with the editor's prompts, options and
      correct answers, in the editor's order. */
  lemma EditorToPlayer(activityId: string, qs: seq<QuizBuilder.Question>, now: string)
    requires QuizBuilder.Validate(qs) == QuizBuilder.Valid
    ensures var w := QuizBuilder.Save(activityId, qs, None, now).value;
      var played := QuizPlayer.LoadAsWritten([w.item]);
      |played| == |qs| &&
      forall k :: 0 <= k < |qs| ==>
        played[k] == QuizPlayer.Question(qs[k].question, qs[k].options, qs[k].correctAnswer)
  {
    var w := QuizBuilder.Save(activityId, qs, None, now).value;
    var played := QuizPlayer.LoadAsWritten([w.item]);
    forall k | 0 <= k < |qs|
      ensures played[k] == QuizPlayer.Question(qs[k].question, qs[k].options, qs[k].correctAnswer)
    {
      assert !IsBlank(qs[k].question);
      assert qs[k].question != "";
    }
  }

  /** With the corrected responses (`QuizPlayer.Saved`) and distinct
      prompts, the results view shows each answered question the option the
      player picked for it. */
  lemma PlayerToResults(qs: seq<QuizPlayer.Question>, p: QuizPlayer.Player, k: nat)
    requires |p.picks| <= |qs| && k < |p.picks|
    requires forall i, j :: 0 <= i < j < |qs| ==> qs[i].question != qs[j].question
    requires p.picks[k] < |qs[k].options| && qs[k].options[p.picks[k]] != ""
    ensures QuizResults.ShownAnswer(Answers(QuizPlayer.Saved(qs, p)), qs[k].question) == qs[k].options[p.picks[k]]
  {
    var rs := QuizPlayer.Saved(qs, p);
    var i := QuizResults.FirstIndex(rs, qs[k].question);
    assert rs[k].question == qs[k].question;
    assert i <= k;
  }

  /** With the responses as written, a finished quiz with distinct prompts
      shows "Sin respuesta" in the detailed view and "No respondida" in the
      compact list for every question but the last, whatever was picked. */
  lemma PlayerToResultsAsWritten(qs: seq<QuizPlayer.Question>, p: QuizPlayer.Player, k: nat)
    requires QuizPlayer.Inv(qs, p) && p.finished && k < |qs| - 1
    requires forall i, j :: 0 <= i < j < |qs| ==> qs[i].question != qs[j].question
    ensures QuizResults.ShownAnswer(Answers(QuizPlayer.SavedResponsesAsWritten(qs, p)), qs[k].question) == QuizResults.NoAnswer
    ensures QuizResults.Summarize(Answers(QuizPlayer.SavedResponsesAsWritten(qs, p))).labels[k]
      == "P" + NatToString(k + 1) + ": " + QuizResults.NotAnswered
  {
    var rs := QuizPlayer.SavedResponsesAsWritten(qs, p);
    var i := QuizResults.FirstIndex(rs, qs[k].question);
    assert rs[k].question == qs[k].question;
    assert i == k;
  }
}

=== FILE: quiz_player.dfy ===
/** The quiz player: loading and normalising the stored questions, the
    retake gate, answering question by question, the final score and the
    participation written at the end. */
module QuizPlayer {
  import opened Common
  import opened Entities

  /** A question as the player uses it. */
  datatype Question = Question(question: string, options: seq<string>, correctAnswer: int)

  const Untitled: string := "Pregunta sin texto"

  /** `{question: q.question || 'Pregunta sin texto', options: q.options
      || [], correctAnswer: q.correctAnswer ?? 0}`. */
  function Normalize(q: RawQuestion): (r: Question)
    ensures r.question != ""
    ensures q.question.Some? && q.question.value != "" ==> r.question == q.question.value
    ensures q.options.Some? ==> r.options == q.options.value
    ensures q.options.None? ==> r.options == []
    ensures q.correctAnswer.Some? ==> r.correctAnswer == q.correctAnswer.value
    ensures q.correctAnswer.None? ==> r.correctAnswer == 0
  {
    Question(
      if q.question.Some? && q.question.value != "" then q.question.value else Untitled,
      q.options.GetOr([]),
      q.correctAnswer.GetOr(0))
  }

  /** A question that is complete and has a prompt is kept as it is, and
      normalising twice is normalising once. */
  lemma NormalizeKeepsComplete(q: Question)
    ensures q.question != "" ==> Normalize(RawQuestion(Some(q.question), Some(q.options), Some(q.correctAnswer))) == q
    ensures var n := Normalize(RawQuestion(Some(q.question), Some(q.options), Some(q.correctAnswer)));
      Normalize(RawQuestion(Some(n.question), Some(n.options), Some(n.correctAnswer))) == n
  {
  }

  /** The fields a legacy row offers, read as `item.content?.question`,
      `.options` and `.correctAnswer`. */
  function LegacyFields(c: Content): RawQuestion
  {
    match c
    case QuestionItem(raw) => raw
    case VoteContent(_, _, options, _) => RawQuestion(None, Some(options), None)
    case _ => RawQuestion(None, None, None)
  }

  function NormalizeAll(raws: seq<RawQuestion>): (qs: seq<Question>)
    ensures |qs| == |raws|
    ensures forall k :: 0 <= k < |raws| ==> qs[k] == Normalize(raws[k])
  {
    seq(|raws|, k requires 0 <= k < |raws| => Normalize(raws[k]))
  }

  function NormalizeLegacy(items: seq<Item>): (qs: seq<Question>)
    ensures |qs| == |items|
    ensures forall k :: 0 <= k < |items| ==> qs[k] == Normalize(LegacyFields(items[k].content))
  {
    seq(|items|, k requires 0 <= k < |items| => Normalize(LegacyFields(items[k].content)))
  }

  /** The single row holds the whole quiz in `content.questions`. */
  predicate NewFormat(items: seq<Item>) {
    |items| == 1 && items[0].content.QuizContent? && items[0].content.questions.Some?
  }

  /** Loading as written. `items` are the activity's rows in position
      order. The first lookup uses `.single()` and rethrows every error,
      including the one for "not exactly one row", and the handler then
      sets an empty list: a quiz stored as several legacy rows never
      loads. */
  function LoadAsWritten(items: seq<Item>): (qs: seq<Question>)
    ensures |items| != 1 ==> qs == []
    ensures NewFormat(items) ==> qs == NormalizeAll(items[0].content.questions.value)
    ensures |items| == 1 && !NewFormat(items) ==> qs == NormalizeLegacy(items)
  {
    if |items| != 1 then []
    else if NewFormat(items) then NormalizeAll(items[0].content.questions.value)
    else NormalizeLegacy(items)
  }

  /** Two legacy rows: the quiz shows "no questions". */
  lemma LoadAsWrittenLosesLegacyQuiz(a: Item, b: Item)
    ensures LoadAsWritten([a, b]) == []
    ensures |Load([a, b])| == 2
  {
  }

  /** Loading that treats "not exactly one row" as the legacy layout, as
      the results view does. */
  function Load(items: seq<Item>): (qs: seq<Question>)
    ensures NewFormat(items) ==> qs == NormalizeAll(items[0].content.questions.value)
    ensures !NewFormat(items) ==> qs == NormalizeLegacy(items) && |qs| == |items|
  {
    if NewFormat(items) then NormalizeAll(items[0].content.questions.value) else NormalizeLegacy(items)
  }

  /** The two loaders agree except on the multi-row legacy layout. */
  lemma LoadAgreesOnSingleRow(items: seq<Item>)
    ensures |items| == 1 ==> LoadAsWritten(items) == Load(items)
    ensures |items| == 0 ==> LoadAsWritten(items) == Load(items) == []
  {
  }

  /** The player: question index, selected option, score, finished flag,
      the options picked so far, and the gate from a prior participation. */
  datatype Player = Player(
    current: nat,
    selected: Option<nat>,
    score: nat,
    finished: bool,
    picks: seq<nat>,
    attempted: bool,
    previousScore: real)

  /** The prior participation: `rows` are the participations of this user
      for this activity. `.single()` yields a row only when there is
      exactly one; a missing score reads as 0. */
  function Start(user: Option<string>, rows: seq<Participation>): (p: Player)
    ensures p.current == 0 && p.selected.None? && p.score == 0 && !p.finished && p.picks == []
    ensures p.attempted <==> user.Some? && |rows| == 1
    ensures p.attempted ==> p.previousScore == rows[0].score.GetOr(0.0)
  {
    var attempted := user.Some? && |rows| == 1;
    Player(0, None, 0, false, [], attempted, if attempted then rows[0].score.GetOr(0.0) else 0.0)
  }

  /** Number of picks that hit the correct answer of their question. */
  function Hits(qs: seq<Question>, picks: seq<nat>): (n: nat)
    requires |picks| <= |qs|
    ensures n <= |picks|
  {
    if |picks| == 0 then 0
    else Hits(qs, picks[..|picks| - 1]) + (if picks[|picks| - 1] == qs[|picks| - 1].correctAnswer then 1 else 0)
  }

  /** What holds between any two actions: the index stays on a question,
      every answered question has one pick, the score counts the correct
      picks, and a finished quiz sits on its last question. */
  ghost predicate Inv(qs: seq<Question>, p: Player) {
    |qs| > 0 && p.current < |qs| &&
    |p.picks| == p.current + (if p.finished then 1 else 0) &&
    p.score == Hits(qs, p.picks) &&
    (p.finished ==> p.current == |qs| - 1)
  }

  /** What is on screen. */
  datatype View =
    | NoQuestions
    | AlreadyDone(previousScore: real)
    | RetryOffer
    | Done(score: nat, total: nat)
    | Asking(index: nat, nextEnabled: bool)

  function ViewOf(qs: seq<Question>, p: Player): (v: View)
    ensures v == NoQuestions <==> |qs| == 0
    ensures v.AlreadyDone? <==> |qs| > 0 && p.attempted && p.previousScore > 0.0
    ensures v == RetryOffer <==> |qs| > 0 && p.attempted && p.previousScore == 0.0
    ensures v.Asking? ==> v.index == p.current && (v.nextEnabled <==> p.selected.Some?) && !p.finished
  {
    if |qs| == 0 then NoQuestions
    else if p.attempted && p.previousScore > 0.0 then AlreadyDone(p.previousScore)
    else if p.attempted && p.previousScore == 0.0 then RetryOffer
    else if p.finished then Done(p.score, |qs|)
    else Asking(p.current, p.selected.Some?)
  }

  /** Clicking option `i` of the question shown. */
  function Select(qs: seq<Question>, p: Player, i: nat): (q: Player)
    ensures ViewOf(qs, p).Asking? ==> q == p.(selected := Some(i))
    ensures !ViewOf(qs, p).Asking? ==> q == p
  {
    if ViewOf(qs, p).Asking? then p.(selected := Some(i)) else p
  }

  /** `handleNext`, reachable only through the enabled button: scores a
      hit, then advances and clears the selection, or finishes on the
      last question. */
  function Next(qs: seq<Question>, p: Player): (q: Player)
    requires Inv(qs, p)
    ensures Inv(qs, q)
    ensures !(ViewOf(qs, p).Asking? && p.selected.Some?) ==> q == p
    ensures ViewOf(qs, p).Asking? && p.selected.Some? ==>
      q.score == p.score + (if p.selected.value == qs[p.current].correctAnswer then 1 else 0) &&
      q.picks == p.picks + [p.selected.value] &&
      (p.current < |qs| - 1 ==> q.current == p.current + 1 && q.selected.None? && !q.finished) &&
      (p.current == |qs| - 1 ==> q.current == p.current && q.finished)
  {
    if !(ViewOf(qs, p).Asking? && p.selected.Some?) then p
    else
      var s := p.selected.value;
      var picks := p.picks + [s];
      assert picks[..|picks| - 1] == p.picks;
      var score := p.score + (if s == qs[p.current].correctAnswer then 1 else 0);
      if p.current < |qs| - 1 then p.(current := p.current + 1, selected := None, score := score, picks := picks)
      else p.(score := score, picks := picks, finished := true)
  }

  /** The score never exceeds the number of questions answered. */
  lemma ScoreBounded(qs: seq<Question>, p: Player)
    requires Inv(qs, p)
    ensures p.score <= p.current + (if p.finished then 1 else 0) <= |qs|
  {
  }

  /** Answering every question in turn with `answers` (from a fresh start
      that is not gated) finishes the quiz with the number of answers that
      match the correct ones as its score. */
  function Play(qs: seq<Question>, p: Player, answers: seq<nat>): (r: Player)
    requires Inv(qs, p)
    ensures Inv(qs, r)
    decreases |answers|
  {
    if |answers| == 0 then p
    else Play(qs, Next(qs, Select(qs, p, answers[0])), answers[1..])
  }

  lemma {:induction false} PlayScoresHits(qs: seq<Question>, p: Player, answers: seq<nat>)
    requires Inv(qs, p) && !p.finished && !p.attempted
    requires |answers| == |qs| - p.current
    ensures Play(qs, p, answers).finished
    ensures Play(qs, p, answers).picks == p.picks + answers
    ensures Play(qs, p, answers).score == Hits(qs, p.picks + answers)
    decreases |answers|
  {
    var p2 := Next(qs, Select(qs, p, answers[0]));
    AnswerStep(qs, p, answers[0]);
    assert Play(qs, p, answers) == Play(qs, p2, answers[1..]);
    if |answers| == 1 {
      assert answers == [answers[0]] && answers[1..] == [];
      assert Play(qs, p2, answers[1..]) == p2;
    } else {
      PlayScoresHits(qs, p2, answers[1..]);
      assert p2.picks + answers[1..] == p.picks + answers;
    }
  }

  /** One answer: the pick is recorded, and the quiz moves on to the next
      question or, on the last one, finishes. */
  lemma AnswerStep(qs: seq<Question>, p: Player, a: nat)
    requires Inv(qs, p) && !p.finished && !p.attempted
    ensures var q := Next(qs, Select(qs, p, a));
      q.picks == p.picks + [a] && !q.attempted &&
      (p.current < |qs| - 1 ==> !q.finished && q.current == p.current + 1) &&
      (p.current == |qs| - 1 ==> q.finished)
  {
  }

  /** The retry button: back to the first question with a zero score. */
  function Retry(p: Player): (q: Player)
    ensures !q.attempted && q.current == 0 && q.selected.None? && q.score == 0 && !q.finished && q.picks == []
    ensures q.previousScore == p.previousScore
  {
    p.(attempted := false, current := 0, selected := None, score := 0, finished := false, picks := [])
  }

  /** A prior score above zero blocks the quiz for good: no action changes
      the view. A prior score of zero offers a retry that starts over. */
  lemma RetakeGate(qs: seq<Question>, p: Player, i: nat)
    requires |qs| > 0 && p.attempted
    ensures p.previousScore > 0.0 ==> ViewOf(qs, Select(qs, p, i)) == ViewOf(qs, p) == AlreadyDone(p.previousScore)
    ensures p.previousScore == 0.0 ==> ViewOf(qs, Retry(p)) == Asking(0, false) && Inv(qs, Retry(p))
  {
  }

  /** `(score / questions.length) * 100`. */
  function FinalScore(score: nat, total: nat): (r: real)
    requires total > 0
    ensures r * (total as real) == (score as real) * 100.0
    ensures score <= total ==> 0.0 <= r <= 100.0
  {
    (score as real) / (total as real) * 100.0
  }

  /** `q.options[i]`; an index past the end reads `undefined`, which the
      stored JSON drops. */
  function OptionAt(options: seq<string>, i: nat): (r: Option<string>)
    ensures r.Some? <==> i < |options|
    ensures r.Some? ==> r.value == options[i]
  {
    if i < |options| then Some(options[i]) else None
  }

  /** The responses saved as written: one entry per question up to the
      current one; only the current one carries the selected option,
      since the selection is cleared on every advance. */
  function SavedResponsesAsWritten(qs: seq<Question>, p: Player): (rs: seq<Answer>)
    requires p.current < |qs|
    ensures |rs| == p.current + 1
    ensures forall k :: 0 <= k < |rs| ==> rs[k].question == qs[k].question
    ensures forall k :: 0 <= k < p.current ==> rs[k].selectedAnswer.None?
  {
    seq(p.current + 1, k requires 0 <= k <= p.current =>
      Answer(qs[k].question,
        if p.selected.Some? && k == p.current then OptionAt(qs[k].options, p.selected.value) else None))
  }

  /** Only the last answer survives: on a finished quiz of two or more
      questions whose first pick names an option, the first saved entry
      has no answer, although the player picked one. */
  lemma SavedResponsesAsWrittenDropAnswers(qs: seq<Question>, p: Player)
    requires Inv(qs, p) && p.finished && |qs| >= 2 && p.picks[0] < |qs[0].options|
    ensures SavedResponsesAsWritten(qs, p)[0].selectedAnswer.None?
    ensures Saved(qs, p)[0].selectedAnswer == Some(qs[0].options[p.picks[0]])
  {
  }

  /** The responses with every answered question's pick recorded. */
  function Saved(qs: seq<Question>, p: Player): (rs: seq<Answer>)
    requires |p.picks| <= |qs|
    ensures |rs| == |p.picks|
    ensures forall k :: 0 <= k < |rs| ==>
      rs[k].question == qs[k].question && rs[k].selectedAnswer == OptionAt(qs[k].options, p.picks[k])
  {
    seq(|p.picks|, k requires 0 <= k < |p.picks| => Answer(qs[k].question, OptionAt(qs[k].options, p.picks[k])))
  }

  /** `saveResults` as written: once the quiz is finished by a signed-in
      user, an upsert keyed on (activity, user) with the responses of
      `SavedResponsesAsWritten` and the percentage score. Only the last
      question's entry can carry an answer. */
  function SaveWriteAsWritten(activityId: string, user: Option<string>, qs: seq<Question>, p: Player): (w: Option<Write>)
    requires Inv(qs, p)
    ensures w.Some? <==> p.finished && user.Some?
    ensures w.Some? ==> w.value == UpsertParticipation(activityId, user.value, Answers(SavedResponsesAsWritten(qs, p)), Some(FinalScore(p.score, |qs|)))
    ensures w.Some? ==> 0.0 <= FinalScore(p.score, |qs|) <= 100.0 && |SavedResponsesAsWritten(qs, p)| == |qs|
    ensures w.Some? ==> forall k :: 0 <= k < |qs| - 1 ==> SavedResponsesAsWritten(qs, p)[k].selectedAnswer.None?
  {
    if p.finished && user.Some? then
      Some(UpsertParticipation(activityId, user.value, Answers(SavedResponsesAsWritten(qs, p)), Some(FinalScore(p.score, |qs|))))
    else None
  }

  /** The corrected write: the same upsert, with every answered question's
      pick recorded (`Saved`). */
  function SaveWrite(activityId: string, user: Option<string>, qs: seq<Question>, p: Player): (w: Option<Write>)
    requires Inv(qs, p)
    ensures w.Some? <==> p.finished && user.Some?
    ensures w.Some? ==> w.value == UpsertParticipation(activityId, user.value, Answers(Saved(qs, p)), Some(FinalScore(p.score, |qs|)))
    ensures w.Some? ==> 0.0 <= FinalScore(p.score, |qs|) <= 100.0 && |Saved(qs, p)| == |qs|
    ensures w.Some? ==> forall k :: 0 <= k < |qs| ==> Saved(qs, p)[k].selectedAnswer == OptionAt(qs[k].options, p.picks[k])
  {
    if p.finished && user.Some? then
      Some(UpsertParticipation(activityId, user.value, Answers(Saved(qs, p)), Some(FinalScore(p.score, |qs|))))
    else None
  }
}

=== FILE: quiz_results.dfy ===
/** The quiz results view: the questions with their positions, the answer
    shown for each question of one participation, and the compact ranked
    list of participations. */
module QuizResults {
  import opened Common
  import opened Text
  import opened Entities
  import QuizPlayer

  /** A question as the results view lists it; no correct answer. */
  datatype ResultQuestion = ResultQuestion(question: string, options: seq<string>, position: int)

  /** Questions of the activity. `items` are its rows in position order;
      the "not exactly one row" error of the first lookup is tolerated, so
      several rows are read in the legacy layout. */
  function LoadQuestions(items: seq<Item>): (qs: seq<ResultQuestion>)
    ensures QuizPlayer.NewFormat(items) ==>
      var raws := items[0].content.questions.value;
      |qs| == |raws| && forall k :: 0 <= k < |qs| ==> qs[k].position == k
    ensures !QuizPlayer.NewFormat(items) ==>
      |qs| == |items| && forall k :: 0 <= k < |qs| ==> qs[k].position == items[k].position
  {
    if QuizPlayer.NewFormat(items) then
      var raws := items[0].content.questions.value;
      seq(|raws|, k requires 0 <= k < |raws| =>
        var n := QuizPlayer.Normalize(raws[k]);
        ResultQuestion(n.question, n.options, k))
    else
      seq(|items|, k requires 0 <= k < |items| =>
        var n := QuizPlayer.Normalize(QuizPlayer.LegacyFields(items[k].content));
        ResultQuestion(n.question, n.options, items[k].position))
  }

  /** The results view and the (tolerant) player read the same prompts and
      options, in the same order. */
  lemma ResultsMatchPlayer(items: seq<Item>)
    ensures |LoadQuestions(items)| == |QuizPlayer.Load(items)|
    ensures forall k :: 0 <= k < |LoadQuestions(items)| ==>
      LoadQuestions(items)[k].question == QuizPlayer.Load(items)[k].question &&
      LoadQuestions(items)[k].options == QuizPlayer.Load(items)[k].options
  {
  }

  /** Index of the first stored answer whose question text is `prompt`, or
      the length when there is none. */
  function FirstIndex(answers: seq<Answer>, prompt: string): (i: nat)
    ensures i <= |answers|
    ensures i < |answers| ==> answers[i].question == prompt
    ensures forall k :: 0 <= k < i ==> answers[k].question != prompt
  {
    if |answers| == 0 then 0
    else if answers[0].question == prompt then 0
    else 1 + FirstIndex(answers[1..], prompt)
  }

  const NoAnswer: string := "Sin respuesta"

  /** The text shown for a found answer: its `selectedAnswer` when truthy. */
  function AnswerText(i: nat, answers: seq<Answer>): (s: string)
    requires i <= |answers|
    ensures s != ""
    ensures i < |answers| && answers[i].selectedAnswer.Some? && answers[i].selectedAnswer.value != "" ==>
      s == answers[i].selectedAnswer.value
  {
    if i < |answers| && answers[i].selectedAnswer.Some? && answers[i].selectedAnswer.value != ""
    then answers[i].selectedAnswer.value else NoAnswer
  }

  /** The answer shown for a question, as written: `responses?.find(...)`.
      Only an array has `find`; on any other stored object (the `{}` that
      joining writes, for one) the call throws, shown here as `None`. */
  function ShownAnswerAsWritten(rs: Responses, prompt: string): (r: Option<string>)
    ensures r.None? <==> !rs.Answers?
    ensures rs.Answers? ==> r == Some(AnswerText(FirstIndex(rs.answers, prompt), rs.answers))
  {
    match rs
    case Answers(answers) => Some(AnswerText(FirstIndex(answers, prompt), answers))
    case _ => None
  }

  /** A participant who joined but never played breaks the detailed view. */
  lemma JoinedParticipantBreaksDetails(prompt: string)
    ensures ShownAnswerAsWritten(NoResponses, prompt).None?
    ensures ShownAnswer(NoResponses, prompt) == NoAnswer
  {
  }

  /** The answer shown for a question, reading anything but an array of
      answers as "no answer". */
  function ShownAnswer(rs: Responses, prompt: string): (s: string)
    ensures s != ""
    ensures rs.Answers? ==> Some(s) == ShownAnswerAsWritten(rs, prompt)
    ensures !rs.Answers? ==> s == NoAnswer
  {
    match rs
    case Answers(answers) => AnswerText(FirstIndex(answers, prompt), answers)
    case _ => NoAnswer
  }

  /** Matching is by prompt text only: a later question whose prompt
      repeats an earlier one is shown the earlier question's answer. */
  lemma RepeatedPromptShowsFirstAnswer(answers: seq<Answer>, i: nat, j: nat)
    requires i < j < |answers| && answers[i].question == answers[j].question
    requires forall k :: 0 <= k < i ==> answers[k].question != answers[i].question
    requires answers[i].selectedAnswer.Some? && answers[i].selectedAnswer.value != ""
    ensures ShownAnswer(Answers(answers), answers[j].question) == answers[i].selectedAnswer.value
  {
    assert FirstIndex(answers, answers[j].question) == i;
  }

  const NotAnswered: string := "No respondida"

  /** `P{i+1}: {selectedAnswer || 'No respondida'}`. */
  function AnswerLabel(i: nat, a: Answer): (s: string)
    ensures |s| > 0 && s[0] == 'P'
    ensures a.selectedAnswer.Some? && a.selectedAnswer.value != "" ==>
      s == "P" + NatToString(i + 1) + ": " + a.selectedAnswer.value
    ensures a.selectedAnswer.None? || a.selectedAnswer.value == "" ==>
      s == "P" + NatToString(i + 1) + ": " + NotAnswered
  {
    "P" + NatToString(i + 1) + ": " +
      (if a.selectedAnswer.Some? && a.selectedAnswer.value != "" then a.selectedAnswer.value else NotAnswered)
  }

  /** The answers column of the compact list. */
  datatype Summary = NothingRecorded | Labelled(labels: seq<string>)

  function Summarize(rs: Responses): (s: Summary)
    ensures s.Labelled? <==> rs.Answers? && |rs.answers| > 0
    ensures s.Labelled? ==> |s.labels| == |rs.answers|
    ensures s.Labelled? ==> forall k :: 0 <= k < |s.labels| ==> s.labels[k] == AnswerLabel(k, rs.answers[k])
  {
    if rs.Answers? && |rs.answers| > 0 then
      Labelled(seq(|rs.answers|, k requires 0 <= k < |rs.answers| => AnswerLabel(k, rs.answers[k])))
    else NothingRecorded
  }

  /** The label number is the stored position plus one, so a label reads
      back as the response it came from. */
  lemma LabelNumbersReadBack(rs: Responses, k: nat)
    requires Summarize(rs).Labelled? && k < |rs.answers|
    ensures DigitsValue(Summarize(rs).labels[k][1..1 + |NatToString(k + 1)|]) == k + 1
  {
    var l := Summarize(rs).labels[k];
    var d := NatToString(k + 1);
    assert l[1..1 + |d|] == d;
    NatToStringRoundTrip(k + 1);
  }

  const UnknownUser: string := "Usuario desconocido"

  /** A row of the compact list. */
  datatype Row = Row(rank: nat, name: string, summary: Summary)

  /** The compact list over participations fetched in descending score
      order: rank is the list position plus one. */
  function Rows(parts: seq<Participation>): (rows: seq<Row>)
    ensures |rows| == |parts|
    ensures forall k :: 0 <= k < |rows| ==>
      rows[k].rank == k + 1 && rows[k].summary == Summarize(parts[k].responses) &&
      rows[k].name == (if parts[k].username.Some? && parts[k].username.value != "" then parts[k].username.value else UnknownUser)
  {
    seq(|parts|, k requires 0 <= k < |parts| =>
      Row(k + 1,
        if parts[k].username.Some? && parts[k].username.value != "" then parts[k].username.value else UnknownUser,
        Summarize(parts[k].responses)))
  }

  /** Ranks are 1, 2, ... without gaps or repeats. */
  lemma RanksAreDistinct(parts: seq<Participation>, i: nat, j: nat)
    requires i < j < |parts|
    ensures Rows(parts)[i].rank < Rows(parts)[j].rank
    ensures Rows(parts)[|parts| - 1].rank == |parts|
  {
  }

  /** What the view shows; `Crashed` is a render that throws. */
  datatype View = NoParticipations | List(rows: seq<Row>) | Details(answers: seq<string>) | Crashed

  /** The view as written. With no participations only the empty-state
      message is shown, whatever was selected; `selected` is the
      participation opened in the detailed view, if any. The detailed view
      searches the stored responses once per question, so when there is a
      question and the responses are not an array (the `{}` that joining
      writes, a vote, a spin) the render throws. */
  function ViewOf(qs: seq<ResultQuestion>, parts: seq<Participation>, selected: Option<Participation>): (v: View)
    ensures v == NoParticipations <==> |parts| == 0
    ensures |parts| > 0 && selected.None? ==> v == List(Rows(parts))
    ensures v.Crashed? <==> |parts| > 0 && selected.Some? && |qs| > 0 && !selected.value.responses.Answers?
    ensures v.Details? <==> |parts| > 0 && selected.Some? && (|qs| == 0 || selected.value.responses.Answers?)
    ensures v.Details? ==> |v.answers| == |qs|
    ensures v.Details? ==>
      forall k :: 0 <= k < |qs| ==> ShownAnswerAsWritten(selected.value.responses, qs[k].question) == Some(v.answers[k])
  {
    if |parts| == 0 then NoParticipations
    else if selected.None? then List(Rows(parts))
    else if |qs| > 0 && !selected.value.responses.Answers? then Crashed
    else Details(seq(|qs|, k requires 0 <= k < |qs| => ShownAnswerAsWritten(selected.value.responses, qs[k].question).value))
  }

  /** The corrected view: the detailed view reads anything but an array of
      answers as "no answer" for every question, and never throws. */
  function ViewOfCorrected(qs: seq<ResultQuestion>, parts: seq<Participation>, selected: Option<Participation>): (v: View)
    ensures !v.Crashed?
    ensures v == NoParticipations <==> |parts| == 0
    ensures |parts| > 0 && selected.None? ==> v == List(Rows(parts))
    ensures v.Details? <==> |parts| > 0 && selected.Some?
    ensures v.Details? ==> |v.answers| == |qs|
    ensures v.Details? && selected.value.responses.Answers? ==>
      forall k :: 0 <= k < |qs| ==> ShownAnswerAsWritten(selected.value.responses, qs[k].question) == Some(v.answers[k])
    ensures v.Details? && !selected.value.responses.Answers? ==>
      forall k :: 0 <= k < |qs| ==> v.answers[k] == NoAnswer
  {
    if |parts| == 0 then NoParticipations
    else if selected.None? then List(Rows(parts))
    else Details(seq(|qs|, k requires 0 <= k < |qs| => ShownAnswer(selected.value.responses, qs[k].question)))
  }

  /** The two views differ only where the one as written throws; there the
      corrected one shows `Sin respuesta` for every question. */
  lemma ViewsAgreeUnlessCrashed(qs: seq<ResultQuestion>, parts: seq<Participation>, selected: Option<Participation>)
    ensures !ViewOf(qs, parts, selected).Crashed? ==> ViewOf(qs, parts, selected) == ViewOfCorrected(qs, parts, selected)
    ensures ViewOf(qs, parts, selected).Crashed? ==>
      var c := ViewOfCorrected(qs, parts, selected);
      c.Details? && |c.answers| == |qs| > 0 && forall k :: 0 <= k < |qs| ==> c.answers[k] == NoAnswer
  {
    var v := ViewOf(qs, parts, selected);
    var c := ViewOfCorrected(qs, parts, selected);
    if v.Details? {
      assert c.Details? && |c.answers| == |v.answers|;
      forall k | 0 <= k < |qs|
        ensures c.answers[k] == v.answers[k]
      {
        if !selected.value.responses.Answers? {
          assert false;
        }
      }
    }
  }
}

=== FILE: raffle_builder.dfy ===
/** The raffle editor: the prize list, its edits (with the quantity parsed
    from the text field), and the save that replaces the activity's item. */
module RaffleBuilder {
  import opened Common
  import opened Text
  import opened Entities

  /** The editor's fields; `participants` has no editor and stays empty. */
  datatype Draft = Draft(title: string, description: string, prizes: seq<Prize>, participants: seq<string>)

  /** `{ name: '', quantity: 1 }`. */
  function BlankPrize(): (p: Prize)
    ensures p.name == "" && p.quantity == 1
  {
    Prize("", 1)
  }

  function Initial(): (d: Draft)
    ensures d.title == "Sorteo" && d.description == "" && d.prizes == [BlankPrize()] && d.participants == []
  {
    Draft("Sorteo", "", [BlankPrize()], [])
  }

  /** `addPrize`. */
  function AddPrize(d: Draft): (r: Draft)
    ensures r.prizes == d.prizes + [BlankPrize()]
    ensures r.title == d.title && r.description == d.description && r.participants == d.participants
  {
    d.(prizes := d.prizes + [BlankPrize()])
  }

  /** `removePrize`: drops prize `i` unless it is the only one. */
  function RemovePrize(d: Draft, i: int): (r: Draft)
    ensures |d.prizes| <= 1 ==> r == d
    ensures |d.prizes| > 1 ==> r == d.(prizes := RemoveAt(d.prizes, i))
    ensures |d.prizes| >= 1 ==> |r.prizes| >= 1
  {
    if |d.prizes| > 1 then d.(prizes := RemoveAt(d.prizes, i)) else d
  }

  /** `updatePrize(i, 'name', text)`: stored verbatim. */
  function SetPrizeName(d: Draft, i: nat, text: string): (r: Draft)
    requires i < |d.prizes|
    ensures |r.prizes| == |d.prizes| && r.prizes[i] == d.prizes[i].(name := text)
    ensures forall k :: 0 <= k < |d.prizes| && k != i ==> r.prizes[k] == d.prizes[k]
    ensures r.title == d.title && r.description == d.description && r.participants == d.participants
  {
    d.(prizes := SetAt(d.prizes, i, d.prizes[i].(name := text)))
  }

  /** `updatePrize(i, 'quantity', text)`: `parseInt(text) || 0`. */
  function SetPrizeQuantity(d: Draft, i: nat, text: string): (r: Draft)
    requires i < |d.prizes|
    ensures |r.prizes| == |d.prizes| && r.prizes[i] == d.prizes[i].(quantity := ParseIntOrZero(text))
    ensures forall k :: 0 <= k < |d.prizes| && k != i ==> r.prizes[k] == d.prizes[k]
    ensures r.title == d.title && r.description == d.description && r.participants == d.participants
  {
    d.(prizes := SetAt(d.prizes, i, d.prizes[i].(quantity := ParseIntOrZero(text))))
  }

  /** Typing a number stores that number; a minus sign in front stores its
      negation. */
  lemma QuantityFromDigits(d: Draft, i: nat, s: string)
    requires i < |d.prizes|
    requires |s| > 0 && AllDigits(s)
    ensures SetPrizeQuantity(d, i, s).prizes[i].quantity == DigitsValue(s)
  {
    ParseIntOrZeroOfDigits(s);
  }

  lemma QuantityFromNegative(d: Draft, i: nat, m: string)
    requires i < |d.prizes|
    requires |m| > 1 && m[0] == '-' && AllDigits(m[1..])
    ensures SetPrizeQuantity(d, i, m).prizes[i].quantity == -(DigitsValue(m[1..]) as int)
  {
    ParseIntOrZeroOfMinus(m);
  }

  /** Text that starts with a letter stores 0. */
  lemma QuantityFromWord(d: Draft, i: nat, t: string)
    requires i < |d.prizes|
    requires |t| > 0 && 'a' <= t[0] <= 'z'
    ensures SetPrizeQuantity(d, i, t).prizes[i].quantity == 0
  {
    ParseIntOfNonNumeric(t);
  }

  /** `handleSubmit`: delete the activity's items, then insert the content
      at position 0. */
  function Save(activityId: string, d: Draft): (ws: seq<Write>)
    ensures |ws| == 2 && ws[0] == DeleteItems(activityId)
    ensures ws[1].InsertItem? && ws[1].item.activityId == activityId && ws[1].item.position == 0
    ensures ws[1].item.content == RaffleContent(d.title, d.description, d.prizes, d.participants)
  {
    [DeleteItems(activityId), InsertItem(Item(activityId, RaffleContent(d.title, d.description, d.prizes, d.participants), 0))]
  }

  /** After a save whose delete the store accepts, the activity has
      exactly the saved raffle as its item, and other activities' items are
      untouched. */
  lemma SaveReplacesItems(items: seq<Item>, activityId: string, d: Draft, other: string)
    ensures ItemsOf(ApplyAllToItems(items, Save(activityId, d)), activityId) == [Save(activityId, d)[1].item]
    ensures other != activityId ==>
      ItemsOf(ApplyAllToItems(items, Save(activityId, d)), other) == ItemsOf(items, other)
  {
    ReplaceItems(items, Save(activityId, d)[1].item, other);
  }

  /** The delete's error is never read: when the store rejects it, only the
      insert takes effect, the activity keeps its old items with the saved
      raffle after them, and an activity that had an item ends with more than
      one. Other activities' items are untouched either way. */
  lemma SaveWithRejectedDelete(items: seq<Item>, activityId: string, d: Draft, other: string)
    ensures ItemsOf(ApplyAllToItems(items, Save(activityId, d)[1..]), activityId)
      == ItemsOf(items, activityId) + [Save(activityId, d)[1].item]
    ensures |ItemsOf(items, activityId)| > 0 ==>
      |ItemsOf(ApplyAllToItems(items, Save(activityId, d)[1..]), activityId)| > 1
    ensures other != activityId ==>
      ItemsOf(ApplyAllToItems(items, Save(activityId, d)[1..]), other) == ItemsOf(items, other)
  {
    assert Save(activityId, d)[1..] == [InsertItem(Save(activityId, d)[1].item)];
    InsertWithoutDelete(items, Save(activityId, d)[1].item, other);
  }
}

=== FILE: raffle_player.dfy ===
/** The raffle page: joining the raffle, and the owner's draw that hands
    the prizes, in list order, to consecutive entrants of a shuffled
    participant list. */
module RafflePlayer {
  import opened Common
  import opened Entities
  import ActivityDetails

  /** A participant as the draw reads it: user id plus joined profile. */
  datatype Entrant = Entrant(userId: string, username: Option<string>, avatarUrl: Option<string>)

  const Anonymous: string := "Anónimo"

  /** `{prize: prize.name, user: username || 'Anónimo', avatar:
      avatar_url || null, user_id}`. */
  function WinnerOf(p: Prize, e: Entrant): (w: Winner)
    ensures w.prize == p.name && w.userId == e.userId
    ensures w.user == (if e.username.Some? && e.username.value != "" then e.username.value else Anonymous)
    ensures w.avatar == (if e.avatarUrl.Some? && e.avatarUrl.value != "" then e.avatarUrl else None)
  {
    Winner(p.name,
      if e.username.Some? && e.username.value != "" then e.username.value else Anonymous,
      if e.avatarUrl.Some? && e.avatarUrl.value != "" then e.avatarUrl else None,
      e.userId)
  }

  /** How many winners prize `p` takes when `start` entrants are already
      taken: `min(quantity, n - start)`, or none when that is not
      positive. */
  function Share(p: Prize, n: nat, start: nat): (k: nat)
    requires start <= n
    ensures k == Min(Max(p.quantity, 0), n - start)
  {
    var available := Min(p.quantity, n - start);
    if available <= 0 then 0 else available
  }

  /** The `forEach` over the prizes: each prize takes the next `Share`
      entrants of `shuffled`, starting where the previous prize stopped. */
  function Allocate(prizes: seq<Prize>, shuffled: seq<Entrant>, start: nat): (ws: seq<Winner>)
    requires start <= |shuffled|
    decreases |prizes|
  {
    if |prizes| == 0 then []
    else
      var k := Share(prizes[0], |shuffled|, start);
      seq(k, t requires 0 <= t < k => WinnerOf(prizes[0], shuffled[start + t]))
        + Allocate(prizes[1..], shuffled, start + k)
  }

  /** Sum of the positive quantities. */
  function Demand(prizes: seq<Prize>): nat
  {
    if |prizes| == 0 then 0 else Max(prizes[0].quantity, 0) + Demand(prizes[1..])
  }

  /** As many winners as the pool (from `start`) and the prizes allow. */
  lemma {:induction false} AllocateLength(prizes: seq<Prize>, shuffled: seq<Entrant>, start: nat)
    requires start <= |shuffled|
    ensures |Allocate(prizes, shuffled, start)| == Min(|shuffled| - start, Demand(prizes))
    decreases |prizes|
  {
    if |prizes| > 0 {
      var k := Share(prizes[0], |shuffled|, start);
      AllocateLength(prizes[1..], shuffled, start + k);
      AllocateStep(prizes, shuffled, start);
      ShareArithmetic(Max(prizes[0].quantity, 0), |shuffled| - start, Demand(prizes[1..]));
    }
  }

  lemma AllocateStep(prizes: seq<Prize>, shuffled: seq<Entrant>, start: nat)
    requires start <= |shuffled| && |prizes| > 0
    ensures |Allocate(prizes, shuffled, start)| ==
      Share(prizes[0], |shuffled|, start) + |Allocate(prizes[1..], shuffled, start + Share(prizes[0], |shuffled|, start))|
  {
  }

  /** Taking `min(q, m)` and then `min` of the rest and `d` is taking
      `min(m, q + d)`. */
  lemma ShareArithmetic(q: nat, m: nat, d: nat)
    ensures Min(q, m) + Min(m - Min(q, m), d) == Min(m, q + d)
  {
  }

  /** Winner `t` is entrant `start + t`: the winners are a prefix of the
      pool, one winner per entrant, in order. */
  lemma {:induction false} AllocateIsPrefix(prizes: seq<Prize>, shuffled: seq<Entrant>, start: nat)
    requires start <= |shuffled|
    ensures start + |Allocate(prizes, shuffled, start)| <= |shuffled|
    ensures forall t :: 0 <= t < |Allocate(prizes, shuffled, start)| ==>
      Allocate(prizes, shuffled, start)[t].userId == shuffled[start + t].userId
    decreases |prizes|
  {
    AllocateLength(prizes, shuffled, start);
    if |prizes| > 0 {
      var k := Share(prizes[0], |shuffled|, start);
      var head: seq<Winner> := seq(k, t requires 0 <= t < k => WinnerOf(prizes[0], shuffled[start + t]));
      var tail: seq<Winner> := Allocate(prizes[1..], shuffled, start + k);
      AllocateIsPrefix(prizes[1..], shuffled, start + k);
      var ws := Allocate(prizes, shuffled, start);
      assert ws == head + tail;
      forall t | 0 <= t < |ws|
        ensures ws[t].userId == shuffled[start + t].userId
      {
        if t >= k {
          assert ws[t] == tail[t - k];
          assert tail[t - k].userId == shuffled[start + k + (t - k)].userId;
          assert start + k + (t - k) == start + t;
        } else {
          assert ws[t] == head[t];
          assert head[t] == WinnerOf(prizes[0], shuffled[start + t]);
        }
      }
    }
  }

  /** A prize with no positive quantity gets nobody and does not move the
      offset; an exhausted pool gives nobody anything. */
  lemma SkippedPrizes(p: Prize, rest: seq<Prize>, shuffled: seq<Entrant>, start: nat)
    requires start <= |shuffled|
    ensures p.quantity <= 0 ==> Allocate([p] + rest, shuffled, start) == Allocate(rest, shuffled, start)
    ensures start == |shuffled| ==> Allocate([p] + rest, shuffled, start) == Allocate(rest, shuffled, start)
  {
    assert ([p] + rest)[1..] == rest;
  }

  /** Nobody wins twice when every participant appears once in the pool. */
  lemma NoDoubleWinners(prizes: seq<Prize>, shuffled: seq<Entrant>, i: nat, j: nat)
    requires forall a, b :: 0 <= a < b < |shuffled| ==> shuffled[a].userId != shuffled[b].userId
    requires i < j < |Allocate(prizes, shuffled, 0)|
    ensures Allocate(prizes, shuffled, 0)[i].userId != Allocate(prizes, shuffled, 0)[j].userId
  {
    AllocateIsPrefix(prizes, shuffled, 0);
  }

  /** Outcome of `drawWinners`. */
  datatype Draw = NoParticipants | Drawn(winners: seq<Winner>, write: Write)

  /** `drawWinners` for the raffle's prizes. `participants` are the rows
      the query returned; `shuffled` is the order the random sort put them
      in, any reordering of them. */
  function DrawWinners(activityId: string, prizes: seq<Prize>, participants: seq<Entrant>, shuffled: seq<Entrant>): (d: Draw)
    requires multiset(shuffled) == multiset(participants)
    ensures |shuffled| == |participants|
    ensures d == NoParticipants <==> |participants| == 0
    ensures d.Drawn? ==>
      |d.winners| == Min(|participants|, Demand(prizes)) &&
      (forall t :: 0 <= t < |d.winners| ==> d.winners[t].userId == shuffled[t].userId) &&
      d.write == SetSettings(activityId, RaffleSettings(d.winners))
  {
    if |participants| == 0 then NoParticipants
    else
      assert |shuffled| == |multiset(shuffled)| == |multiset(participants)| == |participants|;
      AllocateLength(prizes, shuffled, 0);
      AllocateIsPrefix(prizes, shuffled, 0);
      var ws := Allocate(prizes, shuffled, 0);
      Drawn(ws, SetSettings(activityId, RaffleSettings(ws)))
  }

  /** Every winner is one of the participants. */
  lemma WinnersAreParticipants(activityId: string, prizes: seq<Prize>, participants: seq<Entrant>, shuffled: seq<Entrant>, t: nat)
    requires multiset(shuffled) == multiset(participants)
    requires DrawWinners(activityId, prizes, participants, shuffled).Drawn?
    requires t < |DrawWinners(activityId, prizes, participants, shuffled).winners|
    ensures exists e :: e in participants && e.userId == DrawWinners(activityId, prizes, participants, shuffled).winners[t].userId
  {
    assert |shuffled| == |multiset(shuffled)| == |multiset(participants)|;
    assert shuffled[t] in multiset(shuffled);
  }

  /** The raffle page's own state. `loaded` is `raffle` being non-null:
      without it the page renders only the not-found notice. */
  datatype Page = Page(loaded: bool, isParticipating: bool, loading: bool, drawing: bool, winners: seq<Winner>)

  /** `fetchRaffle`. `found` is the activity lookup's settings (`None` when
      it answered with an error), `itemRows` how many item rows the raffle
      has, `hasContent` whether the item's `content` is non-null, and
      `ownRows` how many participation rows the user has; each `.single()`
      fails unless exactly one row matches. A failed activity or item
      lookup throws before the raffle, the winners or the participation are
      set. A null content leaves the raffle null but the rest still runs. */
  function Load(found: Option<Settings>, itemRows: nat, hasContent: bool, user: Option<string>, ownRows: nat): (p: Page)
    ensures p.loaded <==> found.Some? && itemRows == 1 && hasContent
    ensures p.isParticipating <==> found.Some? && itemRows == 1 && user.Some? && ownRows == 1
    ensures found.Some? && itemRows == 1 && found.value.RaffleSettings? ==> p.winners == found.value.winners
    ensures found.None? || itemRows != 1 || !found.value.RaffleSettings? ==> p.winners == []
    ensures !p.loading && !p.drawing
  {
    if found.None? || itemRows != 1 then Page(false, false, false, false, [])
    else
      var settings := found.value;
      Page(hasContent, user.Some? && ownRows == 1, false, false,
           if settings.RaffleSettings? then settings.winners else [])
  }

  /** The full page is rendered only once loading is over and the raffle
      was found; otherwise a loading or not-found notice replaces it. */
  predicate Rendered(p: Page) {
    p.loaded && !p.loading
  }

  /** The winners list on screen. */
  function WinnersShown(p: Page): (w: seq<Winner>)
    ensures Rendered(p) ==> w == p.winners
    ensures !Rendered(p) ==> w == []
  {
    if Rendered(p) then p.winners else []
  }

  /** A control on the page. */
  datatype Button = Hidden | Shown(enabled: bool)

  /** The participate button: only on the rendered page, hidden once
      participating (a notice replaces it), disabled with nobody signed in.
      Its `isLoading` guard never bites, since loading replaces the page. */
  function ParticipateButton(p: Page, user: Option<string>): (b: Button)
    ensures b.Shown? <==> Rendered(p) && !p.isParticipating
    ensures b.Shown? ==> (b.enabled <==> user.Some?)
  {
    if !Rendered(p) || p.isParticipating then Hidden else Shown(user.Some?)
  }

  /** A raffle saved twice under a rejected delete has two item rows: its
      page is the not-found notice, with no control and no winners, where
      a raffle with its single item offers participation. */
  lemma LoadWithDuplicateItems(settings: Settings, user: string, ownRows: nat)
    requires settings.RaffleSettings?
    ensures var p := Load(Some(settings), 2, true, Some(user), ownRows);
      !Rendered(p) && WinnersShown(p) == [] &&
      ParticipateButton(p, Some(user)) == Hidden && DrawButton(p, Some(user), user) == Hidden
    ensures ParticipateButton(Load(Some(settings), 1, true, Some(user), 0), Some(user)) == Shown(true)
  {
  }

  /** `handleParticipate` for a signed-in user: inserts `{participated:
      true}` and marks the page as participating when the insert
      succeeded. */
  function Participate(activityId: string, user: string, p: Page, stored: bool): (r: (Page, Write))
    ensures r.1 == InsertParticipation(activityId, user, Participated, None)
    ensures r.0.isParticipating == (p.isParticipating || stored)
    ensures r.0.winners == p.winners && !r.0.loading
  {
    (p.(isParticipating := p.isParticipating || stored, loading := false),
     InsertParticipation(activityId, user, Participated, None))
  }

  /** After a successful participation the button is gone, so the insert
      cannot be repeated from this page. */
  lemma ParticipateOnce(activityId: string, user: string, p: Page)
    ensures ParticipateButton(Participate(activityId, user, p, true).0, Some(user)) == Hidden
  {
  }

  /** The draw button is shown only to the owner, on the rendered page,
      and is disabled while a draw runs. */
  function DrawButton(p: Page, user: Option<string>, owner: string): (b: Button)
    ensures b.Shown? <==> Rendered(p) && user == Some(owner)
    ensures b.Shown? ==> (b.enabled <==> !p.drawing)
  {
    if Rendered(p) && user == Some(owner) then Shown(!p.drawing) else Hidden
  }

  /** The draw replaces the whole `settings` of the activity: whatever was
      there before (a wheel winner, say) is gone. */
  lemma DrawOverwritesSettings(a: Activity, prizes: seq<Prize>, participants: seq<Entrant>, shuffled: seq<Entrant>)
    requires multiset(shuffled) == multiset(participants)
    requires DrawWinners(a.id, prizes, participants, shuffled).Drawn?
    ensures var d := DrawWinners(a.id, prizes, participants, shuffled);
      ActivityDetails.ApplyToActivity(a, d.write) == a.(settings := RaffleSettings(d.winners))
  {
  }
}

=== FILE: results_page.dfy ===
/** The results table page: the sort toggle, the text filter, the sorted
    rows, and the CSV download. */
module ResultsPage {
  import opened Common
  import opened Text
  import opened Entities

  // Sorting.

  datatype SortKey = ByUsername | ByScore | ByCreatedAt
  datatype Direction = Asc | Desc
  datatype SortConfig = SortConfig(key: SortKey, direction: Direction)

  function InitialSort(): (c: SortConfig)
    ensures c.key == ByCreatedAt && c.direction == Desc
  {
    SortConfig(ByCreatedAt, Desc)
  }

  /** `handleSort`: descending when the same key is already ascending,
      ascending otherwise. */
  function HandleSort(c: SortConfig, key: SortKey): (r: SortConfig)
    ensures r.key == key
    ensures r.direction == Desc <==> c.key == key && c.direction == Asc
  {
    if c.key == key && c.direction == Asc then SortConfig(key, Desc) else SortConfig(key, Asc)
  }

  /** Clicking one header repeatedly alternates between ascending and
      descending, starting ascending unless that key was already ascending. */
  lemma HeaderClicksAlternate(c: SortConfig, key: SortKey)
    ensures HandleSort(HandleSort(c, key), key).direction != HandleSort(c, key).direction
    ensures c.key != key ==> HandleSort(c, key).direction == Asc
    ensures HandleSort(HandleSort(HandleSort(c, key), key), key) == HandleSort(c, key)
  {
  }

  /** The value a row has under a key, as JavaScript's `<` sees it: a
      number, a string, or `undefined`, which is neither below nor above
      anything. A missing score compares as 0 (`null < x` converts `null`). */
  datatype KeyValue = Num(n: real) | Str(s: string) | Missing

  function KeyOf(p: Participation, key: SortKey): (v: KeyValue)
    ensures key == ByScore ==> v == Num(p.score.GetOr(0.0))
    ensures key == ByCreatedAt ==> v == Num(p.createdAt as real)
    ensures key == ByUsername ==> (v.Missing? <==> p.username.None?)
  {
    match key
    case ByScore => Num(p.score.GetOr(0.0))
    case ByCreatedAt => Num(p.createdAt as real)
    case ByUsername => if p.username.Some? then Str(p.username.value) else Missing
  }

  /** String `<`: lexicographic by character. */
  predicate LexLess(a: string, b: string)
    decreases |a|
  {
    if |a| == 0 then |b| > 0
    else |b| > 0 && (a[0] < b[0] || (a[0] == b[0] && LexLess(a[1..], b[1..])))
  }

  lemma {:induction false} LexLessTransitive(a: string, b: string, c: string)
    requires LexLess(a, b) && LexLess(b, c)
    ensures LexLess(a, c)
    decreases |a|
  {
    if |a| > 0 && a[0] == b[0] && b[0] == c[0] {
      LexLessTransitive(a[1..], b[1..], c[1..]);
    }
  }

  lemma {:induction false} LexLessIrreflexive(a: string)
    ensures !LexLess(a, a)
    decreases |a|
  {
    if |a| > 0 {
      LexLessIrreflexive(a[1..]);
    }
  }

  lemma {:induction false} LexLessTotal(a: string, b: string)
    requires a != b
    ensures LexLess(a, b) || LexLess(b, a)
    decreases |a|
  {
    if |a| > 0 && |b| > 0 && a[0] == b[0] {
      assert a[1..] != b[1..] by {
        assert a == [a[0]] + a[1..] && b == [b[0]] + b[1..];
      }
      LexLessTotal(a[1..], b[1..]);
    }
  }

  /** `x < y` on key values. */
  predicate Less(x: KeyValue, y: KeyValue) {
    match (x, y)
    case (Num(m), Num(n)) => m < n
    case (Str(s), Str(t)) => LexLess(s, t)
    case _ => false
  }

  /** Row `a` goes before row `b`: the comparator returns -1. */
  predicate Before(c: SortConfig, a: Participation, b: Participation) {
    if c.direction == Asc then Less(KeyOf(a, c.key), KeyOf(b, c.key))
    else Less(KeyOf(b, c.key), KeyOf(a, c.key))
  }

  lemma BeforeTransitive(c: SortConfig, a: Participation, b: Participation, d: Participation)
    requires Before(c, a, b) && Before(c, b, d)
    ensures Before(c, a, d)
  {
    if c.key == ByUsername {
      var x, y, z := KeyOf(a, c.key), KeyOf(b, c.key), KeyOf(d, c.key);
      if c.direction == Asc {
        LexLessTransitive(x.s, y.s, z.s);
      } else {
        LexLessTransitive(z.s, y.s, x.s);
      }
    }
  }

  lemma BeforeIrreflexive(c: SortConfig, a: Participation)
    ensures !Before(c, a, a)
  {
    if c.key == ByUsername && a.username.Some? {
      LexLessIrreflexive(a.username.value);
    }
  }

  /** Neither row goes before the other: the comparator returns 0. */
  predicate Tied(c: SortConfig, a: Participation, b: Participation) {
    !Before(c, a, b) && !Before(c, b, a)
  }

  /** The row has a value under the sort key; every row has a score and a
      date, not every row a username. */
  predicate Keyed(c: SortConfig, a: Participation) {
    !KeyOf(a, c.key).Missing?
  }

  /** Among rows that all have a value under the key, ties are transitive
      (rows tie exactly when their values are equal), so the comparator is
      a consistent comparator there, as ECMAScript's `Array.prototype.sort`
      defines the term, and the engine is then bound to order the rows by
      it; with an inconsistent one the order is implementation-defined. */
  lemma TiedTransitive(c: SortConfig, a: Participation, b: Participation, d: Participation)
    requires Keyed(c, a) && Keyed(c, b) && Keyed(c, d)
    requires Tied(c, a, b) && Tied(c, b, d)
    ensures KeyOf(a, c.key) == KeyOf(b, c.key) == KeyOf(d, c.key)
    ensures Tied(c, a, d)
  {
    if c.key == ByUsername {
      if a.username != b.username {
        LexLessTotal(a.username.value, b.username.value);
      }
      if b.username != d.username {
        LexLessTotal(b.username.value, d.username.value);
      }
      LexLessIrreflexive(a.username.value);
    }
  }

  /** With a row missing its username ties are not transitive: in
      `[b, m, a]` each row ties with its neighbour, yet `a` goes before `b`.
      A sort that only compares neighbours leaves that list as it is, which
      is not sorted in the model's sense. */
  lemma MissingUsernameBreaksTies(a: Participation, m: Participation, b: Participation)
    requires a.username == Some("a") && m.username.None? && b.username == Some("b")
    ensures Tied(SortConfig(ByUsername, Asc), b, m) && Tied(SortConfig(ByUsername, Asc), m, a)
    ensures Before(SortConfig(ByUsername, Asc), a, b)
    ensures !SortedBy(SortConfig(ByUsername, Asc), [b, m, a])
  {
    assert LexLess("a", "b");
    assert [b, m, a][2] == a && [b, m, a][0] == b;
  }

  /** No row is followed by one that goes before it. */
  ghost predicate SortedBy(c: SortConfig, s: seq<Participation>) {
    forall i, j :: 0 <= i < j < |s| ==> !Before(c, s[j], s[i])
  }

  /** Inserts `x` before the first row it goes before. */
  function Insert(c: SortConfig, x: Participation, s: seq<Participation>): (r: seq<Participation>)
    ensures multiset(r) == multiset(s) + multiset{x}
  {
    if |s| == 0 then [x]
    else if Before(c, x, s[0]) then [x] + s
    else
      assert s == [s[0]] + s[1..];
      [s[0]] + Insert(c, x, s[1..])
  }

  lemma {:induction false} InsertSorted(c: SortConfig, x: Participation, s: seq<Participation>)
    requires SortedBy(c, s)
    ensures SortedBy(c, Insert(c, x, s))
  {
    if |s| > 0 {
      if Before(c, x, s[0]) {
        InsertFrontSorted(c, x, s);
      } else {
        SortedTail(c, s);
        InsertSorted(c, x, s[1..]);
        InsertLaterSorted(c, x, s);
      }
    }
  }

  lemma SortedTail(c: SortConfig, s: seq<Participation>)
    requires |s| > 0 && SortedBy(c, s)
    ensures SortedBy(c, s[1..])
  {
    forall i, j | 0 <= i < j < |s[1..]| ensures !Before(c, s[1..][j], s[1..][i]) {
      assert s[1..][i] == s[i + 1] && s[1..][j] == s[j + 1];
    }
  }

  /** A sorted list stays sorted behind a row that none of its rows goes
      before. */
  lemma ConsSorted(c: SortConfig, h: Participation, t: seq<Participation>)
    requires SortedBy(c, t)
    requires forall k :: 0 <= k < |t| ==> !Before(c, t[k], h)
    ensures SortedBy(c, [h] + t)
  {
    var r := [h] + t;
    forall i, j | 0 <= i < j < |r| ensures !Before(c, r[j], r[i]) {
      assert r[j] == t[j - 1];
      if i > 0 {
        assert r[i] == t[i - 1];
      }
    }
  }

  /** A row that goes before the head of a sorted list goes in front. */
  lemma InsertFrontSorted(c: SortConfig, x: Participation, s: seq<Participation>)
    requires |s| > 0 && SortedBy(c, s) && Before(c, x, s[0])
    ensures SortedBy(c, Insert(c, x, s))
  {
    forall k | 0 <= k < |s| ensures !Before(c, s[k], x) {
      if Before(c, s[k], x) {
        BeforeTransitive(c, s[k], x, s[0]);
        BeforeIrreflexive(c, s[0]);
        assert false;
      }
    }
    ConsSorted(c, x, s);
  }

  /** Otherwise the head stays first, ahead of the sorted insertion into
      the rest. */
  lemma InsertLaterSorted(c: SortConfig, x: Participation, s: seq<Participation>)
    requires |s| > 0 && SortedBy(c, s) && !Before(c, x, s[0])
    requires SortedBy(c, Insert(c, x, s[1..]))
    ensures SortedBy(c, Insert(c, x, s))
  {
    InsertedNotBeforeHead(c, x, s);
    ConsSorted(c, s[0], Insert(c, x, s[1..]));
  }

  lemma InsertedNotBeforeHead(c: SortConfig, x: Participation, s: seq<Participation>)
    requires |s| > 0 && SortedBy(c, s) && !Before(c, x, s[0])
    ensures forall k :: 0 <= k < |Insert(c, x, s[1..])| ==> !Before(c, Insert(c, x, s[1..])[k], s[0])
  {
    var t := Insert(c, x, s[1..]);
    forall k | 0 <= k < |t| ensures !Before(c, t[k], s[0]) {
      assert t[k] in multiset(t);
      if t[k] != x {
        assert t[k] in multiset(s[1..]);
        var m :| 0 <= m < |s[1..]| && s[1..][m] == t[k];
        assert s[m + 1] == t[k];
      }
    }
  }

  /** `filteredData.sort(comparator)`, as a stable insertion sort. */
  function Sort(c: SortConfig, s: seq<Participation>): (r: seq<Participation>)
    ensures multiset(r) == multiset(s)
    ensures SortedBy(c, r)
    decreases |s|
  {
    if |s| == 0 then []
    else
      var init := Sort(c, s[..|s| - 1]);
      SortStep(c, s, init);
      Insert(c, s[|s| - 1], init)
  }

  /** Inserting the last row into the sorted rest sorts the whole list. */
  lemma SortStep(c: SortConfig, s: seq<Participation>, init: seq<Participation>)
    requires |s| > 0 && multiset(init) == multiset(s[..|s| - 1]) && SortedBy(c, init)
    ensures multiset(Insert(c, s[|s| - 1], init)) == multiset(s)
    ensures SortedBy(c, Insert(c, s[|s| - 1], init))
  {
    InsertSorted(c, s[|s| - 1], init);
    assert s == s[..|s| - 1] + [s[|s| - 1]];
  }

  // Filtering.

  /** `p.username?.toLowerCase().includes(f) || p.user_id?.toLowerCase().includes(f)`
      with `f` the lower-cased filter text. */
  predicate Matches(p: Participation, filter: string) {
    (p.username.Some? && Includes(ToLower(p.username.value), ToLower(filter)))
    || Includes(ToLower(p.userId), ToLower(filter))
  }

  function KeepMatching(s: seq<Participation>, filter: string): (r: seq<Participation>)
    ensures forall p :: Count(r, p) == if Matches(p, filter) then Count(s, p) else 0
  {
    if |s| == 0 then []
    else
      var rest := KeepMatching(s[1..], filter);
      var r := (if Matches(s[0], filter) then [s[0]] else []) + rest;
      forall p ensures Count(r, p) == if Matches(p, filter) then Count(s, p) else 0 {
        CountAppend(if Matches(s[0], filter) then [s[0]] else [], rest, p);
        assert [s[0]][1..] == [];
      }
      r
  }

  /** `getSortedParticipations`: a filter that is blank after trimming keeps
      every row; otherwise a row is kept when its lower-cased username or
      user id contains the lower-cased (untrimmed) filter. The kept rows are
      sorted. */
  function SortedRows(c: SortConfig, parts: seq<Participation>, filter: string): (r: seq<Participation>)
    ensures SortedBy(c, r)
    ensures IsBlank(filter) ==> multiset(r) == multiset(parts)
    ensures !IsBlank(filter) ==> forall p :: Count(r, p) == if Matches(p, filter) then Count(parts, p) else 0
  {
    TrimEmptyIffBlank(filter);
    var kept := if Trim(filter) == "" then parts else KeepMatching(parts, filter);
    var r := Sort(c, kept);
    forall p ensures Count(r, p) == Count(kept, p) {
      MultisetCount(r, p);
      MultisetCount(kept, p);
    }
    r
  }

  lemma {:induction false} MultisetCount(s: seq<Participation>, p: Participation)
    ensures multiset(s)[p] == Count(s, p)
  {
    if |s| > 0 {
      MultisetCount(s[1..], p);
      assert s == [s[0]] + s[1..];
    }
  }

  /** Sorting by score or date orders every pair of rows by that number:
      the comparator is a total order there, so the rows come out fully
      ordered. */
  lemma NumericSortOrders(c: SortConfig, parts: seq<Participation>, filter: string, i: nat, j: nat)
    requires c.key != ByUsername
    requires i < j < |SortedRows(c, parts, filter)|
    ensures var r := SortedRows(c, parts, filter);
      c.direction == Asc ==> KeyOf(r[i], c.key).n <= KeyOf(r[j], c.key).n
    ensures var r := SortedRows(c, parts, filter);
      c.direction == Desc ==> KeyOf(r[i], c.key).n >= KeyOf(r[j], c.key).n
  {
    var r := SortedRows(c, parts, filter);
    assert !Before(c, r[j], r[i]);
  }

  /** Sorting by username when every row has one orders every pair of rows
      alphabetically. */
  lemma UsernameSortOrders(c: SortConfig, parts: seq<Participation>, filter: string, i: nat, j: nat)
    requires c.key == ByUsername && c.direction == Asc
    requires i < j < |SortedRows(c, parts, filter)|
    requires SortedRows(c, parts, filter)[i].username.Some? && SortedRows(c, parts, filter)[j].username.Some?
    ensures var r := SortedRows(c, parts, filter);
      r[i].username == r[j].username || LexLess(r[i].username.value, r[j].username.value)
  {
    var r := SortedRows(c, parts, filter);
    assert !Before(c, r[j], r[i]);
    if r[i].username != r[j].username {
      LexLessTotal(r[i].username.value, r[j].username.value);
    }
  }

  // The CSV download.

  const Header: string := "Usuario,Puntuación,Fecha,Respuestas"

  /** The four fields of one row: username (or the first 8 characters of
      the user id), score (or 0), the date and the quoted responses JSON.
      Number, date and JSON rendering are the browser's and are parameters. */
  function Fields(p: Participation, number: real -> string, date: int -> string, json: Responses -> string): (fs: seq<string>)
    ensures |fs| == 4
    ensures fs[0] == if p.username.Some? && p.username.value != "" then p.username.value else Prefix(p.userId, 8)
    ensures fs[1] == number(if p.score.Some? && p.score.value != 0.0 then p.score.value else 0.0)
    ensures fs[2] == date(p.createdAt)
    ensures fs[3] == "\"" + json(p.responses) + "\""
  {
    [if p.username.Some? && p.username.value != "" then p.username.value else Prefix(p.userId, 8),
     number(if p.score.Some? && p.score.value != 0.0 then p.score.value else 0.0),
     date(p.createdAt),
     "\"" + json(p.responses) + "\""]
  }

  /** The lines of the file: the header, then one line per participation
      (the filter does not apply). */
  function CsvLines(parts: seq<Participation>, number: real -> string, date: int -> string, json: Responses -> string): (ls: seq<string>)
    ensures |ls| == |parts| + 1 && ls[0] == Header
    ensures forall k :: 0 <= k < |parts| ==> ls[k + 1] == Join(Fields(parts[k], number, date, json), ",")
  {
    [Header] + seq(|parts|, k requires 0 <= k < |parts| => Join(Fields(parts[k], number, date, json), ","))
  }

  /** `handleDownloadResults`: nothing to download without participations. */
  function Csv(parts: seq<Participation>, number: real -> string, date: int -> string, json: Responses -> string): (r: Option<string>)
    ensures r.None? <==> |parts| == 0
    ensures r.Some? ==> r.value == Join(CsvLines(parts, number, date, json), "\n")
  {
    if |parts| == 0 then None else Some(Join(CsvLines(parts, number, date, json), "\n"))
  }

  /** `resultados_${title.replace(/\s+/g, '_')}.csv`. */
  function FileName(title: string): (f: string)
    ensures forall k :: 0 <= k < |f| ==> !IsJsWhitespace(f[k])
  {
    "resultados_" + ReplaceWhitespaceRuns(title, "_") + ".csv"
  }

  /** A title without white space is used as it is. */
  lemma FileNameOfPlainTitle(title: string)
    requires forall k :: 0 <= k < |title| ==> !IsJsWhitespace(title[k])
    ensures FileName(title) == "resultados_" + title + ".csv"
  {
    ReplaceWhitespaceRunsIdentity(title, "_");
  }

  /** `s.split(c)`. */
  function Split(s: string, c: char): (r: seq<string>)
    ensures |r| >= 1
  {
    if |s| == 0 then [""]
    else if s[0] == c then [""] + Split(s[1..], c)
    else
      var t := Split(s[1..], c);
      [[s[0]] + t[0]] + t[1..]
  }

  lemma {:induction false} SplitAfter(a: string, b: string, c: char)
    requires c !in a
    ensures Split(a + [c] + b, c) == [a] + Split(b, c)
  {
    if |a| == 0 {
      assert a + [c] + b == [c] + b;
      assert ([c] + b)[1..] == b;
    } else {
      assert (a + [c] + b)[1..] == a[1..] + [c] + b;
      SplitAfter(a[1..], b, c);
      assert a == [a[0]] + a[1..];
    }
  }

  lemma {:induction false} SplitNone(a: string, c: char)
    requires c !in a
    ensures Split(a, c) == [a]
  {
    if |a| > 0 {
      SplitNone(a[1..], c);
      assert a == [a[0]] + a[1..];
    }
  }

  /** Splitting a join on a separator that no field contains gives the
      fields back. */
  lemma {:induction false} SplitJoin(fields: seq<string>, c: char)
    requires |fields| >= 1
    requires forall k :: 0 <= k < |fields| ==> c !in fields[k]
    ensures Split(Join(fields, [c]), c) == fields
  {
    if |fields| == 1 {
      SplitNone(fields[0], c);
    } else {
      SplitJoin(fields[1..], c);
      SplitAfter(fields[0], Join(fields[1..], [c]), c);
      assert fields == [fields[0]] + fields[1..];
    }
  }

  lemma {:induction false} JoinAvoids(fields: seq<string>, sep: char, c: char)
    requires sep != c
    requires forall k :: 0 <= k < |fields| ==> c !in fields[k]
    ensures c !in Join(fields, [sep])
  {
    if |fields| > 1 {
      JoinAvoids(fields[1..], sep, c);
    }
  }

  /** When no field holds a comma or a line break, reading the file back
      (split into lines, each line into fields) recovers the header and
      every row's four fields. */
  lemma CsvReadsBack(parts: seq<Participation>, number: real -> string, date: int -> string, json: Responses -> string, k: nat)
    requires |parts| > 0 && k < |parts|
    requires forall q :: 0 <= q < |parts| ==>
      forall f :: 0 <= f < 4 ==> ',' !in Fields(parts[q], number, date, json)[f] && '\n' !in Fields(parts[q], number, date, json)[f]
    ensures Split(Csv(parts, number, date, json).value, '\n') == CsvLines(parts, number, date, json)
    ensures Split(CsvLines(parts, number, date, json)[k + 1], ',') == Fields(parts[k], number, date, json)
  {
    var ls := CsvLines(parts, number, date, json);
    forall q | 0 <= q < |ls| ensures '\n' !in ls[q] {
      if q > 0 {
        JoinAvoids(Fields(parts[q - 1], number, date, json), ',', '\n');
      }
    }
    SplitJoin(ls, '\n');
    SplitJoin(Fields(parts[k], number, date, json), ',');
  }
}

=== FILE: text.dfy ===
/** String behaviour of the JavaScript runtime that the handlers rely on:
    the white-space class used by `trim()`, `\s` and `parseInt`, ASCII case
    mapping, `includes`, `join`, decimal rendering of integers and
    `parseInt` without a radix. */
module Text {
  import opened Common

  /** ECMAScript WhiteSpace and LineTerminator code points (the class `\s`
      and the characters `trim()` strips). */
  predicate IsJsWhitespace(c: char) {
    || c == '\t' || c == '\n' || c == '\U{000B}' || c == '\U{000C}' || c == '\r'
    || c == ' ' || c == '\U{00A0}' || c == '\U{1680}'
    || ('\U{2000}' <= c <= '\U{200A}')
    || c == '\U{2028}' || c == '\U{2029}' || c == '\U{202F}' || c == '\U{205F}'
    || c == '\U{3000}' || c == '\U{FEFF}'
  }

  /** Every character is white space (the empty string included). */
  predicate IsBlank(s: string) {
    forall k :: 0 <= k < |s| ==> IsJsWhitespace(s[k])
  }

  /** `s.trimStart()`. */
  function TrimStart(s: string): (r: string)
    ensures |r| <= |s| && r == s[|s| - |r|..]
    ensures |r| > 0 ==> !IsJsWhitespace(r[0])
    ensures IsBlank(s[..|s| - |r|])
  {
    if |s| > 0 && IsJsWhitespace(s[0]) then
      var t := TrimStart(s[1..]);
      assert s[..|s| - |t|] == [s[0]] + s[1..][..|s[1..]| - |t|];
      t
    else s
  }

  /** `s.trimEnd()`. */
  function TrimEnd(s: string): (r: string)
    ensures |r| <= |s| && r == s[..|r|]
    ensures |r| > 0 ==> !IsJsWhitespace(r[|r| - 1])
    ensures IsBlank(s[|r|..])
  {
    if |s| > 0 && IsJsWhitespace(s[|s| - 1]) then
      var t := TrimEnd(s[..|s| - 1]);
      assert s[|t|..] == s[..|s| - 1][|t|..] + [s[|s| - 1]];
      t
    else s
  }

  /** `s.trim()`. */
  function Trim(s: string): string {
    TrimEnd(TrimStart(s))
  }

  /** `!s.trim()` holds exactly for the all-white-space strings. */
  lemma TrimEmptyIffBlank(s: string)
    ensures Trim(s) == "" <==> IsBlank(s)
  {
    var a := TrimStart(s);
    assert s == s[..|s| - |a|] + a;
    if Trim(s) == "" {
      assert IsBlank(a[0..]);
      assert a[0..] == a;
      assert |a| == 0;
      assert s[..|s| - |a|] == s;
    } else {
      var r := Trim(s);
      assert !IsJsWhitespace(r[0]);
      assert r[0] == a[0] == s[|s| - |a|];
    }
  }

  // ASCII case mapping (identifiers, access codes and ids are ASCII).

  function ToUpperChar(c: char): char {
    if 'a' <= c <= 'z' then (c as int - 32) as char else c
  }

  function ToLowerChar(c: char): char {
    if 'A' <= c <= 'Z' then (c as int + 32) as char else c
  }

  /** `s.toUpperCase()` on ASCII letters. */
  function ToUpper(s: string): (r: string)
    ensures |r| == |s|
    ensures forall k :: 0 <= k < |s| ==> r[k] == ToUpperChar(s[k])
  {
    seq(|s|, k requires 0 <= k < |s| => ToUpperChar(s[k]))
  }

  /** `s.toLowerCase()` on ASCII letters. */
  function ToLower(s: string): (r: string)
    ensures |r| == |s|
    ensures forall k :: 0 <= k < |s| ==> r[k] == ToLowerChar(s[k])
  {
    seq(|s|, k requires 0 <= k < |s| => ToLowerChar(s[k]))
  }

  /** `s.substring(0, n)` for `n >= 0`: the first `n` characters, or all of
      them when the string is shorter. */
  function Prefix(s: string, n: nat): (r: string)
    ensures |r| == Min(n, |s|) && r == s[..|r|]
  {
    if n < |s| then s[..n] else s
  }

  /** `needle` occurs at position `i` of `hay`. */
  predicate OccursAt(hay: string, needle: string, i: int) {
    0 <= i && i + |needle| <= |hay| && hay[i..i + |needle|] == needle
  }

  /** `hay.includes(needle)`. */
  function Includes(hay: string, needle: string): (r: bool)
    ensures r <==> exists i :: OccursAt(hay, needle, i)
  {
    if needle <= hay then
      assert OccursAt(hay, needle, 0);
      true
    else if |hay| == 0 then
      assert forall i :: !OccursAt(hay, needle, i);
      false
    else
      var r := Includes(hay[1..], needle);
      if r then
        var i :| OccursAt(hay[1..], needle, i);
        assert hay[i + 1..i + 1 + |needle|] == hay[1..][i..i + |needle|];
        assert OccursAt(hay, needle, i + 1);
        true
      else
        assert OccursAt(hay, needle, 0) ==> needle <= hay by {
          if |needle| <= |hay| {
            assert hay[0..|needle|] == hay[..|needle|];
          }
        }
        forall i | 1 <= i ensures OccursAt(hay, needle, i) ==> OccursAt(hay[1..], needle, i - 1) {
          if i + |needle| <= |hay| {
            assert hay[1..][i - 1..i - 1 + |needle|] == hay[i..i + |needle|];
          }
        }
        false
  }

  /** `fields.join(sep)`. */
  function Join(fields: seq<string>, sep: string): string
  {
    if |fields| == 0 then ""
    else if |fields| == 1 then fields[0]
    else fields[0] + sep + Join(fields[1..], sep)
  }

  /** `title.replace(/\s+/g, rep)`: every maximal run of white space becomes
      one copy of `rep`. */
  function ReplaceWhitespaceRuns(s: string, rep: string): (r: string)
    requires !exists k :: 0 <= k < |rep| && IsJsWhitespace(rep[k])
    ensures forall k :: 0 <= k < |r| ==> !IsJsWhitespace(r[k])
  {
    if |s| == 0 then ""
    else if IsJsWhitespace(s[0]) then rep + ReplaceWhitespaceRuns(TrimStart(s), rep)
    else [s[0]] + ReplaceWhitespaceRuns(s[1..], rep)
  }

  lemma {:induction false} ReplaceWhitespaceRunsIdentity(s: string, rep: string)
    requires !exists k :: 0 <= k < |rep| && IsJsWhitespace(rep[k])
    requires forall k :: 0 <= k < |s| ==> !IsJsWhitespace(s[k])
    ensures ReplaceWhitespaceRuns(s, rep) == s
  {
    if |s| > 0 {
      ReplaceWhitespaceRunsIdentity(s[1..], rep);
      assert s == [s[0]] + s[1..];
    }
  }

  // Decimal rendering and parsing.

  predicate IsDigit(c: char) { '0' <= c <= '9' }

  predicate AllDigits(s: string) {
    forall k :: 0 <= k < |s| ==> IsDigit(s[k])
  }

  function DigitChar(d: nat): char
    requires d < 10
  {
    ['0', '1', '2', '3', '4', '5', '6', '7', '8', '9'][d]
  }

  function DigitValue(c: char): nat
    requires IsDigit(c)
  {
    c as int - '0' as int
  }

  /** Value of a decimal digit string (leading zeros allowed). */
  function DigitsValue(s: string): nat
    requires AllDigits(s)
  {
    if |s| == 0 then 0 else DigitsValue(s[..|s| - 1]) * 10 + DigitValue(s[|s| - 1])
  }

  /** `n.toString()` for a non-negative integer. */
  function NatToString(n: nat): (r: string)
    ensures |r| > 0 && AllDigits(r)
  {
    if n < 10 then [DigitChar(n)] else NatToString(n / 10) + [DigitChar(n % 10)]
  }

  /** `n.toString()` for an integer. */
  function IntToString(n: int): string {
    if n < 0 then "-" + NatToString(-n) else NatToString(n)
  }

  lemma DigitCharValue(d: nat)
    requires d < 10
    ensures IsDigit(DigitChar(d)) && DigitValue(DigitChar(d)) == d
  {
  }

  /** Rendering a number and reading the digits back gives the number. */
  lemma {:induction false} NatToStringRoundTrip(n: nat)
    ensures DigitsValue(NatToString(n)) == n
  {
    var r := NatToString(n);
    if n < 10 {
      DigitCharValue(n);
      assert r[..0] == [];
    } else {
      NatToStringRoundTrip(n / 10);
      DigitCharValue(n % 10);
      assert r[..|r| - 1] == NatToString(n / 10);
    }
  }

  /** `${prefix}${k}`: the prefix, then the decimal digits of `k`. */
  predicate NumberedLabel(s: string, prefix: string, k: nat) {
    |s| > |prefix| && s[..|prefix|] == prefix && AllDigits(s[|prefix|..]) && DigitsValue(s[|prefix|..]) == k
  }

  /** The template literal `${prefix}${k}` reads back as label number `k`. */
  function Numbered(prefix: string, k: nat): (s: string)
    ensures NumberedLabel(s, prefix, k)
  {
    NatToStringRoundTrip(k);
    assert (prefix + NatToString(k))[..|prefix|] == prefix;
    assert (prefix + NatToString(k))[|prefix|..] == NatToString(k);
    prefix + NatToString(k)
  }

  /** Left-padding with zeros never changes the value of a digit string. */
  lemma {:induction false} LeadingZeroValue(s: string)
    requires AllDigits(s)
    ensures AllDigits("0" + s) && DigitsValue("0" + s) == DigitsValue(s)
  {
    var t := "0" + s;
    if |s| > 0 {
      assert t[..|t| - 1] == "0" + s[..|s| - 1];
      LeadingZeroValue(s[..|s| - 1]);
    } else {
      assert t[..0] == "";
    }
  }

  /** `String(n).padStart(2, '0')` for a non-negative integer. */
  function Pad2(n: nat): (r: string)
    ensures |r| >= 2 && AllDigits(r) && DigitsValue(r) == n
  {
    var s := NatToString(n);
    NatToStringRoundTrip(n);
    if |s| < 2 then
      LeadingZeroValue(s);
      "0" + s
    else s
  }

  // parseInt without a radix.

  predicate IsHexDigit(c: char) {
    IsDigit(c) || ('a' <= c <= 'f') || ('A' <= c <= 'F')
  }

  function HexValue(c: char): nat
    requires IsHexDigit(c)
  {
    if IsDigit(c) then DigitValue(c)
    else if 'a' <= c <= 'f' then c as int - 'a' as int + 10
    else c as int - 'A' as int + 10
  }

  predicate IsRadixDigit(c: char, hex: bool) {
    if hex then IsHexDigit(c) else IsDigit(c)
  }

  function RadixValue(c: char, hex: bool): nat
    requires IsRadixDigit(c, hex)
  {
    if hex then HexValue(c) else DigitValue(c)
  }

  /** Number of leading characters that are digits of the radix. */
  function DigitRun(s: string, hex: bool): (n: nat)
    ensures n <= |s|
    ensures forall k :: 0 <= k < n ==> IsRadixDigit(s[k], hex)
    ensures n < |s| ==> !IsRadixDigit(s[n], hex)
  {
    if |s| > 0 && IsRadixDigit(s[0], hex) then 1 + DigitRun(s[1..], hex) else 0
  }

  /** Value of a run of radix digits, most significant first. */
  function RunValue(s: string, hex: bool): nat
    requires forall k :: 0 <= k < |s| ==> IsRadixDigit(s[k], hex)
  {
    if |s| == 0 then 0
    else RunValue(s[..|s| - 1], hex) * (if hex then 16 else 10) + RadixValue(s[|s| - 1], hex)
  }

  /** Unsigned part of parseInt: an optional `0x`/`0X` prefix switches to
      hexadecimal; `None` is NaN (no digit at all). */
  function ParseMagnitude(s: string): Option<nat>
  {
    var hex := |s| >= 2 && s[0] == '0' && (s[1] == 'x' || s[1] == 'X');
    var body := if hex then s[2..] else s;
    var n := DigitRun(body, hex);
    if n == 0 then None else Some(RunValue(body[..n], hex))
  }

  /** `parseInt(s)`: leading white space skipped, optional sign, then the
      longest run of digits; `None` stands for NaN. */
  function ParseInt(s: string): Option<int>
  {
    ParseSigned(TrimStart(s))
  }

  /** The optional sign and the magnitude, once white space is skipped. */
  function ParseSigned(t: string): Option<int>
  {
    var signed := |t| > 0 && (t[0] == '-' || t[0] == '+');
    var body := if signed then t[1..] else t;
    match ParseMagnitude(body)
    case None => None
    case Some(m) => Some(if signed && t[0] == '-' then -(m as int) else m)
  }

  /** `parseInt(s) || 0`: NaN (and -0) become 0. */
  function ParseIntOrZero(s: string): int {
    ParseInt(s).GetOr(0)
  }

  lemma {:induction false} DecimalRunValue(s: string)
    requires AllDigits(s)
    ensures forall k :: 0 <= k < |s| ==> IsRadixDigit(s[k], false)
    ensures RunValue(s, false) == DigitsValue(s)
  {
    if |s| > 0 {
      DecimalRunValue(s[..|s| - 1]);
    }
  }

  lemma ParseMagnitudeOfDigits(s: string)
    requires |s| > 0 && AllDigits(s)
    ensures ParseMagnitude(s) == Some(DigitsValue(s))
  {
    assert !(|s| >= 2 && s[0] == '0' && (s[1] == 'x' || s[1] == 'X')) by {
      if |s| >= 2 { assert IsDigit(s[1]); }
    }
    DigitRunAll(s, false);
    DecimalRunValue(s);
    assert s[..|s|] == s;
  }

  lemma TrimStartKeeps(s: string)
    requires |s| > 0 && !IsJsWhitespace(s[0])
    ensures TrimStart(s) == s
  {
  }

  lemma ParseIntOfDigits(s: string)
    requires |s| > 0 && AllDigits(s)
    ensures ParseInt(s) == Some(DigitsValue(s))
  {
    ParseMagnitudeOfDigits(s);
    assert IsDigit(s[0]);
    TrimStartKeeps(s);
    UnsignedSigned(s, DigitsValue(s));
  }

  lemma UnsignedSigned(t: string, v: nat)
    requires |t| > 0 && IsDigit(t[0]) && ParseMagnitude(t) == Some(v)
    ensures ParseSigned(t) == Some(v)
  {
  }

  /** A minus sign followed by digits parses to the negated value. */
  lemma ParseIntOfMinus(m: string)
    requires |m| > 1 && m[0] == '-' && AllDigits(m[1..])
    ensures ParseInt(m) == Some(-(DigitsValue(m[1..]) as int))
  {
    ParseMagnitudeOfDigits(m[1..]);
    NegatedSigned(m, DigitsValue(m[1..]));
    ParseIntUnpadded(m);
  }


  lemma ParseIntUnpadded(t: string)
    requires |t| > 0 && !IsJsWhitespace(t[0])
    ensures ParseInt(t) == ParseSigned(t)
  {
    TrimStartKeeps(t);
  }

  lemma NegatedSigned(m: string, v: nat)
    requires |m| > 0 && m[0] == '-' && ParseMagnitude(m[1..]) == Some(v)
    ensures ParseSigned(m) == Some(-(v as int))
  {
  }

  /** A decimal rendering of n parses back to n (so a quantity field
      holding a number keeps that number). */
  lemma ParseIntOfNatToString(n: nat)
    ensures ParseInt(NatToString(n)) == Some(n)
  {
    var s := NatToString(n);
    NatToStringRoundTrip(n);
    ParseIntOfDigits(s);
  }

  lemma {:induction false} DigitRunAll(s: string, hex: bool)
    requires forall k :: 0 <= k < |s| ==> IsRadixDigit(s[k], hex)
    ensures DigitRun(s, hex) == |s|
  {
    if |s| > 0 {
      DigitRunAll(s[1..], hex);
    }
  }

  /** Text that starts with something other than white space, a sign or
      a digit parses as NaN. */
  lemma ParseIntOfNonNumeric(s: string)
    requires |s| > 0 && !IsJsWhitespace(s[0]) && !IsDigit(s[0]) && s[0] != '-' && s[0] != '+'
    ensures ParseInt(s) == None
  {
    TrimStartKeeps(s);
    assert DigitRun(s, false) == 0;
  }

  /** `parseInt(s) || 0` on a digit string, and on a minus sign followed
      by a digit string. */
  lemma ParseIntOrZeroOfDigits(s: string)
    requires |s| > 0 && AllDigits(s)
    ensures ParseIntOrZero(s) == DigitsValue(s)
  {
    ParseIntOfDigits(s);
  }

  lemma ParseIntOrZeroOfMinus(m: string)
    requires |m| > 1 && m[0] == '-' && AllDigits(m[1..])
    ensures ParseIntOrZero(m) == -(DigitsValue(m[1..]) as int)
  {
    ParseIntOfMinus(m);
  }
}

=== FILE: toasts.dfy ===
/** Toast notifications: the list kept by the provider and the one kept by
    the standalone hook `useToast`, adding and removing entries, the
    automatic removal timer, the convenience methods and the colour of each
    type. The provider and the hook follow the same rules, both taking a
    toast's id from the clock (`AddAsWritten`); the list with counter ids
    (`ToastList`, `Add`) is the corrected design. The pages call the hook's
    `showToast`, and nothing renders the hook's list; the provider renders
    its list but offers no `showToast`. */
module Toasts {
  import opened Common

  /** One notification; `kind` is the `type` field. */
  datatype Toast = Toast(id: int, message: string, kind: string)

  /** A duration in milliseconds, or `Infinity`. */
  datatype Duration = Millis(ms: int) | Infinite

  /** The result of `addToast`: the new list, the id returned, and the
      removal timer scheduled, as `(id, delay)`. */
  datatype Added = Added(toasts: seq<Toast>, id: int, timer: Option<(int, int)>)

  const DefaultKind: string := "info"
  const DefaultDuration: Duration := Millis(5000)

  /** `removeToast(id)`: `prev.filter(t => t.id !== id)`. */
  function Remove(ts: seq<Toast>, id: int): (r: seq<Toast>)
    ensures |r| <= |ts|
    ensures forall t :: t in r <==> t in ts && t.id != id
  {
    if |ts| == 0 then []
    else (if ts[0].id != id then [ts[0]] else []) + Remove(ts[1..], id)
  }

  /** Removing an id nobody has changes nothing. */
  lemma {:induction false} RemoveAbsent(ts: seq<Toast>, id: int)
    requires forall t :: t in ts ==> t.id != id
    ensures Remove(ts, id) == ts
  {
    if |ts| > 0 {
      assert ts[0] in ts;
      assert forall t :: t in ts[1..] ==> t in ts;
      RemoveAbsent(ts[1..], id);
      assert ts == [ts[0]] + ts[1..];
    }
  }

  lemma {:induction false} RemoveAppend(a: seq<Toast>, b: seq<Toast>, id: int)
    ensures Remove(a + b, id) == Remove(a, id) + Remove(b, id)
  {
    if |a| == 0 {
      assert a + b == b;
    } else {
      assert (a + b)[1..] == a[1..] + b;
      RemoveAppend(a[1..], b, id);
    }
  }

  /** The entry appended and the timer: the type defaults to `info`, the
      duration to 5000 ms, and no timer is set for `Infinity`. */
  function Append(ts: seq<Toast>, id: int, message: string, kind: Option<string>, duration: Option<Duration>): (r: Added)
    ensures r.id == id
    ensures r.toasts == ts + [Toast(id, message, kind.GetOr(DefaultKind))]
    ensures r.timer.None? <==> duration.GetOr(DefaultDuration) == Infinite
    ensures r.timer.Some? ==> r.timer.value == (id, duration.GetOr(DefaultDuration).ms)
  {
    var d := duration.GetOr(DefaultDuration);
    Added(ts + [Toast(id, message, kind.GetOr(DefaultKind))], id,
          if d == Infinite then None else Some((id, d.ms)))
  }

  /** `addToast` as written: the id is `Date.now()`, the clock reading
      `now` in milliseconds. */
  function AddAsWritten(ts: seq<Toast>, message: string, kind: Option<string>, duration: Option<Duration>, now: int): (r: Added)
    ensures r.id == now && r.toasts == ts + [Toast(now, message, kind.GetOr(DefaultKind))]
  {
    Append(ts, now, message, kind, duration)
  }

  /** Two toasts added within the same millisecond share an id, so the
      first one's timer (or its close button) removes both. */
  lemma SameMillisecondToastsVanishTogether(ts: seq<Toast>, m1: string, m2: string, now: int)
    requires forall t :: t in ts ==> t.id != now
    ensures var first := AddAsWritten(ts, m1, None, None, now);
      var second := AddAsWritten(first.toasts, m2, None, None, now);
      first.timer == Some((now, 5000)) &&
      |second.toasts| == |ts| + 2 &&
      Remove(second.toasts, first.id) == ts
  {
    var t1 := Toast(now, m1, DefaultKind);
    var t2 := Toast(now, m2, DefaultKind);
    RemoveAppend(ts + [t1], [t2], now);
    RemoveAppend(ts, [t1], now);
    RemoveAbsent(ts, now);
    assert Remove([t1], now) == [] by { assert [t1][1..] == []; }
    assert Remove([t2], now) == [] by { assert [t2][1..] == []; }
  }

  /** The corrected toast list: a counter supplies fresh ids. */
  datatype ToastList = ToastList(toasts: seq<Toast>, next: int)

  /** Every id in the list is below the counter. */
  ghost predicate Inv(st: ToastList) {
    forall t :: t in st.toasts ==> t.id < st.next
  }

  function Initial(): (st: ToastList)
    ensures Inv(st) && st.toasts == []
  {
    ToastList([], 0)
  }

  /** `addToast` with a fresh id taken from the counter. */
  function Add(st: ToastList, message: string, kind: Option<string>, duration: Option<Duration>): (r: (ToastList, Added))
    requires Inv(st)
    ensures Inv(r.0)
    ensures forall t :: t in st.toasts ==> t.id != r.1.id
    ensures r.1 == Append(st.toasts, st.next, message, kind, duration)
    ensures r.0.toasts == r.1.toasts
  {
    var a := Append(st.toasts, st.next, message, kind, duration);
    (ToastList(a.toasts, st.next + 1), a)
  }

  /** `removeToast` on the list. */
  function RemoveFrom(st: ToastList, id: int): (r: ToastList)
    requires Inv(st)
    ensures Inv(r) && r.toasts == Remove(st.toasts, id)
  {
    st.(toasts := Remove(st.toasts, id))
  }

  /** With fresh ids, removing the toast just added (by its timer or its
      close button) gives back exactly the list before it, whatever other
      toasts exist. */
  lemma RemoveUndoesAdd(st: ToastList, message: string, kind: Option<string>, duration: Option<Duration>)
    requires Inv(st)
    ensures var r := Add(st, message, kind, duration);
      RemoveFrom(r.0, r.1.id).toasts == st.toasts
  {
    var r := Add(st, message, kind, duration);
    var t := Toast(st.next, message, kind.GetOr(DefaultKind));
    RemoveAppend(st.toasts, [t], st.next);
    RemoveAbsent(st.toasts, st.next);
    assert Remove([t], st.next) == [] by { assert [t][1..] == []; }
  }

  /** Removing the first of two appended toasts with different ids keeps
      the second. */
  lemma {:induction false} RemoveFirstOfTwo(ts: seq<Toast>, t1: Toast, t2: Toast)
    requires t1.id != t2.id && forall t :: t in ts ==> t.id != t1.id
    ensures Remove(ts + [t1] + [t2], t1.id) == ts + [t2]
  {
    RemoveAppend(ts + [t1], [t2], t1.id);
    RemoveAppend(ts, [t1], t1.id);
    RemoveAbsent(ts, t1.id);
    assert Remove([t1], t1.id) == [] by { assert [t1][1..] == []; }
    assert Remove([t2], t1.id) == [t2] by { assert [t2][1..] == []; }
  }

  /** Two toasts added back to back stay separate: removing the first
      leaves the second. */
  lemma BackToBackToastsStaySeparate(st: ToastList, m1: string, m2: string)
    requires Inv(st)
    ensures var a := Add(st, m1, None, None);
      var b := Add(a.0, m2, None, None);
      Remove(b.0.toasts, a.1.id) == st.toasts + [Toast(st.next + 1, m2, DefaultKind)]
  {
    var t1 := Toast(st.next, m1, DefaultKind);
    var t2 := Toast(st.next + 1, m2, DefaultKind);
    var a := Add(st, m1, None, None);
    assert a.0 == ToastList(st.toasts + [t1], st.next + 1) && a.1.id == st.next;
    var b := Add(a.0, m2, None, None);
    assert b.0.toasts == st.toasts + [t1] + [t2];
    RemoveFirstOfTwo(st.toasts, t1, t2);
  }

  // The convenience methods; the hook's `showToast` is its `addToast` itself.

  function ShowSuccess(st: ToastList, message: string, duration: Option<Duration>): (r: (ToastList, Added))
    requires Inv(st)
    ensures Inv(r.0) && |r.0.toasts| == |st.toasts| + 1 && r.0.toasts[|st.toasts|] == Toast(r.1.id, message, "success")
    ensures r.0.toasts[..|st.toasts|] == st.toasts
    ensures forall t :: t in st.toasts ==> t.id != r.1.id
  {
    Add(st, message, Some("success"), duration)
  }

  function ShowError(st: ToastList, message: string, duration: Option<Duration>): (r: (ToastList, Added))
    requires Inv(st)
    ensures Inv(r.0) && |r.0.toasts| == |st.toasts| + 1 && r.0.toasts[|st.toasts|] == Toast(r.1.id, message, "error")
    ensures r.0.toasts[..|st.toasts|] == st.toasts
    ensures forall t :: t in st.toasts ==> t.id != r.1.id
  {
    Add(st, message, Some("error"), duration)
  }

  function ShowInfo(st: ToastList, message: string, duration: Option<Duration>): (r: (ToastList, Added))
    requires Inv(st)
    ensures Inv(r.0) && |r.0.toasts| == |st.toasts| + 1 && r.0.toasts[|st.toasts|] == Toast(r.1.id, message, "info")
    ensures r.0.toasts[..|st.toasts|] == st.toasts
    ensures forall t :: t in st.toasts ==> t.id != r.1.id
  {
    Add(st, message, Some("info"), duration)
  }

  function ShowWarning(st: ToastList, message: string, duration: Option<Duration>): (r: (ToastList, Added))
    requires Inv(st)
    ensures Inv(r.0) && |r.0.toasts| == |st.toasts| + 1 && r.0.toasts[|st.toasts|] == Toast(r.1.id, message, "warning")
    ensures r.0.toasts[..|st.toasts|] == st.toasts
    ensures forall t :: t in st.toasts ==> t.id != r.1.id
  {
    Add(st, message, Some("warning"), duration)
  }

  /** `getBgColor()`. */
  function BgColor(kind: string): (c: string)
    ensures kind == "success" ==> c == "bg-green-500"
    ensures kind == "error" ==> c == "bg-red-500"
    ensures kind == "warning" ==> c == "bg-yellow-500"
    ensures kind !in {"success", "error", "warning"} ==> c == "bg-blue-500"
  {
    match kind
    case "success" => "bg-green-500"
    case "error" => "bg-red-500"
    case "warning" => "bg-yellow-500"
    case _ => "bg-blue-500"
  }

  /** A toast added without a type is shown like an `info` one, and the
      four named types get four different colours. */
  lemma DefaultToastIsBlue(st: ToastList, message: string)
    requires Inv(st)
    ensures var r := Add(st, message, None, None);
      BgColor(r.0.toasts[|st.toasts|].kind) == BgColor("info") == "bg-blue-500"
    ensures |{BgColor("success"), BgColor("error"), BgColor("warning"), BgColor("info")}| == 4
  {
  }

  /** The context hook: the provider's value, or the error it throws
      outside a provider. */
  datatype HookResult<C> = Provided(context: C) | Thrown(message: string)

  function UseToast<C>(context: Option<C>): (r: HookResult<C>)
    ensures context.Some? <==> r.Provided?
    ensures context.Some? ==> r.context == context.value
    ensures context.None? ==> r == Thrown("useToast debe usarse dentro de un ToastProvider")
  {
    match context
    case Some(c) => Provided(c)
    case None => Thrown("useToast debe usarse dentro de un ToastProvider")
  }
}

=== FILE: utils.dfy ===
/** The string and list utilities of the app: access codes, truncation, the
    e-mail predicate, the array shuffle, `once`, the random colour, the
    `mm:ss` time format and the version-4 UUID. Every `Math.random()` draw
    is an input `u` in [0, 1). */
module Utils {
  import opened Common
  import opened Text

  /** `Math.floor(u * n)` for a draw `u` in [0, 1). */
  function Pick(u: real, n: nat): (i: nat)
    requires 0.0 <= u < 1.0 && n > 0
    ensures i < n
    ensures i as real <= u * n as real < i as real + 1.0
  {
    var x := u * n as real;
    assert 0.0 <= x < n as real by {
      assert n as real - x == (1.0 - u) * n as real;
    }
    x.Floor
  }

  predicate Draws(draws: seq<real>) {
    forall k :: 0 <= k < |draws| ==> 0.0 <= draws[k] < 1.0
  }

  // generateAccessCode

  /** The access-code alphabet: upper-case letters and digits without the
      look-alikes `0`, `O`, `1` and `I`. */
  const CodeAlphabet: string := "ABCDEFGHJKLMNPQRSTUVWXYZ23456789"

  predicate CodeChar(c: char) {
    ('A' <= c <= 'Z' && c != 'I' && c != 'O') || ('2' <= c <= '9')
  }

  lemma CodeAlphabetChars()
    ensures |CodeAlphabet| == 32
    ensures forall k :: 0 <= k < |CodeAlphabet| ==> CodeChar(CodeAlphabet[k])
  {
  }

  /** `generateAccessCode(length)`: one alphabet character per draw, `length`
      of them (none when `length` is not positive). */
  method GenerateAccessCode(length: int, draws: seq<real>) returns (code: string)
    requires Draws(draws) && |draws| >= length
    ensures |code| == Max(length, 0)
    ensures forall k :: 0 <= k < |code| ==> code[k] == CodeAlphabet[Pick(draws[k], 32)]
    ensures forall k :: 0 <= k < |code| ==> CodeChar(code[k])
  {
    CodeAlphabetChars();
    code := "";
    var i := 0;
    while i < length
      invariant 0 <= i == |code| <= Max(length, 0)
      invariant forall k :: 0 <= k < i ==> code[k] == CodeAlphabet[Pick(draws[k], 32)]
      invariant forall k :: 0 <= k < i ==> CodeChar(code[k])
    {
      code := code + [CodeAlphabet[Pick(draws[i], 32)]];
      i := i + 1;
    }
  }

  /** A generated code is already upper case, so the upper-casing lookup by
      access code finds it as typed back; and it never holds a look-alike. */
  lemma CodeIsUpperCase(code: string)
    requires forall k :: 0 <= k < |code| ==> CodeChar(code[k])
    ensures ToUpper(code) == code
    ensures '0' !in code && 'O' !in code && '1' !in code && 'I' !in code
  {
  }

  // truncateText

  /** `truncateText(text, max)`: an empty text or one of at most `max`
      characters comes back unchanged; a longer one is cut to its first
      `max` characters (none when `max` is negative) followed by `...`. */
  function Truncate(text: string, max: int): (r: string)
    ensures text == "" || |text| <= max ==> r == text
    ensures text != "" && |text| > max ==>
      |r| == Max(max, 0) + 3 && r[..|r| - 3] == text[..Max(max, 0)] && r[|r| - 3..] == "..."
  {
    if text == "" || |text| <= max then text
    else Prefix(text, Max(max, 0)) + "..."
  }

  /** A truncated text is never longer than `max + 3`, so truncating it
      again with room for the ellipsis changes nothing. */
  lemma TruncateBounds(text: string, max: nat)
    ensures |Truncate(text, max)| <= max + 3
    ensures Truncate(Truncate(text, max), max + 3) == Truncate(text, max)
  {
  }

  // isValidEmail

  /** A character of the class `[^\s@]`. */
  predicate Plain(c: char) {
    !IsJsWhitespace(c) && c != '@'
  }

  predicate AllPlain(s: string) {
    forall k :: 0 <= k < |s| ==> Plain(s[k])
  }

  /** `s` splits at the `@` at `i` and has a `.` at `j` as the pattern
      requires. */
  predicate ShapeAt(s: string, i: int, j: int) {
    0 < i && i + 1 < j < |s| - 1 && s[i] == '@' && s[j] == '.' &&
    AllPlain(s[..i]) && AllPlain(s[i + 1..])
  }

  /** The language of `/^[^\s@]+@[^\s@]+\.[^\s@]+$/`: a non-empty local
      part, `@`, and a domain with a `.` that is neither its first nor its
      last character; no white space and no second `@` anywhere. */
  ghost predicate EmailShape(s: string) {
    exists i, j :: ShapeAt(s, i, j)
  }

  /** Position of the first `@`. */
  function IndexOfAt(s: string): (r: Option<nat>)
    ensures r.Some? ==> r.value < |s| && s[r.value] == '@'
    ensures r.None? ==> '@' !in s
  {
    if |s| == 0 then None
    else if s[0] == '@' then Some(0)
    else match IndexOfAt(s[1..])
      case None => None
      case Some(i) => Some(i + 1)
  }

  lemma {:induction false} IndexOfAtFirst(s: string, i: nat)
    requires i < |s| && s[i] == '@'
    requires forall k :: 0 <= k < i ==> s[k] != '@'
    ensures IndexOfAt(s) == Some(i)
  {
    if i > 0 {
      assert s[1..][i - 1] == s[i];
      assert forall k :: 0 <= k < i - 1 ==> s[1..][k] == s[k + 1];
      IndexOfAtFirst(s[1..], i - 1);
    }
  }

  /** The check performed by `isValidEmail` on the lower-cased text, as a
      scan: find the `@`, then look for an inner dot after it. */
  function EmailCheck(s: string): bool {
    match IndexOfAt(s)
    case None => false
    case Some(i) =>
      var domain := s[i + 1..];
      0 < i && AllPlain(s[..i]) && AllPlain(domain) && |domain| >= 3 && '.' in domain[1..|domain| - 1]
  }

  lemma EmailCheckIsShape(s: string)
    ensures EmailCheck(s) <==> EmailShape(s)
  {
    if EmailCheck(s) {
      var i := IndexOfAt(s).value;
      var domain := s[i + 1..];
      var inner := domain[1..|domain| - 1];
      var m :| 0 <= m < |inner| && inner[m] == '.';
      assert s[i + 2 + m] == '.';
      assert ShapeAt(s, i, i + 2 + m);
    }
    if EmailShape(s) {
      var i, j :| ShapeAt(s, i, j);
      assert forall k :: 0 <= k < i ==> s[..i][k] == s[k];
      IndexOfAtFirst(s, i);
      var domain := s[i + 1..];
      assert domain[1..|domain| - 1][j - i - 2] == '.';
    }
  }

  lemma PlainLower(c: char)
    ensures Plain(ToLowerChar(c)) <==> Plain(c)
    ensures ToLowerChar(c) == '@' <==> c == '@'
    ensures ToLowerChar(c) == '.' <==> c == '.'
  {
  }

  lemma AllPlainLower(t: string)
    ensures AllPlain(ToLower(t)) <==> AllPlain(t)
  {
    forall k | 0 <= k < |t|
      ensures Plain(ToLower(t)[k]) <==> Plain(t[k])
    {
      PlainLower(t[k]);
    }
  }

  lemma LowerSlices(s: string, i: nat)
    requires i < |s|
    ensures ToLower(s)[..i] == ToLower(s[..i])
    ensures ToLower(s)[i + 1..] == ToLower(s[i + 1..])
  {
  }

  lemma ShapeAtLower(s: string, i: int, j: int)
    requires 0 < i && i + 1 < j < |s| - 1
    ensures ShapeAt(ToLower(s), i, j) <==> ShapeAt(s, i, j)
  {
    LowerSlices(s, i);
    AllPlainLower(s[..i]);
    AllPlainLower(s[i + 1..]);
    PlainLower(s[i]);
    PlainLower(s[j]);
  }

  lemma LowerKeepsShape(s: string)
    ensures EmailShape(ToLower(s)) <==> EmailShape(s)
  {
    if EmailShape(s) {
      var i, j :| ShapeAt(s, i, j);
      ShapeAtLower(s, i, j);
    }
    if EmailShape(ToLower(s)) {
      var i, j :| ShapeAt(ToLower(s), i, j);
      ShapeAtLower(s, i, j);
    }
  }

  /** `isValidEmail(email)`: the lower-cased text matches the pattern. Lower
      casing maps no character into or out of `[^\s@]` or onto `.`, so the
      verdict is the pattern test on the text itself. */
  function IsValidEmail(email: string): (ok: bool)
    ensures ok <==> EmailShape(email)
  {
    var s := ToLower(email);
    EmailCheckIsShape(s);
    LowerKeepsShape(email);
    EmailCheck(s)
  }

  // shuffleArray

  /** `shuffleArray(array)`: Fisher-Yates on a copy, swapping position `i`
      with `Math.floor(u * (i + 1))` for `i` from the end down to 1, where
      `u` is `draws[i]`. Sequences are values, so the input is untouched. */
  method Shuffle<T>(a: seq<T>, draws: seq<real>) returns (r: seq<T>)
    requires Draws(draws) && |draws| >= |a|
    ensures |r| == |a|
    ensures multiset(r) == multiset(a)
  {
    r := a;
    var i := |r| - 1;
    while i > 0
      invariant -1 <= i < |r| || (|r| == 0 && i == -1)
      invariant |r| == |a| && multiset(r) == multiset(a)
    {
      var j := Pick(draws[i], i + 1);
      var x, y := r[i], r[j];
      r := r[i := y][j := x];
      i := i - 1;
    }
  }

  // once

  /** The closure state of `once(fn)`: not yet called, or called with the
      cached result. */
  datatype Once<T> = NotCalled | Called(result: T)

  /** One call of the wrapped function, where `fnResult` is what `fn` would
      return for this call's arguments. Returns the new state, the value
      returned and whether `fn` ran. */
  function Call<T>(st: Once<T>, fnResult: T): (r: (Once<T>, T, bool))
    ensures r.2 <==> st.NotCalled?
    ensures r.0 == Called(r.1)
    ensures st.Called? ==> r.1 == st.result
    ensures st.NotCalled? ==> r.1 == fnResult
  {
    match st
    case NotCalled => (Called(fnResult), fnResult, true)
    case Called(v) => (st, v, false)
  }

  /** A run of calls: the values returned and how many times `fn` ran. */
  function CallAll<T>(st: Once<T>, fnResults: seq<T>): (r: (seq<T>, nat))
    ensures |r.0| == |fnResults|
    decreases |fnResults|
  {
    if |fnResults| == 0 then ([], 0)
    else
      var c := Call(st, fnResults[0]);
      var rest := CallAll(c.0, fnResults[1..]);
      ([c.1] + rest.0, (if c.2 then 1 else 0) + rest.1)
  }

  /** Once called, the wrapper keeps returning the cached value and never
      runs `fn` again. */
  lemma {:induction false} CalledStaysCached<T>(v: T, fnResults: seq<T>)
    ensures CallAll(Called(v), fnResults).1 == 0
    ensures forall k :: 0 <= k < |fnResults| ==> CallAll(Called(v), fnResults).0[k] == v
  {
    if |fnResults| > 0 {
      CalledStaysCached(v, fnResults[1..]);
    }
  }

  /** From a fresh wrapper, any run of calls runs `fn` exactly once and
      every call returns the first call's result. */
  lemma OnceRunsOnce<T>(fnResults: seq<T>)
    requires |fnResults| > 0
    ensures CallAll(NotCalled, fnResults).1 == 1
    ensures forall k :: 0 <= k < |fnResults| ==> CallAll(NotCalled, fnResults).0[k] == fnResults[0]
  {
    CalledStaysCached(fnResults[0], fnResults[1..]);
  }

  // getRandomColor

  const HexUpper: string := "0123456789ABCDEF"

  /** `getRandomColor()`: `#` and six upper-case hexadecimal digits. */
  function RandomColor(draws: seq<real>): (c: string)
    requires Draws(draws) && |draws| >= 6
    ensures |c| == 7 && c[0] == '#'
    ensures forall k :: 1 <= k < 7 ==> c[k] in HexUpper && c[k] == HexUpper[Pick(draws[k - 1], 16)]
  {
    "#" + seq(6, k requires 0 <= k < 6 => HexUpper[Pick(draws[k], 16)])
  }

  // formatTime

  /** `String(n).padStart(2, '0')`: zeros in front up to two characters;
      a longer text is kept as it is. */
  function PadStart2(s: string): (r: string)
    ensures |r| == if |s| < 2 then 2 else |s|
    ensures r[|r| - |s|..] == s
    ensures forall k :: 0 <= k < |r| - |s| ==> r[k] == '0'
    ensures |s| >= 2 ==> r == s
  {
    if |s| == 0 then "00" else if |s| == 1 then "0" + s else s
  }

  lemma MultipleInRange(k: int, b: int)
    requires b > 0 && 0 <= k * b < b
    ensures k == 0
  {
  }

  /** A multiple of `b` leaves no remainder. */
  lemma MultipleMod(q: int, b: int)
    requires b > 0
    ensures (q * b) % b == 0
  {
    var y := q * b;
    assert y == (y / b) * b + y % b;
    assert y % b == (q - y / b) * b;
    MultipleInRange(q - y / b, b);
  }

  /** JavaScript's `%`: the remainder takes the sign of the dividend. For a
      negative dividend the two clauses pin the value: the only number in
      `(-b, 0]` that differs from `a` by a multiple of `b`. */
  function JsRem(a: int, b: int): (r: int)
    requires b > 0
    ensures a >= 0 ==> r == a % b
    ensures a < 0 ==> -b < r <= 0 && (a - r) % b == 0
  {
    if a >= 0 then a % b
    else
      var q := (-a) / b;
      assert a - -((-a) % b) == (-q) * b;
      MultipleMod(-q, b);
      -((-a) % b)
  }

  /** `formatTime(ms)`: whole seconds by `Math.floor`, minutes by
      `Math.floor`, seconds by `%`; each printed with at least two
      characters. For the floor divisions by positive constants Dafny's
      `/` is `Math.floor`. */
  function FormatTime(ms: int): (r: string)
  {
    var totalSeconds := ms / 1000;
    var minutes := totalSeconds / 60;
    var seconds := JsRem(totalSeconds, 60);
    PadStart2(IntToString(minutes)) + ":" + PadStart2(IntToString(seconds))
  }

  /** A number's decimal text is never empty, so padding it agrees with
      `Pad2`. */
  lemma PaddedDigits(n: nat)
    ensures PadStart2(IntToString(n)) == Pad2(n)
  {
    assert |NatToString(n)| > 0;
  }

  lemma ShortNumber(n: nat)
    requires n < 100
    ensures |NatToString(n)| <= 2
  {
  }

  /** For a non-negative duration the text reads back: the part before the
      colon is a digit string of at least two characters, the part after it
      is exactly two digits below 60, and minutes * 60 + seconds is the
      number of whole seconds. */
  lemma FormatTimeReadsBack(ms: nat)
    ensures var r := FormatTime(ms);
      |r| >= 5 && r[|r| - 3] == ':' &&
      var mm, ss := r[..|r| - 3], r[|r| - 2..];
      |mm| >= 2 && |ss| == 2 && AllDigits(mm) && AllDigits(ss) &&
      DigitsValue(ss) < 60 && DigitsValue(mm) * 60 + DigitsValue(ss) == ms / 1000
  {
    var totalSeconds := ms / 1000;
    var minutes := totalSeconds / 60;
    var seconds := totalSeconds % 60;
    ShortNumber(seconds);
    PaddedDigits(minutes);
    PaddedDigits(seconds);
    var r := FormatTime(ms);
    assert r == Pad2(minutes) + ":" + Pad2(seconds);
    assert r[..|r| - 3] == Pad2(minutes);
    assert r[|r| - 2..] == Pad2(seconds);
  }

  // generateUUID

  const UuidTemplate: string := "xxxxxxxx-xxxx-4xxx-yxxx-xxxxxxxxxxxx"
  const HexLower: string := "0123456789abcdef"

  /** One character of the `replace(/[xy]/g, ...)` of `generateUUID`:
      `x` becomes the hex digit of `r = Math.random() * 16 | 0`, `y` the
      digit of `r & 0x3 | 0x8` (which is `r % 4 + 8` for `r < 16`); any
      other character stays. */
  function FillChar(c: char, u: real): (r: char)
    requires 0.0 <= u < 1.0
    ensures c == 'x' ==> r in HexLower
    ensures c == 'y' ==> r in "89ab"
    ensures c != 'x' && c != 'y' ==> r == c
  {
    var v := Pick(u, 16);
    if c == 'x' then HexLower[v]
    else if c == 'y' then
      assert HexLower[v % 4 + 8] == "89ab"[v % 4];
      HexLower[v % 4 + 8]
    else c
  }

  /** The whole template filled in; template position `k` uses draw `k`
      (each placeholder gets its own draw). */
  function FillTemplate(t: string, draws: seq<real>): (r: string)
    requires Draws(draws) && |draws| >= |t|
    ensures |r| == |t|
    ensures forall k :: 0 <= k < |t| ==> r[k] == FillChar(t[k], draws[k])
  {
    seq(|t|, k requires 0 <= k < |t| => FillChar(t[k], draws[k]))
  }

  /** `generateUUID()`. */
  function Uuid(draws: seq<real>): (u: string)
    requires Draws(draws) && |draws| >= 36
  {
    FillTemplate(UuidTemplate, draws)
  }

  /** The shape of a version-4 UUID: 36 characters, hyphens at 8, 13, 18 and
      23, the version `4` at 14, the variant (one of `8 9 a b`) at 19, and
      lower-case hexadecimal digits elsewhere. */
  lemma UuidShape(draws: seq<real>)
    requires Draws(draws) && |draws| >= 36
    ensures var u := Uuid(draws);
      |u| == 36 && u[8] == '-' && u[13] == '-' && u[18] == '-' && u[23] == '-' &&
      u[14] == '4' && u[19] in "89ab" &&
      forall k :: 0 <= k < 36 && k !in {8, 13, 14, 18, 19, 23} ==> u[k] in HexLower
  {
    TemplateShape();
  }

  lemma TemplateShape()
    ensures |UuidTemplate| == 36
    ensures UuidTemplate[8] == '-' && UuidTemplate[13] == '-' && UuidTemplate[18] == '-' && UuidTemplate[23] == '-'
    ensures UuidTemplate[14] == '4' && UuidTemplate[19] == 'y'
    ensures forall k :: 0 <= k < 36 && k !in {8, 13, 14, 18, 19, 23} ==> UuidTemplate[k] == 'x'
  {
  }
}

=== FILE: voting_builder.dfy ===
/** The vote editor: the option list, its edits, and the save that replaces
    the activity's item. */
module VotingBuilder {
  import opened Common
  import opened Text
  import opened Entities

  datatype Draft = Draft(title: string, description: string, options: seq<string>, isMultipleChoice: bool)

  const OptionPrefix: string := "Opción "

  function Initial(): (d: Draft)
    ensures d.title == "Votación" && d.description == ""
    ensures d.options == ["Opción 1", "Opción 2"]
    ensures NumberedLabel(d.options[0], OptionPrefix, 1) && NumberedLabel(d.options[1], OptionPrefix, 2)
    ensures !d.isMultipleChoice
  {
    assert NatToString(1) == "1" && NatToString(2) == "2";
    assert Numbered(OptionPrefix, 1) == OptionPrefix + "1" == "Opción 1";
    assert Numbered(OptionPrefix, 2) == OptionPrefix + "2" == "Opción 2";
    Draft("Votación", "", [Numbered(OptionPrefix, 1), Numbered(OptionPrefix, 2)], false)
  }

  /** `addOption`: appends the label numbered one past the current length. */
  function AddOption(d: Draft): (r: Draft)
    ensures |r.options| == |d.options| + 1 && r.options[..|d.options|] == d.options
    ensures NumberedLabel(r.options[|d.options|], OptionPrefix, |r.options|)
    ensures r.title == d.title && r.description == d.description && r.isMultipleChoice == d.isMultipleChoice
  {
    var next := Numbered(OptionPrefix, |d.options| + 1);
    assert (d.options + [next])[..|d.options|] == d.options;
    d.(options := d.options + [next])
  }

  /** `removeOption`: drops option `i` while more than two remain. */
  function RemoveOption(d: Draft, i: int): (r: Draft)
    ensures |d.options| <= 2 ==> r == d
    ensures |d.options| > 2 ==> r == d.(options := RemoveAt(d.options, i))
    ensures |d.options| >= 2 ==> |r.options| >= 2
  {
    if |d.options| > 2 then d.(options := RemoveAt(d.options, i)) else d
  }

  /** `updateOption`: replaces the text of option `i` only. */
  function SetOption(d: Draft, i: nat, text: string): (r: Draft)
    requires i < |d.options|
    ensures |r.options| == |d.options| && r.options[i] == text
    ensures forall k :: 0 <= k < |d.options| && k != i ==> r.options[k] == d.options[k]
    ensures r.title == d.title && r.description == d.description && r.isMultipleChoice == d.isMultipleChoice
  {
    d.(options := SetAt(d.options, i, text))
  }

  /** Starting from the initial draft, no sequence of edits gets below two
      options. */
  lemma EditsKeepTwoOptions(d: Draft, i: int, k: nat, text: string)
    requires |d.options| >= 2
    ensures |AddOption(d).options| >= 2 && |RemoveOption(d, i).options| >= 2
    ensures k < |d.options| ==> |SetOption(d, k, text).options| >= 2
  {
  }

  /** `handleSubmit`: delete the activity's items, then insert the vote at
      position 0. */
  function Save(activityId: string, d: Draft): (ws: seq<Write>)
    ensures |ws| == 2 && ws[0] == DeleteItems(activityId)
    ensures ws[1].InsertItem? && ws[1].item.activityId == activityId && ws[1].item.position == 0
    ensures ws[1].item.content == VoteContent(d.title, d.description, d.options, d.isMultipleChoice)
  {
    [DeleteItems(activityId), InsertItem(Item(activityId, VoteContent(d.title, d.description, d.options, d.isMultipleChoice), 0))]
  }

  /** After a save whose delete the store accepts, the activity has
      exactly the saved vote as its item, and other activities' items are
      untouched. */
  lemma SaveReplacesItems(items: seq<Item>, activityId: string, d: Draft, other: string)
    ensures ItemsOf(ApplyAllToItems(items, Save(activityId, d)), activityId) == [Save(activityId, d)[1].item]
    ensures other != activityId ==>
      ItemsOf(ApplyAllToItems(items, Save(activityId, d)), other) == ItemsOf(items, other)
  {
    ReplaceItems(items, Save(activityId, d)[1].item, other);
  }

  /** The delete's error is never read: when the store rejects it, only the
      insert takes effect, the activity keeps its old items with the saved
      vote after them, and an activity that had an item ends with more than
      one. Other activities' items are untouched either way. */
  lemma SaveWithRejectedDelete(items: seq<Item>, activityId: string, d: Draft, other: string)
    ensures ItemsOf(ApplyAllToItems(items, Save(activityId, d)[1..]), activityId)
      == ItemsOf(items, activityId) + [Save(activityId, d)[1].item]
    ensures |ItemsOf(items, activityId)| > 0 ==>
      |ItemsOf(ApplyAllToItems(items, Save(activityId, d)[1..]), activityId)| > 1
    ensures other != activityId ==>
      ItemsOf(ApplyAllToItems(items, Save(activityId, d)[1..]), other) == ItemsOf(items, other)
  {
    assert Save(activityId, d)[1..] == [InsertItem(Save(activityId, d)[1].item)];
    InsertWithoutDelete(items, Save(activityId, d)[1].item, other);
  }
}

=== FILE: voting_player.dfy ===
/** The voting page: restoring an earlier vote, toggling options in single
    or multiple choice, and submitting the selection. */
module VotingPlayer {
  import opened Common
  import opened Entities

  /** `handleOptionToggle`. In multiple choice a selected option is
      filtered out (every occurrence) and an unselected one appended; in
      single choice the selection becomes just that option. */
  function Toggle(multiple: bool, selected: seq<string>, option: string): (r: seq<string>)
    ensures !multiple ==> r == [option]
    ensures multiple ==> (option in r <==> option !in selected)
  {
    if !multiple then [option]
    else if option in selected then RemoveAll(selected, option)
    else selected + [option]
  }

  /** In multiple choice, toggling leaves the count of every other option
      as it was. */
  lemma ToggleKeepsOthers(selected: seq<string>, option: string, other: string)
    requires other != option
    ensures Count(Toggle(true, selected, option), other) == Count(selected, other)
  {
    if option in selected {
      RemoveAllCounts(selected, option, other);
    } else {
      CountAppend(selected, [option], other);
      assert Count([option], other) == 0 by {
        assert [option][1..] == [];
      }
    }
  }

  /** In multiple choice, toggling an absent option twice restores the
      selection. */
  lemma ToggleTwiceRestores(selected: seq<string>, option: string)
    requires option !in selected
    ensures Toggle(true, Toggle(true, selected, option), option) == selected
  {
    RemoveAllAppend(selected, [option], option);
    RemoveAllAbsent(selected, option);
    assert RemoveAll([option], option) == [] by {
      assert [option][1..] == [];
    }
    assert selected + [] == selected;
  }

  /** A selection without repeats keeps none after any toggle. */
  lemma ToggleKeepsNoDuplicates(multiple: bool, selected: seq<string>, option: string)
    requires NoDuplicates(selected)
    ensures NoDuplicates(Toggle(multiple, selected, option))
  {
    if multiple {
      if option in selected {
        RemoveAllKeepsNoDuplicates(selected, option);
      } else {
        var r := selected + [option];
        forall i, j | 0 <= i < j < |r| ensures r[i] != r[j] {
          if j == |selected| {
            assert r[i] == selected[i];
          }
        }
      }
    }
  }

  /** The page state that voting changes. */
  datatype State = State(selected: seq<string>, hasVoted: bool, loading: bool)

  /** Loading: a prior participation whose responses carry a
      `selectedOptions` array marks the vote as cast and restores that
      selection. `prior` is the user's row when the lookup found one. */
  function Restore(user: Option<string>, prior: Option<Responses>): (s: State)
    ensures s.hasVoted <==> user.Some? && prior.Some? && prior.value.Selection?
    ensures s.hasVoted ==> s.selected == prior.value.selectedOptions
    ensures !s.hasVoted ==> s.selected == []
    ensures !s.loading
  {
    if user.Some? && prior.Some? && prior.value.Selection?
    then State(prior.value.selectedOptions, true, false)
    else State([], false, false)
  }

  /** The submit button's `disabled`. */
  predicate SubmitDisabled(s: State, user: Option<string>) {
    |s.selected| == 0 || s.loading || user.None?
  }

  /** `submitVote`: nothing on an empty selection; otherwise the upsert of
      `{selectedOptions}` for this user, and `hasVoted` once it is stored.
      The user id is the one the store attaches to the signed-in session. */
  function Submit(activityId: string, user: string, s: State, stored: bool): (r: (State, Option<Write>))
    ensures |s.selected| == 0 ==> r == (s, None)
    ensures |s.selected| > 0 ==>
      r.1 == Some(UpsertParticipation(activityId, user, Selection(s.selected), None)) &&
      r.0 == State(s.selected, s.hasVoted || stored, false)
  {
    if |s.selected| == 0 then (s, None)
    else (State(s.selected, s.hasVoted || stored, false),
          Some(UpsertParticipation(activityId, user, Selection(s.selected), None)))
  }

  /** An enabled submit always sends the current selection. */
  lemma EnabledSubmitWrites(activityId: string, user: string, s: State, stored: bool)
    requires !SubmitDisabled(s, Some(user))
    ensures Submit(activityId, user, s, stored).1 == Some(UpsertParticipation(activityId, user, Selection(s.selected), None))
    ensures Submit(activityId, user, s, stored).0.hasVoted == (s.hasVoted || stored)
  {
  }

  /** Reloading after a stored vote restores exactly what was sent. */
  lemma SubmitThenRestore(activityId: string, user: string, s: State)
    requires |s.selected| > 0
    ensures var w := Submit(activityId, user, s, true).1.value;
      Restore(Some(user), Some(w.responses)) == State(s.selected, true, false)
  {
  }
}

=== FILE: voting_results.dfy ===
/** The vote results: a count per configured option over every
    participation's selection, the total, and the percentage guard. */
module VotingResults {
  import opened Common
  import opened Entities

  /** `participation.responses?.selectedOptions || []`. */
  function Ballot(r: Responses): (s: seq<string>)
    ensures r.Selection? ==> s == r.selectedOptions
    ensures !r.Selection? ==> s == []
  {
    if r.Selection? then r.selectedOptions else []
  }

  /** Every selected value of every participation, in order. */
  function AllBallots(rs: seq<Responses>): seq<string>
    decreases |rs|
  {
    if |rs| == 0 then [] else AllBallots(rs[..|rs| - 1]) + Ballot(rs[|rs| - 1])
  }

  /** Number of entries of `s` that are among `keys`. */
  function CountIn(s: seq<string>, keys: set<string>): nat
  {
    if |s| == 0 then 0 else (if s[0] in keys then 1 else 0) + CountIn(s[1..], keys)
  }

  lemma {:induction false} CountInAppend(a: seq<string>, b: seq<string>, keys: set<string>)
    ensures CountIn(a + b, keys) == CountIn(a, keys) + CountIn(b, keys)
  {
    if |a| == 0 {
      assert a + b == b;
    } else {
      assert (a + b)[1..] == a[1..] + b;
      CountInAppend(a[1..], b, keys);
    }
  }

  lemma {:induction false} CountInNone(s: seq<string>)
    ensures CountIn(s, {}) == 0
  {
    if |s| > 0 {
      CountInNone(s[1..]);
    }
  }

  /** The counting loop of the results page. `options` is the configured
      list (`None` when the item has none); `responses` are the
      participations' responses. Each configured option starts at 0, each
      selected value that is a configured option adds one to its count and
      to the total, and any other value is ignored. */
  method Tally(options: Option<seq<string>>, responses: seq<Responses>) returns (counts: map<string, nat>, total: nat)
    ensures options.None? ==> counts == map[] && total == 0
    ensures options.Some? ==> counts.Keys == set o | o in options.value
    ensures forall o :: o in counts ==> counts[o] == Count(AllBallots(responses), o)
    ensures total == CountIn(AllBallots(responses), counts.Keys)
  {
    counts := map[];
    total := 0;
    if options.None? {
      CountInNone(AllBallots(responses));
      assert counts.Keys == {};
      return;
    }
    counts := StartCounts(options.value);
    ghost var keys := counts.Keys;
    var i := 0;
    while i < |responses|
      invariant 0 <= i <= |responses|
      invariant counts.Keys == keys
      invariant forall o :: o in counts ==> counts[o] == Count(AllBallots(responses[..i]), o)
      invariant total == CountIn(AllBallots(responses[..i]), keys)
    {
      counts, total := AddBallot(counts, total, AllBallots(responses[..i]), Ballot(responses[i]));
      BallotsStep(responses, i);
      i := i + 1;
    }
    assert responses[..i] == responses;
  }

  /** Every option at 0. */
  method StartCounts(opts: seq<string>) returns (counts: map<string, nat>)
    ensures counts.Keys == set o | o in opts
    ensures forall o :: o in counts ==> counts[o] == 0
  {
    counts := map[];
    var k := 0;
    while k < |opts|
      invariant 0 <= k <= |opts|
      invariant counts.Keys == set o | o in opts[..k]
      invariant forall o :: o in counts ==> counts[o] == 0
    {
      counts := counts[opts[k] := 0];
      assert opts[..k + 1] == opts[..k] + [opts[k]];
      k := k + 1;
    }
    assert opts[..k] == opts;
  }

  /** The inner loop: one participation's selected values counted on top
      of the counts of the entries `before` it. */
  method AddBallot(counts: map<string, nat>, total: nat, ghost before: seq<string>, selected: seq<string>)
    returns (counts': map<string, nat>, total': nat)
    requires forall o :: o in counts ==> counts[o] == Count(before, o)
    requires total == CountIn(before, counts.Keys)
    ensures counts'.Keys == counts.Keys
    ensures forall o :: o in counts' ==> counts'[o] == Count(before + selected, o)
    ensures total' == CountIn(before + selected, counts.Keys)
  {
    counts', total' := counts, total;
    var j := 0;
    assert before + selected[..j] == before;
    while j < |selected|
      invariant 0 <= j <= |selected|
      invariant counts'.Keys == counts.Keys
      invariant forall o :: o in counts' ==> counts'[o] == Count(before + selected[..j], o)
      invariant total' == CountIn(before + selected[..j], counts.Keys)
    {
      var v := selected[j];
      assert before + selected[..j + 1] == (before + selected[..j]) + [v];
      TallyStep(before + selected[..j], v, counts.Keys);
      if v in counts' {
        counts' := counts'[v := counts'[v] + 1];
        total' := total' + 1;
      }
      j := j + 1;
    }
    assert selected[..j] == selected;
  }

  /** One more ballot entry adds one to its own count and, when it is a
      key, one to the total. */
  lemma TallyStep(pre: seq<string>, v: string, keys: set<string>)
    ensures forall o :: Count(pre + [v], o) == Count(pre, o) + (if v == o then 1 else 0)
    ensures CountIn(pre + [v], keys) == CountIn(pre, keys) + (if v in keys then 1 else 0)
  {
    forall o ensures Count(pre + [v], o) == Count(pre, o) + (if v == o then 1 else 0) {
      CountAppend(pre, [v], o);
      assert [v][1..] == [];
    }
    CountInAppend(pre, [v], keys);
    assert [v][1..] == [];
  }

  lemma BallotsStep(responses: seq<Responses>, i: nat)
    requires i < |responses|
    ensures AllBallots(responses[..i + 1]) == AllBallots(responses[..i]) + Ballot(responses[i])
  {
    assert responses[..i + 1][..i] == responses[..i];
  }

  /** Sum of the counts of `keys`. */
  function SumCounts(keys: seq<string>, s: seq<string>): nat
  {
    if |keys| == 0 then 0 else Count(s, keys[0]) + SumCounts(keys[1..], s)
  }

  lemma {:induction false} SumCountsCons(keys: seq<string>, v: string, s: seq<string>)
    ensures SumCounts(keys, [v] + s) == Count(keys, v) + SumCounts(keys, s)
  {
    if |keys| > 0 {
      SumCountsCons(keys[1..], v, s);
      assert ([v] + s)[1..] == s;
    }
  }

  lemma {:induction false} CountOfDistinct(keys: seq<string>, v: string)
    requires NoDuplicates(keys)
    ensures Count(keys, v) == if v in keys then 1 else 0
  {
    if |keys| > 0 {
      assert NoDuplicates(keys[1..]) by {
        forall i, j | 0 <= i < j < |keys[1..]| ensures keys[1..][i] != keys[1..][j] {
          assert keys[1..][i] == keys[i + 1] && keys[1..][j] == keys[j + 1];
        }
      }
      CountOfDistinct(keys[1..], v);
      if keys[0] == v {
        forall k | 0 <= k < |keys[1..]| ensures keys[1..][k] != v {
          assert keys[1..][k] == keys[k + 1];
        }
      }
      assert keys == [keys[0]] + keys[1..];
    }
  }

  /** The total equals the sum of the per-option counts, taken over the
      distinct options. */
  lemma {:induction false} TotalIsSumOfCounts(keys: seq<string>, s: seq<string>)
    requires NoDuplicates(keys)
    ensures CountIn(s, set o | o in keys) == SumCounts(keys, s)
  {
    if |s| == 0 {
      if |keys| > 0 {
        assert SumCounts(keys, s) == SumCounts(keys[1..], s) by {
          assert Count(s, keys[0]) == 0;
        }
        ZeroCounts(keys[1..], s);
      }
    } else {
      TotalIsSumOfCounts(keys, s[1..]);
      assert s == [s[0]] + s[1..];
      SumCountsCons(keys, s[0], s[1..]);
      CountOfDistinct(keys, s[0]);
    }
  }

  lemma {:induction false} ZeroCounts(keys: seq<string>, s: seq<string>)
    requires |s| == 0
    ensures SumCounts(keys, s) == 0
  {
    if |keys| > 0 {
      ZeroCounts(keys[1..], s);
    }
  }

  /** No single option has more votes than the total. */
  lemma {:induction false} CountWithinTotal(s: seq<string>, keys: set<string>, o: string)
    requires o in keys
    ensures Count(s, o) <= CountIn(s, keys)
  {
    if |s| > 0 {
      CountWithinTotal(s[1..], keys, o);
    }
  }

  /** The percentage next to an option: shown only when some vote was
      counted (the page shows `0%` otherwise); rounding is left out. */
  function Percent(count: nat, total: nat): (p: Option<real>)
    ensures p.None? <==> total == 0
    ensures p.Some? ==> p.value * total as real == count as real * 100.0
    ensures p.Some? && count <= total ==> 0.0 <= p.value <= 100.0
  {
    if total == 0 then None else Some(count as real * 100.0 / total as real)
  }
}

=== FILE: wheel_builder.dfy ===
/** The wheel editor: prize labels or the activity's participants as
    segments, the label edits, and the save that replaces the activity's
    item. */
module WheelBuilder {
  import opened Common
  import opened Text
  import opened Entities

  const PrizesType: string := "prizes"
  const ParticipantsType: string := "participants"
  const PrizePrefix: string := "Premio "
  const AnonymousUser: string := "Usuario anónimo"

  /** A participation joined with its profile (`profiles:user_id(...)`);
      a missing profile has neither name. */
  datatype ProfileRow = ProfileRow(userId: string, username: Option<string>, displayName: Option<string>)

  predicate Truthy(s: Option<string>) {
    s.Some? && s.value != ""
  }

  /** `display_name || username || 'Usuario anónimo'`. */
  function DisplayName(p: ProfileRow): (name: string)
    ensures name != ""
    ensures Truthy(p.displayName) ==> name == p.displayName.value
    ensures !Truthy(p.displayName) && Truthy(p.username) ==> name == p.username.value
    ensures !Truthy(p.displayName) && !Truthy(p.username) ==> name == AnonymousUser
  {
    if Truthy(p.displayName) then p.displayName.value
    else if Truthy(p.username) then p.username.value
    else AnonymousUser
  }

  /** `fetchParticipants`' formatting: one `{id, name}` per row, in order. */
  function People(rows: seq<ProfileRow>): (ps: seq<Person>)
    ensures |ps| == |rows|
    ensures forall k :: 0 <= k < |ps| ==> ps[k] == Person(rows[k].userId, DisplayName(rows[k]))
  {
    seq(|rows|, k requires 0 <= k < |rows| => Person(rows[k].userId, DisplayName(rows[k])))
  }

  datatype Draft = Draft(title: string, description: string, segments: seq<string>, wheelType: string, participants: seq<Person>)

  function Initial(): (d: Draft)
    ensures d.title == "Ruleta de la Fortuna" && d.description == ""
    ensures d.segments == ["Premio 1", "Premio 2", "Inténtalo de nuevo"]
    ensures d.wheelType == PrizesType && d.participants == []
  {
    Draft("Ruleta de la Fortuna", "", ["Premio 1", "Premio 2", "Inténtalo de nuevo"], PrizesType, [])
  }

  /** `addSegment`: appends `'Premio k'`, k one past the current length. */
  function AddSegment(d: Draft): (r: Draft)
    ensures |r.segments| == |d.segments| + 1 && r.segments[..|d.segments|] == d.segments
    ensures NumberedLabel(r.segments[|d.segments|], PrizePrefix, |r.segments|)
    ensures r == d.(segments := r.segments)
  {
    var next := Numbered(PrizePrefix, |d.segments| + 1);
    assert (d.segments + [next])[..|d.segments|] == d.segments;
    d.(segments := d.segments + [next])
  }

  /** `removeSegment`: drops segment `i` while more than two remain. */
  function RemoveSegment(d: Draft, i: int): (r: Draft)
    ensures |d.segments| <= 2 ==> r == d
    ensures |d.segments| > 2 ==> r == d.(segments := RemoveAt(d.segments, i))
    ensures |d.segments| >= 2 ==> |r.segments| >= 2
  {
    if |d.segments| > 2 then d.(segments := RemoveAt(d.segments, i)) else d
  }

  /** `updateSegment`: replaces label `i` only. */
  function SetSegment(d: Draft, i: nat, text: string): (r: Draft)
    requires i < |d.segments|
    ensures |r.segments| == |d.segments| && r.segments[i] == text
    ensures forall k :: 0 <= k < |d.segments| && k != i ==> r.segments[k] == d.segments[k]
    ensures r == d.(segments := r.segments)
  {
    d.(segments := SetAt(d.segments, i, text))
  }

  /** Choosing the participants mode loads the participants (when the
      query succeeds; `rows` is `None` when it failed). */
  function SetType(d: Draft, wheelType: string, rows: Option<seq<ProfileRow>>): (r: Draft)
    ensures r.wheelType == wheelType && r.segments == d.segments
    ensures wheelType == ParticipantsType && rows.Some? ==> r.participants == People(rows.value)
    ensures !(wheelType == ParticipantsType && rows.Some?) ==> r.participants == d.participants
  {
    var ps := if wheelType == ParticipantsType && rows.Some? then People(rows.value) else d.participants;
    d.(wheelType := wheelType, participants := ps)
  }

  /** The saved `segments`: the labels in prizes mode, the `{id, name}`
      snapshot in any other mode. */
  function SavedSegments(d: Draft): (s: Segments)
    ensures d.wheelType == PrizesType ==> s == Labels(d.segments)
    ensures d.wheelType != PrizesType ==> s == Entities.People(d.participants)
  {
    if d.wheelType == PrizesType then Labels(d.segments) else Entities.People(d.participants)
  }

  /** The save button's `disabled`. */
  predicate SaveDisabled(d: Draft, loading: bool) {
    loading || (d.wheelType == ParticipantsType && |d.participants| == 0)
  }

  /** `handleSubmit`: delete the activity's items, then insert the wheel at
      position 0. */
  function Save(activityId: string, d: Draft): (ws: seq<Write>)
    ensures |ws| == 2 && ws[0] == DeleteItems(activityId)
    ensures ws[1].InsertItem? && ws[1].item.activityId == activityId && ws[1].item.position == 0
    ensures ws[1].item.content == WheelContent(d.title, d.description, d.wheelType, SavedSegments(d))
  {
    [DeleteItems(activityId), InsertItem(Item(activityId, WheelContent(d.title, d.description, d.wheelType, SavedSegments(d)), 0))]
  }

  /** An enabled save in participants mode never stores an empty wheel. */
  lemma EnabledSaveHasSegments(activityId: string, d: Draft)
    requires !SaveDisabled(d, false) && d.wheelType == ParticipantsType
    ensures Save(activityId, d)[1].item.content.segments.People?
    ensures |Save(activityId, d)[1].item.content.segments.people| > 0
  {
  }

  /** After a save whose delete the store accepts, the activity has
      exactly the saved wheel as its item, and other activities' items are
      untouched. */
  lemma SaveReplacesItems(items: seq<Item>, activityId: string, d: Draft, other: string)
    ensures ItemsOf(ApplyAllToItems(items, Save(activityId, d)), activityId) == [Save(activityId, d)[1].item]
    ensures other != activityId ==>
      ItemsOf(ApplyAllToItems(items, Save(activityId, d)), other) == ItemsOf(items, other)
  {
    ReplaceItems(items, Save(activityId, d)[1].item, other);
  }

  /** The delete's error is never read: when the store rejects it, only the
      insert takes effect, the activity keeps its old items with the saved
      wheel after them, and an activity that had an item ends with more than
      one. Other activities' items are untouched either way. */
  lemma SaveWithRejectedDelete(items: seq<Item>, activityId: string, d: Draft, other: string)
    ensures ItemsOf(ApplyAllToItems(items, Save(activityId, d)[1..]), activityId)
      == ItemsOf(items, activityId) + [Save(activityId, d)[1].item]
    ensures |ItemsOf(items, activityId)| > 0 ==>
      |ItemsOf(ApplyAllToItems(items, Save(activityId, d)[1..]), activityId)| > 1
    ensures other != activityId ==>
      ItemsOf(ApplyAllToItems(items, Save(activityId, d)[1..]), other) == ItemsOf(items, other)
  {
    assert Save(activityId, d)[1..] == [InsertItem(Save(activityId, d)[1].item)];
    InsertWithoutDelete(items, Save(activityId, d)[1].item, other);
  }
}

=== FILE: wheel_player.dfy ===
/** The wheel page: which segments are shown, where the wheel stops, who
    may spin, what a spin records, and the owner's reset of the winner. */
module WheelPlayer {
  import opened Common
  import opened Entities
  import ActivityDetails
  import WheelBuilder

  // Where the wheel stops. Angles are exact reals; the browser's floating
  // point is not modelled.

  /** `x % 360` on a non-negative angle. */
  function NormalizedRotation(deg: real): (r: real)
    requires deg >= 0.0
    ensures 0.0 <= r < 360.0
    ensures (deg - r) / 360.0 == ((deg - r) / 360.0).Floor as real
  {
    var turns := (deg / 360.0).Floor;
    deg - 360.0 * turns as real
  }

  /** `Math.floor((360 - r) / (360 / n)) % n`: the segment under the
      marker at the top once the wheel has turned by `r` degrees. The quotient is
      never negative, so JavaScript's `%` agrees with Dafny's. */
  function WinningIndex(n: nat, r: real): (i: nat)
    requires n > 0 && 0.0 <= r < 360.0
    ensures i < n
    ensures r > 0.0 ==> i as real <= (360.0 - r) * n as real / 360.0 < i as real + 1.0
    ensures r == 0.0 ==> i == 0
  {
    var q := ((360.0 - r) / (360.0 / n as real)).Floor;
    assert (360.0 - r) / (360.0 / n as real) == (360.0 - r) * n as real / 360.0;
    assert q >= 0;
    q % n
  }

  /** The rotation of a spin: `360 * (5 + 3u)` degrees for the random
      draw `u` in [0, 1). */
  function SpinIndex(n: nat, u: real): (i: nat)
    requires n > 0 && 0.0 <= u < 1.0
    ensures i < n
  {
    WinningIndex(n, NormalizedRotation(360.0 * (5.0 + 3.0 * u)))
  }

  /** The page state of the wheel. `segments` are the labels on display. */
  datatype Wheel = Wheel(
    wheelType: string,
    segments: seq<string>,
    participants: seq<Person>,
    result: Option<string>,
    hasSpun: bool,
    winner: Option<Person>,
    spinning: bool)

  predicate ParticipantsMode(w: Wheel) {
    w.wheelType == WheelBuilder.ParticipantsType
  }

  /** In participants mode the labels on display are the participants'
      names, in order. */
  ghost predicate Inv(w: Wheel) {
    ParticipantsMode(w) ==>
      |w.segments| == |w.participants| &&
      forall k :: 0 <= k < |w.segments| ==> w.segments[k] == w.participants[k].name
  }

  function Names(ps: seq<Person>): (ns: seq<string>)
    ensures |ns| == |ps| && forall k :: 0 <= k < |ns| ==> ns[k] == ps[k].name
  {
    seq(|ps|, k requires 0 <= k < |ps| => ps[k].name)
  }

  /** Loading. In participants mode the segments are the participants
      fetched now (`rows`, `None` when the query failed), not the saved
      snapshot; in any other mode they are the saved labels. A prior
      `responses.result` marks the user as having spun; a stored winner
      is read only in participants mode. */
  function Load(wheelType: string, saved: Segments, settings: Settings, user: Option<string>,
                prior: Option<Responses>, rows: Option<seq<WheelBuilder.ProfileRow>>): (w: Wheel)
    ensures Inv(w) && !w.spinning && w.wheelType == wheelType
    ensures wheelType == WheelBuilder.ParticipantsType && rows.Some? ==>
      w.participants == WheelBuilder.People(rows.value)
    ensures wheelType != WheelBuilder.ParticipantsType && saved.Labels? ==> w.segments == saved.labels
    ensures w.hasSpun <==> user.Some? && prior.Some? && prior.value.SpinResult? && prior.value.result != ""
    ensures w.hasSpun ==> w.result == Some(prior.value.result)
    ensures w.winner.Some? <==>
      wheelType == WheelBuilder.ParticipantsType && settings.WheelSettings? && settings.winner.Some?
    ensures w.winner.Some? ==> w.winner == settings.winner
  {
    var ps := if wheelType == WheelBuilder.ParticipantsType && rows.Some? then WheelBuilder.People(rows.value) else [];
    var segs :=
      if wheelType == WheelBuilder.ParticipantsType then Names(ps)
      else match saved
        case Labels(ls) => ls
        case People(people) => Names(people);
    var spun := user.Some? && prior.Some? && prior.value.SpinResult? && prior.value.result != "";
    var winner :=
      if wheelType == WheelBuilder.ParticipantsType && settings.WheelSettings? then settings.winner else None;
    Wheel(wheelType, segs, ps, if spun then Some(prior.value.result) else None, spun, winner, false)
  }

  /** The spin control. */
  datatype Control = Hidden | Shown(enabled: bool)

  /** In prizes mode every visitor sees the button, enabled for a signed-in
      user who has not spun and is not spinning. Otherwise only the owner
      sees it, enabled while no winner is set and no spin runs; with no
      participants the page shows a notice instead of the wheel. */
  function SpinControl(w: Wheel, user: Option<string>, isOwner: bool): (c: Control)
    ensures ParticipantsMode(w) && |w.segments| == 0 ==> c == Hidden
    ensures w.wheelType == WheelBuilder.PrizesType ==>
      c == Shown(!w.spinning && user.Some? && !w.hasSpun)
    ensures w.wheelType != WheelBuilder.PrizesType && !(ParticipantsMode(w) && |w.segments| == 0) ==>
      c == (if isOwner then Shown(!w.spinning && w.winner.None?) else Hidden)
  {
    if ParticipantsMode(w) && |w.segments| == 0 then Hidden
    else if w.wheelType == WheelBuilder.PrizesType then Shown(!w.spinning && user.Some? && !w.hasSpun)
    else if isOwner then Shown(!w.spinning && w.winner.None?)
    else Hidden
  }

  /** A completed spin with random draw `u`. In participants mode the
      participant under the top marker becomes the winner and is written as the
      activity's whole `settings`; otherwise the label is the user's result,
      upserted for a signed-in user, and `hasSpun` is set once stored. With
      no segments nothing happens. */
  function Spin(w: Wheel, activityId: string, user: Option<string>, u: real, stored: bool): (r: (Wheel, Option<Write>))
    requires Inv(w) && 0.0 <= u < 1.0
    ensures Inv(r.0)
    ensures |w.segments| == 0 ==> r == (w, None)
    ensures |w.segments| > 0 ==> !r.0.spinning
    ensures |w.segments| > 0 ==>
      var i := SpinIndex(|w.segments|, u);
      r.0.result == Some(w.segments[i]) &&
      (ParticipantsMode(w) ==>
        r.0.winner == Some(w.participants[i]) && r.0.winner.value.name == w.segments[i] &&
        r.1 == Some(SetSettings(activityId, WheelSettings(Some(w.participants[i]))))) &&
      (!ParticipantsMode(w) ==>
        r.0.winner == w.winner &&
        (r.1.Some? <==> user.Some?) &&
        (user.Some? ==> r.1 == Some(UpsertParticipation(activityId, user.value, SpinResult(w.segments[i]), None))) &&
        r.0.hasSpun == (w.hasSpun || (user.Some? && stored)))
  {
    if |w.segments| == 0 then (w, None)
    else
      var i := SpinIndex(|w.segments|, u);
      var seg := w.segments[i];
      if ParticipantsMode(w) then
        var p := w.participants[i];
        (w.(result := Some(seg), winner := Some(p), spinning := false),
         Some(SetSettings(activityId, WheelSettings(Some(p)))))
      else if user.Some? then
        (w.(result := Some(seg), hasSpun := w.hasSpun || stored, spinning := false),
         Some(UpsertParticipation(activityId, user.value, SpinResult(seg), None)))
      else
        (w.(result := Some(seg), spinning := false), None)
  }

  /** Prizes mode: once a spin is stored the user cannot spin again, now or
      after reloading, and the reload shows the same result. */
  lemma SpinOncePerUser(w: Wheel, activityId: string, user: string, u: real, saved: Segments, settings: Settings)
    requires Inv(w) && 0.0 <= u < 1.0 && w.wheelType == WheelBuilder.PrizesType && |w.segments| > 0
    ensures var r := Spin(w, activityId, Some(user), u, true);
      SpinControl(r.0, Some(user), false) == Shown(false) &&
      var reloaded := Load(w.wheelType, saved, settings, Some(user), Some(r.1.value.responses), None);
      (r.0.result.value != "" ==>
        reloaded.hasSpun && reloaded.result == r.0.result &&
        SpinControl(reloaded, Some(user), false) == Shown(false))
  {
  }

  /** Participants mode: once a winner is drawn the owner's control is
      disabled. */
  lemma WinnerDisablesSpin(w: Wheel, activityId: string, u: real)
    requires Inv(w) && 0.0 <= u < 1.0 && ParticipantsMode(w) && |w.segments| > 0
    ensures SpinControl(Spin(w, activityId, None, u, false).0, None, true) == Shown(false)
  {
  }

  /** The owner's reset, as written: the winner and result are cleared on
      the page, but the update clearing `settings` is never awaited, so no
      request reaches the store. */
  function ResetAsWritten(w: Wheel): (r: (Wheel, Option<Write>))
    ensures r.0.winner.None? && r.0.result.None? && r.1.None?
    ensures r.0 == w.(winner := None, result := None)
  {
    (w.(winner := None, result := None), None)
  }

  /** The reset that stores `settings {winner: null}`. */
  function Reset(w: Wheel, activityId: string): (r: (Wheel, Option<Write>))
    ensures r.0.winner.None? && r.0.result.None?
    ensures r.0 == w.(winner := None, result := None)
    ensures r.1 == Some(SetSettings(activityId, WheelSettings(None)))
  {
    (w.(winner := None, result := None), Some(SetSettings(activityId, WheelSettings(None))))
  }

  /** After the as-written reset a reload brings the old winner back and
      the owner's control is disabled again; after the corrected reset the
      reload has no winner and the control is enabled. */
  lemma ResetSurvivesReload(a: Activity, p: Person, saved: Segments, rows: seq<WheelBuilder.ProfileRow>)
    requires a.settings == WheelSettings(Some(p)) && |rows| > 0
    ensures var w := Load(WheelBuilder.ParticipantsType, saved, a.settings, Some(a.userId), None, Some(rows));
      var afterAsWritten := ResetAsWritten(w);
      var reloaded := Load(WheelBuilder.ParticipantsType, saved, a.settings, Some(a.userId), None, Some(rows));
      afterAsWritten.1.None? &&
      SpinControl(afterAsWritten.0, Some(a.userId), true) == Shown(true) &&
      reloaded.winner == Some(p) &&
      SpinControl(reloaded, Some(a.userId), true) == Shown(false)
    ensures var w := Load(WheelBuilder.ParticipantsType, saved, a.settings, Some(a.userId), None, Some(rows));
      var after := Reset(w, a.id);
      var stored := ActivityDetails.ApplyToActivity(a, after.1.value);
      var reloaded := Load(WheelBuilder.ParticipantsType, saved, stored.settings, Some(a.userId), None, Some(rows));
      reloaded.winner.None? && SpinControl(reloaded, Some(a.userId), true) == Shown(true)
  {
  }
}
